=== FILE: README.md ===
# Diatom in Dafny

Diatom is a small dynamically typed value: a number, a boolean, a string,
a table of named values, or nil. The C++ library keeps such trees in
memory and moves them in and out of text. This project models that core
as pure Dafny functions over immutable datatypes and proves what the code
promises about it.

- `chars.dfy` (module `Chars`) holds the character classes the lexers share
  (`[0-9]`, `[A-Za-z]`, space/tab), `Option`, runs of spaces and decimal
  numerals.
- `values.dfy` (module `Values`) models the value type of `Diatom.h` and
  `Diatom.cpp`. It covers the five constructors, the type tests,
  `NilObject`, `operator[]` with its auto-creation of a Nil entry,
  assignment through it, and `clone`. A table is an association list of
  `(name, value)` entries in iteration order. The source placed new names
  differently over time (a `std::map` with a numeric-aware comparator in
  `Diatom.h`, a plain vector in the revision the staged serializer was
  written against). So every inserting operation takes the ordering policy
  as a parameter `before`, and `InsertionOrder` is the vector policy.
- `serialization.dfy` (module `Serialization`) models the staged `.diatom`
  reader and writer of `DiatomSerialization.h`. The reader splits the text
  into lines and tokenizes each line by maximal munch over six token rules.
  It then checks each line's grammar and the consistency of the leading
  whitespace. Only then does it build the tree bottom-up, from each line's
  nearest shallower predecessor. The writer is `serialize`.
- `storage.dfy` (module `Storage`) models the single-pass reader
  `diatomFromString` of `Diatom-Storage.cpp`. That is its `getToken` lexer
  and its state machine over StartLine / Colon / Property / PostProperty,
  with a stack of open tables and an indentation unit fixed by the first
  indented line. The module also covers the writer `__diatomToString` and
  both `diatomToString` overloads.
- `roundtrip.dfy` (module `RoundTrip`) proves that `diatomFromString`
  reads the text of `diatomToString` back as the tree that was written,
  for every writable tree. A tree is writable when:
  - every name starts with a letter, has only name characters, and is
    not `true` or `false`;
  - every string has no `"` and no newline, and does not end in a
    backslash;
  - every number's formatted text is one number token that the number
    reader reads back as the same number;
  - no table holds a Nil entry;
  - every table has unique names, in the order `before` keeps them.

  The proof works over the reader's single steps. Any reader that takes
  those steps, over stack operations that keep a few laws, reads the text
  back (`ReadsBack`). The single-pass reader is shown to take them
  (`ReaderFollows`).
- `lua.dfy` (module `LuaText`) models the Lua-literal text builders of
  `Diatom-Lua.cpp`: `__d_to_s`, `__diatomToLua`, `__reindent_lua_str` and
  `diatomToLua`.

Floating point stays abstract. The writers render numbers through a
`Formatter` (`real -> string`). The staged tokenizer reads them through a
`Scanner`, which stands for `std::stof` and reports how many characters it
consumed. The single-pass lexer reads them through a `NumberReader`, which
stands for `sscanf("%lf")`.

Several quirks of the code are modelled as written:

- The single-pass lexer drops the last character of the input when a
  number, whitespace or name run stops exactly one character before the
  end. `Storage.RunLosesLastChar` states this.
- In `__reindent_lua_str`, an unescaped `"` sets the inside-a-string flag
  and then clears it again. After any `"` the flag only says whether the
  previous character was a backslash. So a brace inside a string literal
  still moves the indentation (`LuaText.QuotedBraceIndents`).
- `__diatomToLua` compares each key with the table's last key, Nil or not.
  When the last entry is Nil, the last written entry keeps its `",\n"`
  (`LuaText.NilLastKeepsComma`).
- A structural error in `diatomFromString` returns Nil. A lexical error
  token only stops the loop, and the tree read so far is returned.
  `Storage.Outcome` records which diagnostic the source would have printed.

The code differs from the documented format in these ways, and the model
follows the code:

- An escaped quote is a quote whose previous character is a backslash.
  The code does not count backslashes.
- The staged reader has no comment token, so a `#` makes the line
  "unexpected input". Only the single-pass reader skips `#` comments.
- A trailing comma after a value is accepted only by the single-pass
  reader.
- The single-pass reader also accepts `'` as a string quote.
- The single-pass reader allows `.` inside names, because its
  name-character class includes the numeric class, which contains `.`.
- Tables keep the order their policy gives them. Under `InsertionOrder`
  that is insertion order.

## Model

| member | source | states |
|---|---|---|
| Values.FromNumber | Diatom.h:30 | the number constructor gives a Number carrying the given value |
| Values.FromBool | Diatom.h:31 | the bool constructor gives a Bool carrying the given value |
| Values.FromString | Diatom.h:32-36 | both string constructors give a String carrying the given text |
| Values.NewTable | Diatom.h:38-39 | the default constructor gives an empty Table |
| Values.NilObject | Diatom.h:50 | `NilObject()` is a Nil value; with value semantics no caller can write through a shared instance |
| Values.ExactlyOneKind | Diatom.h:61-65 | exactly one of `isTable`, `isNumber`, `isString`, `isBool` and `isNil` holds for every value |
| Values.Index | Diatom.cpp:15-19 | indexing a present name returns its value and leaves the table unchanged; indexing a missing name inserts exactly one Nil entry at the policy's position, returns Nil and changes no other lookup; unique names stay unique |
| Values.IndexText | Diatom.cpp:20-22 | the `std::string` overload reaches, or creates as Nil, the entry named by the text up to its first NUL |
| Values.NulCutsKey | Diatom.cpp:20-22 | a name followed by a NUL and anything at all reaches the same entry as the name alone, and a name without a NUL is used whole |
| Chars.CStrCuts | Diatom.cpp:21 | `c_str()` read as a C string keeps exactly the text before the first NUL |
| Values.Assign | Diatom.cpp:15-19 | `d[key] = v` binds `key` to `v` and changes no other lookup; for an existing name the value is overwritten in place: the table keeps its length and every other entry its position; a new name is inserted at the policy's position; unique names stay unique |
| Values.AssignAgain | Diatom.cpp:15-19 | repeating an assignment leaves the table as the first assignment left it |
| Values.AssignAppends | Diatom.cpp:17 | a new name that sorts before no existing one is appended at the end |
| Values.LookupAfterInsert | Diatom.cpp:17 | after inserting a new name, looking it up gives its value and every other name's lookup is unchanged |
| Values.Clone | Diatom.cpp:24-45 | the copy has the original's tag and an equal payload, all the way down through nested tables |
| Values.InsertKeepsOrder | Diatom.h:28 | under any strict order (a strict weak order such as the comparator included), inserting a name equivalent to none of the table's pairwise non-equivalent names keeps the table sorted, as the `std::map` does |
| Values.InsertionOrderPreserved | DiatomSerialization.h:650 | under insertion order, touching distinct new names leaves them at the end in the order they were touched |
| Values.DropNilKeeps | DiatomSerialization.h:169-171 | removing Nil entries keeps exactly the entries that are not Nil |
| Values.DropNilTwice | DiatomSerialization.h:169-171 | removing Nil entries twice is the same as removing them once |
| Values.DropNilUnique | DiatomSerialization.h:169-171 | removing Nil entries keeps names unique |
| Serialization.Split | DiatomSerialization.h:122-148 | an empty text gives no pieces; a text without the separator gives itself; no piece contains the separator |
| Serialization.SplitJoin | DiatomSerialization.h:122-148 | joining the pieces with the separator gives back the text, without a final separator if there was one (so no trailing empty piece) |
| Chars.Indent | DiatomSerialization.h:86-90 | `indent(n)` is 2n spaces, the same indentation as `__INDENT` at Diatom-Storage.cpp:30 |
| Serialization.TokenName | DiatomSerialization.h:248-261 | Invalid unless the first character is a letter; otherwise the maximal run of letters, digits and `_`, rejected when it is `true` or `false` |
| Serialization.TokenString | DiatomSerialization.h:263-281 | Invalid unless at `"`; the literal runs to the first quote not after a backslash, or to the end of the line; a line break met first is an Error |
| Serialization.TokenNumber | DiatomSerialization.h:283-295 | Invalid unless at a digit, `.` or `-`; otherwise the text the scanner consumed, with the scanner's value |
| Serialization.TokenBool | DiatomSerialization.h:297-308 | `true` or `false` when the next four or five characters spell them, Invalid otherwise |
| Serialization.TokenWhitespace | DiatomSerialization.h:310-323 | Invalid on an empty run; an Error exactly when the maximal run mixes tabs and spaces; otherwise that run |
| Serialization.TokenColon | DiatomSerialization.h:325-329 | a Colon exactly at `:` |
| Serialization.CandidateFacts | DiatomSerialization.h:399-412 | every matching token matches the text at the position and is not Invalid; an Error is the only candidate; every other candidate is at least one character long |
| Serialization.Longest | DiatomSerialization.h:512-520 | the chosen candidate is at least as long as every other and strictly longer than every earlier one |
| Serialization.Tokenize | DiatomSerialization.h:501-527 | the result is the single "Invalid input" error, or tokens whose texts concatenate to the line |
| Serialization.TokenizeMaximalMunch | DiatomSerialization.h:501-527 | a successful tokenization takes at each position the first strictly longest candidate and advances by its length; it fails exactly when some position has no candidate or only an Error; and it is the only such token sequence |
| Serialization.StripNonleadingWhitespace | DiatomSerialization.h:414-425 | the first token is kept, no later token is whitespace, and every later non-whitespace token survives |
| Serialization.DropWhitespaceAppend | DiatomSerialization.h:419-423 | the filter works piece by piece: filtering `a + b` is filtering `a`, then `b`, so kept tokens keep their order |
| Serialization.StripDropsWhitespace | DiatomSerialization.h:414-425 | a whitespace token after the first token is removed and the tokens around it stay in order |
| Serialization.StripKeepsClean | DiatomSerialization.h:414-425 | a line with no whitespace after its first token is returned unchanged |
| Serialization.LineIsValidShapes | DiatomSerialization.h:364-397 | a line is valid exactly when, after one optional leading whitespace token, it is `Name Colon` or `Name Colon Prop` with a string, number or bool property |
| Serialization.CalculateIndent | DiatomSerialization.h:427-438 | no leading whitespace gives 0; leading spaces give half their count, rounded down; leading tabs give their count |
| Serialization.FindInconsistentWhitespaceSound | DiatomSerialization.h:440-499 | no line is reported exactly when line 0 has no indent and every indented line passes every indentation rule; a reported line is 0 or the first indented line that breaks one |
| Serialization.TokensToLine | DiatomSerialization.h:529-556 | a checked line's record has its indent, its name and its property, if any |
| Serialization.LineToSingleValue | DiatomSerialization.h:558-568 | a string property loses its quotes, a number keeps its value, a bool is `true` exactly for the text `true`, and a line without a property gives an empty table |
| Serialization.NearestParent | DiatomSerialization.h:640-648 | a line's parent is the nearest earlier line exactly one level shallower; a line at level 0, or with no such line, goes to the root |
| Serialization.ReverseTablesInvolution | DiatomSerialization.h:652-656 | reversing every table twice gives back the tree |
| Serialization.DropTrailingNewlines | DiatomSerialization.h:575-577 | only newlines are removed from the end, and the result does not end with one |
| Serialization.DropLeadingNewlines | DiatomSerialization.h:578-584 | only newlines are removed from the start, and the result does not start with one |
| Serialization.ParseTokens | DiatomSerialization.h:593-658 | a failure reports the first line with a lexical error; otherwise the first line with invalid structure; otherwise the line the whitespace check reports, each numbered from 1; the parse succeeds exactly when all three checks pass, and then gives a table |
| Serialization.SerializeSkipsNil | DiatomSerialization.h:168-171 | a table is written exactly as the same table with its Nil entries removed |
| Serialization.SerializeEndsWithNewline | DiatomSerialization.h:160-186 | every leaf's text ends with a newline, and so does every non-empty table's |
| Storage.Lex | Diatom-Storage.cpp:130-224 | a token and the input left after it; empty input is EndOfString; a leading newline, colon or comma is consumed alone; every token but EndOfString and an error consumes at least one character |
| Storage.LexComment | Diatom-Storage.cpp:142-149 | a comment ends the input when there is no newline; otherwise it consumes everything up to and including the first newline and gives EndOfLine |
| Storage.LexString | Diatom-Storage.cpp:152-170 | a literal ends at the first matching quote not after a backslash; its content loses the backslash before each escaped quote; a newline first, or the end of the input, is an error that consumes nothing |
| Storage.LexNumber | Diatom-Storage.cpp:173-184 | a number is its first character and the run of digits and `.` after it, valued by the reader |
| Storage.LexBlank | Diatom-Storage.cpp:187-194 | whitespace is the maximal run of blanks |
| Storage.LexWord | Diatom-Storage.cpp:197-207 | a word is the maximal run of name characters; it is a BoolProperty exactly when it is `true` or `false`, and a Name otherwise |
| Storage.RunLosesLastChar | Diatom-Storage.cpp:176-202 | a number, whitespace or name run that stops one character before the end consumes the whole input, and that last character is lost |
| Storage.StringLiteralRoundTrip | Diatom-Storage.cpp:152-170 | a text without newlines, with its quotes escaped and put between quotes, lexes back to that text |
| Storage.Measure | Diatom-Storage.cpp:329-341 | an indent is accepted exactly when it uses only the unit's character and its width divides it; it then counts width-many characters per level |
| Storage.FirstIndentFixesUnit | Diatom-Storage.cpp:315-326 | the first indent fixes the unit to its character and width, counts as one level, and is refused when it mixes characters or there is no open table to indent into |
| Storage.Dedent | Diatom-Storage.cpp:337-353 | an indent passes exactly when it measures to a level no deeper than the current one; the stack then loses exactly the levels given up |
| Storage.TakeIndent | Diatom-Storage.cpp:312-354 | an indent at line start never deepens the level, and keeps the invariant that the stack holds one table per level plus the root |
| Storage.AtLineStart | Diatom-Storage.cpp:312-373 | at line start a newline changes nothing, a name closes the tables down to the line's indent and waits for a colon, and any other token is an error |
| Storage.AtProperty | Diatom-Storage.cpp:383-410 | after a colon, a newline opens a new empty table under the name one level deeper; a value binds the name in the innermost table; anything else changes nothing |
| Storage.Bind | Diatom-Storage.cpp:397-404 | binding a value changes only the innermost table, where the name now holds the value and every other name keeps its lookup |
| Storage.ClosingKeepsTree | Diatom-Storage.cpp:348-352 | popping open tables loses nothing: the tree they close into is the same |
| Storage.PushKeepsTree | Diatom-Storage.cpp:385-392 | opening a table is the same, for the final tree, as binding the name to an empty table |
| Storage.Step | Diatom-Storage.cpp:283-420 | one token's effect: an error token stops with the tree so far; the end of the input stops, in error only between a name and its colon; whitespace counts only at line start; a comma only after a value; after a value only a comma, whitespace or newline; lines are counted as they end |
| Storage.Run | Diatom-Storage.cpp:283-422 | the loop ends with a table, or with Nil exactly when a structural error stopped it |
| Storage.DiatomFromString | Diatom-Storage.cpp:75-423 | the result is a table or Nil, a table whenever nothing went wrong, and an empty table for empty input |
| Storage.WriteIgnoresNil | Diatom-Storage.cpp:37-55 | writing ignores Nil entries at every depth |
| Storage.DiatomToString | Diatom-Storage.cpp:60-63 | nothing exactly for Nil; any other text ends with a newline |
| Storage.DiatomToStringNamed | Diatom-Storage.cpp:65-70 | nothing for Nil; otherwise the value written as the only entry of a fresh table, one level deep under its name cut at the first NUL, since `d_wrapper[name]` goes through the `std::string` overload |
| RoundTrip.StorageLawful | Diatom-Storage.cpp:383-404 | opening a table under a fresh name that sorts last, filling it and closing it appends it to its parent under that name; binding such a name appends it |
| RoundTrip.ReaderFollows | Diatom-Storage.cpp:283-422 | from the states the written text leads to, the reader's loop takes a newline, an indentation of two spaces per level, `name:`, a leaf's literal and the end of the text as the writer meant them |
| RoundTrip.ReadsBack | Diatom-Storage.cpp:37-55 | any reader that takes those steps reads the writer's text of a writable table back as that table, with no diagnostic |
| RoundTrip.WriteThenRead | Diatom-Storage.cpp:60-63 | `diatomFromString(diatomToString(t))` is `t`, with no diagnostic, for every writable table `t` |
| RoundTrip.WriteNamedThenRead | Diatom-Storage.cpp:65-70 | `diatomFromString(diatomToString(d, name))` is the table holding `d` under `name`, for a writable non-Nil `d` and a readable name |
| LuaText.LeafText | Diatom-Lua.cpp:9-14 | a string is quoted, a bool is `true` or `false`, a number is its formatted text, and tables and Nil give the empty text |
| LuaText.LuaTableShape | Diatom-Lua.cpp:43-58 | a table's text is `{\n`, then the non-Nil entries as `name = value` joined by `",\n"`, then the closing separator, then `}` |
| LuaText.LuaTableSkipsNil | Diatom-Lua.cpp:46-54 | when the last entry is not Nil, the text is the same as the text of the table without its Nil entries |
| LuaText.NilLastKeepsComma | Diatom-Lua.cpp:51-54 | an entry is followed by `"\n"` only when its key is the table's last key, so a Nil last entry leaves a trailing `",\n"` |
| LuaText.QuoteFlagTracksInside | Diatom-Lua.cpp:29-30 | after each character the flag holds exactly when the last `"` so far follows a backslash |
| LuaText.StepLevelIsDepth | Diatom-Lua.cpp:32-33 | the level after each character is the number of counted `{` up to it minus the number of counted `}` up to the next character |
| LuaText.Reindent | Diatom-Lua.cpp:16-41 | the output is the input with, after each counted newline, four spaces per positive level of depth and nothing else |
| LuaText.ReindentKeepsChars | Diatom-Lua.cpp:35-38 | every input character appears in order in the output, and only a newline is followed by added spaces, four per level |
| LuaText.WeaveAddsSpaces | Diatom-Lua.cpp:35-38 | every output character is an input character or a space that follows a newline with only spaces in between |
| LuaText.ReindentWithoutNewline | Diatom-Lua.cpp:35-38 | an input without a newline comes back unchanged |
| LuaText.QuotedBraceIndents | Diatom-Lua.cpp:29-38 | a brace inside a string literal still counts, because the quote flag is cleared on the quote that set it |
| LuaText.DiatomToLua | Diatom-Lua.cpp:153-155 | a leaf gives its leaf text; a table gives text that starts with `{\n` and ends with `}` |

## Left out

- The Lua VM bridge (`luaToDiatom`, the `LuaObj` class and the stack-walking helpers of `Diatom-Lua.cpp`) is not modelled. It depends on an external interpreter.
- Number formatting and parsing (`float_format`, `__floatFmt`, `std::to_string`, `std::stof`, `sscanf`) are parameters, not models: `Formatter`, `Scanner` and `NumberReader`.
- The value type's key comparator `NumericoidStringComparator` is declared at Diatom.h:21 but defined nowhere in the files shown, so key ordering is the `before` parameter. Test/test.cpp:70-83 expects the order m3, n1, n4, n10, n20, n20a, so that comparator orders digit runs inside names by value; plain string order would put n10 before n4. LuaObj.cpp:18-25 defines a different comparator of the same name, which orders names that parse as numbers by value and compares all other names as strings.
- File input (`diatomFromFile`) is not modelled; its only effect beyond reading a file is a Nil result when the file cannot be opened.
- The `printf` diagnostics are modelled as a failure value (`Storage.Failure`, `Serialization.ParseError`), not as text.
- The `Diatomize` helpers are not modelled. They target a revision of the value type that is not shown.
- Placement-new and explicit destructors in the value's union are not modelled; the Dafny datatype has value semantics. This loses a source hazard: `clone` (Diatom.cpp:24-45), which `operator=` calls (Diatom.h:45-49), destroys the target's payload and sets its tag before copying. So assigning a value into itself or into its own descendant, as in `d["a"] = d["a"]["b"]`, copies from a destroyed payload, and `d["a"] = d` copies a map one of whose entries is the half-built target, already tagged as a table. Both are undefined behaviour in the source. The model gives them the well-defined result of copying the old value.
- Serialization.Unserialize: carries no contract of its own; `ParseTokens` states the error order and success on the tokenized lines.
- Serialization.BuildTree: only states that the result is a table. Where each line goes is stated by `NearestParent`, and the final reversal by `ReverseTablesInvolution`.
- Serialization.BuildTree: the final `recurse` that reverses tables is not shown in the repository. It is taken to reverse every table, the root included.
- Serialization.Serialize: no round trip with `Unserialize` is proved. Numbers pass through an abstract formatter and scanner, and strings are written without escaping their quotes.
- Serialization.FindInconsistentWhitespace: its own contract only bounds the reported line. `FindInconsistentWhitespaceSound` states the rules.
- Storage.PopN: only states the new stack depth. `ClosingKeepsTree` states that popping loses no data.
- Storage.Run: only states how the loop can end. The per-token behaviour is stated by `Step`.
- Storage.DiatomFromString: its own contract states the result's shape, not the tree. `RoundTrip.WriteThenRead` gives the tree for text the writer produced from a writable tree. Other text is described only step by step, by `Step`, `AtProperty`, `Bind` and `PushKeepsTree`.
- RoundTrip.WriteThenRead: holds only for writable trees. Names that are not letter-initial name runs or that are `true`/`false`, strings with `"`, a newline or a final backslash, numbers whose text does not read back, Nil entries, and tables out of `before` order are outside it.
- Storage.LexNumber: when the input is a single numeric character, the source reads an uninitialised index. The model consumes that one character.
- Storage.LexString: after removing an escaping backslash, the source keeps the stale input length and can read past the end. The model reports the unterminated-literal error there.
- LuaText.DiatomToLua: states the outer shape only. The entries are stated by `LuaTableShape` and the indentation by `Reindent`.
- Values.Index: every name is told apart from every other by string equality. The source's `std::map` treats names its comparator finds equivalent as one key. The comparator is not shown, so which names are equivalent (perhaps `"n01"` and `"n1"`, given that it orders digit runs by value) is unknown. Under LuaObj.cpp's comparator, `"1"` and `"1.0"` would be one key; the model keeps two entries for such names.
- Values.Assign: keys by string equality too. Where the source's comparator finds a new name equivalent to an existing one, the source overwrites that entry and the model adds another.
- Values.Index: requires a table. Diatom.cpp:16 calls `_descendants.find` whatever the type; on a non-table `_descendants` shares the union of Diatom.h:80-87 with the other payloads, so the call reads memory that holds no map. The model does not represent that undefined behaviour.
- Serialization.DropTrailingNewlines: the source calls `s.back()` at DiatomSerialization.h:575 without checking for an empty string, which is undefined for empty or all-newline text. The model stops at the empty text.
- Serialization.DropLeadingNewlines: the loop at DiatomSerialization.h:579 reads `*i` before testing `i < s.end()`, so for a text that is empty once its trailing newlines are gone the end position is read. The model tests the bound first.
- Serialization.LineToSingleValue: a one-character string token `"` (a quote that is the last character of the text, from DiatomSerialization.h:264-281) makes DiatomSerialization.h:561 build a string from a reversed range, which is undefined. The model gives the empty text there.
- Integer widths (`int`, `size_t`) are unbounded in the model. Texts long enough to overflow them are out of scope.

=== FILE: chars.dfy ===
/** Small shared vocabulary for the Diatom model: an Option type, the
    character classes both text formats are built from, runs of repeated
    text, and the decimal rendering of line numbers in error messages. */
module Chars {

  datatype Option<+T> = None | Some(value: T)

  predicate IsDigit(c: char) { '0' <= c <= '9' }

  predicate IsAlpha(c: char) { ('a' <= c <= 'z') || ('A' <= c <= 'Z') }

  /** A space or a tab: the only characters that form indentation. */
  predicate IsBlank(c: char) { c == ' ' || c == '\t' }

  /** A run of `n` spaces. */
  function Spaces(n: nat): (r: string)
    ensures |r| == n
    ensures forall i :: 0 <= i < n ==> r[i] == ' '
  {
    if n == 0 then "" else " " + Spaces(n - 1)
  }

  /** A `std::string` read back through `c_str()`: the text up to its first
      NUL character. */
  function CStr(s: string): (r: string)
    ensures |r| <= |s| && r == s[..|r|]
    ensures forall i :: 0 <= i < |r| ==> r[i] != '\0'
    ensures |r| < |s| ==> s[|r|] == '\0'
  {
    if |s| == 0 || s[0] == '\0' then "" else [s[0]] + CStr(s[1..])
  }

  /** Whatever follows the first NUL is lost, and text without a NUL
      passes through whole. */
  lemma CStrCuts(p: string, q: string)
    requires forall i :: 0 <= i < |p| ==> p[i] != '\0'
    ensures CStr(p + "\0" + q) == p
    ensures CStr(p) == p
  {
    var s := p + "\0" + q;
    var r := CStr(s);
    assert s[|p|] == '\0';
    assert r == s[..|p|] == p;
    assert CStr(p) == p[..|p|];
  }

  /** The indentation of both writers: two spaces per level. */
  function Indent(level: nat): (r: string)
    ensures |r| == 2 * level
    ensures forall i :: 0 <= i < |r| ==> r[i] == ' '
  {
    Spaces(2 * level)
  }

  function DigitChar(d: nat): (c: char)
    requires d < 10
    ensures IsDigit(c)
  {
    "0123456789"[d]
  }

  function DigitValue(c: char): (d: nat)
    requires IsDigit(c)
    ensures d < 10
  {
    (c - '0') as nat
  }

  /** Decimal text of a natural number, as `std::to_string` writes a
      `size_t`: no sign, no leading zeros. */
  function NatToString(n: nat): (r: string)
    ensures |r| > 0
    ensures forall i :: 0 <= i < |r| ==> IsDigit(r[i])
    ensures |r| > 1 ==> r[0] != '0'
    decreases n
  {
    if n < 10 then [DigitChar(n)] else NatToString(n / 10) + [DigitChar(n % 10)]
  }

  /** Value of a string of decimal digits, read most significant first. */
  function DecimalValue(s: string): nat
    requires forall i :: 0 <= i < |s| ==> IsDigit(s[i])
  {
    if |s| == 0 then 0 else 10 * DecimalValue(s[..|s| - 1]) + DigitValue(s[|s| - 1])
  }

  /** Reading back the decimal text gives the number that was written. */
  lemma {:induction false} NatToStringRoundTrip(n: nat)
    ensures DecimalValue(NatToString(n)) == n
    decreases n
  {
    if n >= 10 {
      var r := NatToString(n);
      assert r[..|r| - 1] == NatToString(n / 10);
      NatToStringRoundTrip(n / 10);
    }
  }
}

=== FILE: lua.dfy ===
// Lua-literal text helpers of Diatom-Lua.cpp: a leaf as Lua text, a table
// as a Lua table constructor, and the re-indentation pass run over it.

module LuaText {
  import opened Chars
  import opened Values

  // ---------------------------------------------------------------------
  // Leaves (__d_to_s)

  /** `__d_to_s`: a number through `std::to_string` (the parameter `fmt`),
      a string between double quotes, a bool as `true`/`false`, and
      nothing for a table or Nil. */
  function LeafText(d: Value, fmt: Formatter): (r: string)
    ensures d.Str? ==> |r| == |d.s| + 2 && r[0] == '"' && r[|r| - 1] == '"' && r[1..|r| - 1] == d.s
    ensures d.Bool? ==> r == (if d.b then "true" else "false")
    ensures d.Number? ==> r == fmt(d.n)
    ensures r == "" <==> d.Table? || d.Nil? || (d.Number? && fmt(d.n) == "")
  {
    match d
    case Number(x) => fmt(x)
    case Str(s) => "\"" + s + "\""
    case Bool(b) => if b then "true" else "false"
    case _ => ""
  }

  // ---------------------------------------------------------------------
  // Tables (__diatomToLua)

  /** The key `rbegin()` names: the last entry's, Nil or not. */
  function LastKey(es: seq<Entry>): string
  {
    if |es| == 0 then "" else es[|es| - 1].key
  }

  /** `__diatomToLua` of a table with entries `es`: `{`, a newline, each
      entry that is not Nil as `key = value` followed by `\n` when its key
      is the table's last key and by `,\n` otherwise, then `}`. */
  function LuaTable(es: seq<Entry>, fmt: Formatter): string
    decreases es, 1
  {
    "{\n" + LuaEntries(es, LastKey(es), fmt) + "}"
  }

  function LuaEntries(es: seq<Entry>, last: string, fmt: Formatter): string
    decreases es, 0
  {
    if |es| == 0 then ""
    else
      (if es[0].val.Nil? then ""
       else LuaItem(es[0], fmt) + (if es[0].key != last then ",\n" else "\n"))
      + LuaEntries(es[1..], last, fmt)
  }

  /** One entry as `key = value`, a nested table as its own constructor. */
  function LuaItem(e: Entry, fmt: Formatter): string
    decreases e, 2
  {
    e.key + " = " + (if e.val.Table? then LuaTable(e.val.entries, fmt) else LeafText(e.val, fmt))
  }

  // ---------------------------------------------------------------------
  // The shape of a table constructor

  /** `items` separated by `sep`. */
  function Join(items: seq<string>, sep: string): string
  {
    if |items| == 0 then ""
    else if |items| == 1 then items[0]
    else items[0] + sep + Join(items[1..], sep)
  }

  /** The rendered items of entries, in order. */
  function Items(es: seq<Entry>, fmt: Formatter): (r: seq<string>)
    ensures |r| == |es|
  {
    if |es| == 0 then [] else [LuaItem(es[0], fmt)] + Items(es[1..], fmt)
  }

  /** What follows the last item: nothing when no entry is written, `\n`
      when the last entry is written, and a trailing `,\n` when the last
      entry is Nil, since the key compared against is the last key of the
      whole table. */
  function Closing(es: seq<Entry>): string
  {
    if |DropNil(es)| == 0 then ""
    else if es[|es| - 1].val.Nil? then ",\n"
    else "\n"
  }

  /** `last` is the key of the last entry and of no other one. */
  ghost predicate LastKeyOnce(es: seq<Entry>, last: string)
  {
    |es| > 0 ==>
      && es[|es| - 1].key == last
      && forall i :: 0 <= i < |es| - 1 ==> es[i].key != last
  }

  lemma ItemsCons(e: Entry, es: seq<Entry>, fmt: Formatter)
    ensures Items([e] + es, fmt) == [LuaItem(e, fmt)] + Items(es, fmt)
  {
    assert ([e] + es)[1..] == es;
  }

  lemma LuaEntriesCons(e: Entry, rest: seq<Entry>, last: string, fmt: Formatter)
    ensures LuaEntries([e] + rest, last, fmt)
      == (if e.val.Nil? then "" else LuaItem(e, fmt) + (if e.key != last then ",\n" else "\n"))
         + LuaEntries(rest, last, fmt)
  {
    assert ([e] + rest)[1..] == rest;
  }

  /** A written entry in front of entries that write nothing closes with
      a comma, the last entry then being Nil. */
  lemma ClosingCons(e: Entry, rest: seq<Entry>)
    ensures e.val.Nil? ==> Closing([e] + rest) == Closing(rest)
    ensures !e.val.Nil? && |rest| == 0 ==> Closing([e] + rest) == "\n"
    ensures !e.val.Nil? && |rest| > 0 && |DropNil(rest)| == 0 ==> Closing([e] + rest) == ",\n"
    ensures |DropNil(rest)| > 0 ==> Closing([e] + rest) == Closing(rest)
  {
    var es := [e] + rest;
    DropNilCons(e, rest);
    if |rest| > 0 {
      assert es[|es| - 1] == rest[|rest| - 1];
    }
  }

  /** The entries of a table constructor are its written items joined by
      `,\n`, closed as `Closing` says. */
  lemma {:induction false} LuaEntriesShape(es: seq<Entry>, last: string, fmt: Formatter)
    requires LastKeyOnce(es, last)
    ensures LuaEntries(es, last, fmt) == Join(Items(DropNil(es), fmt), ",\n") + Closing(es)
  {
    if |es| > 0 {
      var e, rest := es[0], es[1..];
      assert es == [e] + rest;
      assert LastKeyOnce(rest, last);
      LuaEntriesShape(rest, last, fmt);
      if e.val.Nil? {
        NilHeadShape(e, rest, last, fmt);
      } else {
        assert |rest| == 0 ==> e.key == last;
        assert |rest| > 0 ==> e.key != last;
        ItemHeadShape(e, rest, last, fmt);
      }
    }
  }

  lemma NilHeadShape(e: Entry, rest: seq<Entry>, last: string, fmt: Formatter)
    requires e.val.Nil?
    requires LuaEntries(rest, last, fmt) == Join(Items(DropNil(rest), fmt), ",\n") + Closing(rest)
    ensures LuaEntries([e] + rest, last, fmt) == Join(Items(DropNil([e] + rest), fmt), ",\n") + Closing([e] + rest)
  {
    LuaEntriesCons(e, rest, last, fmt);
    DropNilCons(e, rest);
    ClosingCons(e, rest);
  }

  lemma ItemHeadShape(e: Entry, rest: seq<Entry>, last: string, fmt: Formatter)
    requires !e.val.Nil?
    requires |rest| == 0 ==> e.key == last
    requires |rest| > 0 ==> e.key != last
    requires LuaEntries(rest, last, fmt) == Join(Items(DropNil(rest), fmt), ",\n") + Closing(rest)
    ensures LuaEntries([e] + rest, last, fmt) == Join(Items(DropNil([e] + rest), fmt), ",\n") + Closing([e] + rest)
  {
    LuaEntriesCons(e, rest, last, fmt);
    DropNilCons(e, rest);
    ClosingCons(e, rest);
    var dr := DropNil(rest);
    ItemsCons(e, dr, fmt);
    JoinStep(LuaItem(e, fmt), Items(dr, fmt), ",\n");
  }

  /** An item in front of others is followed by the separator; alone, by
      nothing. */
  lemma JoinStep(x: string, xs: seq<string>, sep: string)
    ensures |xs| == 0 ==> Join([x] + xs, sep) == x && Join(xs, sep) == ""
    ensures |xs| > 0 ==> Join([x] + xs, sep) == x + sep + Join(xs, sep)
  {
    assert ([x] + xs)[1..] == xs;
  }

  /** A table whose keys are unique (a `std::map`) is written as a Lua
      table constructor: `{`, a newline, the written entries joined by
      `,\n`, the closing newline, `}`. */
  lemma LuaTableShape(es: seq<Entry>, fmt: Formatter)
    requires UniqueKeys(es)
    ensures LuaTable(es, fmt) == "{\n" + Join(Items(DropNil(es), fmt), ",\n") + Closing(es) + "}"
  {
    LuaEntriesShape(es, LastKey(es), fmt);
  }

  /** When the last entry is written (or there are none), Nil entries
      leave no trace: the table writes as the table without them. */
  lemma LuaTableSkipsNil(es: seq<Entry>, fmt: Formatter)
    requires UniqueKeys(es)
    requires |es| == 0 || !es[|es| - 1].val.Nil?
    ensures LuaTable(es, fmt) == LuaTable(DropNil(es), fmt)
  {
    var d := DropNil(es);
    LuaTableShape(es, fmt);
    DropNilTwice(es);
    DropNilUnique(es);
    LuaTableShape(d, fmt);
    if |es| > 0 {
      LastWritten(es);
    }
  }

  /** With a Nil last entry the last written one still carries a comma:
      `{a = true, b = nil}` writes `a = true,` where the table without the
      Nil writes `a = true`. */
  lemma NilLastKeepsComma(fmt: Formatter)
    ensures LuaTable([Entry("a", Bool(true)), Entry("b", Nil)], fmt) == "{\na = true,\n}"
    ensures LuaTable([Entry("a", Bool(true))], fmt) == "{\na = true\n}"
  {
    var es := [Entry("a", Bool(true)), Entry("b", Nil)];
    assert LuaItem(es[0], fmt) == "a = true";
    assert es[1..][1..] == [];
    assert LuaEntries(es[1..], "b", fmt) == "";
    var one := [Entry("a", Bool(true))];
    assert one[1..] == [];
    assert LuaEntries(one, "a", fmt) == "a = true\n";
  }

  // ---------------------------------------------------------------------
  // Re-indentation (__reindent_lua_str)

  /** The character before position `i`, a space at the start. */
  function PrevChar(s: string, i: nat): char
    requires i <= |s|
  {
    if i == 0 then ' ' else s[i - 1]
  }

  /** The quote flag after a character: the two tests on `"` set it and
      then clear it again unless the quote is escaped, so a `"` leaves the
      flag exactly when a backslash precedes it; other characters leave it
      as it was. */
  function QuoteFlag(c: char, prev: char, inside: bool): bool
  {
    if c == '"' then prev == '\\' else inside
  }

  /** Four spaces per level; none at a level below one. */
  function Pad(level: int): (r: string)
    ensures |r| == (if level > 0 then 4 * level else 0)
    ensures forall i :: 0 <= i < |r| ==> r[i] == ' '
  {
    if level > 0 then Spaces(4 * level) else ""
  }

  /** The loop of `__reindent_lua_str` from position `i`, with the indent
      level and the quote flag it carries. */
  function ReindentFrom(s: string, i: nat, level: int, inside: bool): string
    requires i <= |s|
    decreases |s| - i
  {
    if i == |s| then ""
    else
      var c := s[i];
      var ins := QuoteFlag(c, PrevChar(s, i), inside);
      var closed := StepLevel(s, i, level, ins);
      [c] + (if c == '\n' && !ins then Pad(closed) else "") + ReindentFrom(s, i + 1, closed, ins)
  }

  /** The level after the step for position `i`: one up on a `{` outside
      strings, one down when the next character is a `}` outside strings. */
  function StepLevel(s: string, i: nat, level: int, ins: bool): int
    requires i < |s|
  {
    var raised := if s[i] == '{' && !ins then level + 1 else level;
    if i + 1 < |s| && s[i + 1] == '}' && !ins then raised - 1 else raised
  }

  /** `__reindent_lua_str`. */
  function Reindent(s: string): (r: string)
    ensures r == Weave(s, Pads(s))
  {
    ReindentIsWeave(s);
    ReindentFrom(s, 0, 0, false)
  }

  // The same pass stated position by position.

  /** The last `"` at or before `j`. */
  function LastQuote(s: string, j: nat): (r: Option<nat>)
    requires j < |s|
    ensures r.Some? ==>
      && r.value <= j && s[r.value] == '"'
      && forall m :: r.value < m <= j ==> s[m] != '"'
    ensures r.None? ==> forall m :: 0 <= m <= j ==> s[m] != '"'
  {
    if s[j] == '"' then Some(j)
    else if j == 0 then None
    else LastQuote(s, j - 1)
  }

  /** Position `j` is taken to be inside a string exactly when the last
      `"` up to it is preceded by a backslash. */
  predicate InsideAt(s: string, j: nat)
    requires j < |s|
  {
    match LastQuote(s, j)
    case None => false
    case Some(k) => PrevChar(s, k) == '\\'
  }

  /** The `{` before position `n` taken to be outside strings. */
  function Opens(s: string, n: nat): nat
    requires n <= |s|
  {
    if n == 0 then 0
    else Opens(s, n - 1) + (if s[n - 1] == '{' && !InsideAt(s, n - 1) then 1 else 0)
  }

  /** The `}` at positions 1 to `n - 1` taken to be outside strings (one
      at position 0 has no character before it to see it coming). */
  function Closes(s: string, n: nat): nat
    requires n <= |s|
  {
    if n <= 1 then 0
    else Closes(s, n - 1) + (if s[n - 1] == '}' && !InsideAt(s, n - 1) then 1 else 0)
  }

  /** The level at the end of the step for position `i`: the opening
      braces up to it, less the closing ones up to the next character. */
  function Depth(s: string, i: nat): int
    requires i < |s|
  {
    Opens(s, i + 1) - Closes(s, if i + 2 <= |s| then i + 2 else |s|)
  }

  /** The spaces written after each character: four per level after a
      newline outside strings, none elsewhere. */
  function Pads(s: string): (r: seq<nat>)
    ensures |r| == |s|
    ensures forall i :: 0 <= i < |s| ==>
      r[i] == (if s[i] == '\n' && !InsideAt(s, i) && Depth(s, i) > 0 then 4 * Depth(s, i) else 0)
  {
    seq(|s|, i requires 0 <= i < |s| =>
      if s[i] == '\n' && !InsideAt(s, i) && Depth(s, i) > 0 then 4 * Depth(s, i) else 0)
  }

  /** `s` with `pads[i]` spaces written after its `i`th character. */
  function Weave(s: string, pads: seq<nat>): (r: string)
    requires |pads| == |s|
  {
    if |s| == 0 then "" else [s[0]] + Spaces(pads[0]) + Weave(s[1..], pads[1..])
  }

  function Sum(xs: seq<nat>): nat
  {
    if |xs| == 0 then 0 else xs[0] + Sum(xs[1..])
  }

  lemma QuoteFlagTracksInside(s: string, i: nat, inside: bool)
    requires i < |s|
    requires inside == (i > 0 && InsideAt(s, i - 1))
    ensures QuoteFlag(s[i], PrevChar(s, i), inside) == InsideAt(s, i)
  {
    if s[i] != '"' && i > 0 {
      InsideSkips(s, i);
    }
  }

  lemma StepLevelIsDepth(s: string, i: nat, level: int, ins: bool)
    requires i < |s| && ins == InsideAt(s, i)
    requires level == Opens(s, i) - Closes(s, i + 1)
    ensures StepLevel(s, i, level, ins) == Depth(s, i)
  {
    var up := if s[i] == '{' && !ins then 1 else 0;
    var down := if i + 1 < |s| && s[i + 1] == '}' && !ins then 1 else 0;
    assert Opens(s, i + 1) == Opens(s, i) + up;
    if i + 1 < |s| {
      ClosesNext(s, i, ins);
      assert Closes(s, i + 2) == Closes(s, i + 1) + down;
    }
    assert StepLevel(s, i, level, ins) == level + up - down;
  }

  lemma ClosesNext(s: string, i: nat, ins: bool)
    requires i + 1 < |s| && ins == InsideAt(s, i)
    ensures Closes(s, i + 2) == Closes(s, i + 1) + (if s[i + 1] == '}' && !ins then 1 else 0)
  {
    if s[i + 1] == '}' {
      InsideSkips(s, i + 1);
    }
  }

  /** Only a `"` changes whether a position is inside a string. */
  lemma InsideSkips(s: string, j: nat)
    requires 0 < j < |s| && s[j] != '"'
    ensures InsideAt(s, j) == InsideAt(s, j - 1)
  {
    assert LastQuote(s, j) == LastQuote(s, j - 1);
  }

  lemma ReindentStep(s: string, i: nat, level: int, inside: bool)
    requires i < |s|
    ensures var ins := QuoteFlag(s[i], PrevChar(s, i), inside);
      var closed := StepLevel(s, i, level, ins);
      ReindentFrom(s, i, level, inside)
        == [s[i]] + (if s[i] == '\n' && !ins then Pad(closed) else "") + ReindentFrom(s, i + 1, closed, ins)
  {
  }

  lemma WeaveAt(s: string, pads: seq<nat>, i: nat)
    requires |pads| == |s| && i < |s|
    ensures Weave(s[i..], pads[i..]) == [s[i]] + Spaces(pads[i]) + Weave(s[i + 1..], pads[i + 1..])
  {
    assert s[i..][1..] == s[i + 1..] && pads[i..][1..] == pads[i + 1..];
  }

  /** The loop's level and flag are the position-by-position ones, so
      from any position it writes the rest of the input woven with the
      rest of the pads. */
  lemma {:induction false} ReindentFromIsWeave(s: string, i: nat, level: int, inside: bool)
    requires i <= |s|
    requires inside == (i > 0 && InsideAt(s, i - 1))
    requires level == Opens(s, i) - Closes(s, if i + 1 <= |s| then i + 1 else |s|)
    ensures ReindentFrom(s, i, level, inside) == Weave(s[i..], Pads(s)[i..])
    decreases |s| - i
  {
    if i < |s| {
      var ins := QuoteFlag(s[i], PrevChar(s, i), inside);
      QuoteFlagTracksInside(s, i, inside);
      var closed := StepLevel(s, i, level, ins);
      StepLevelIsDepth(s, i, level, ins);
      var p := Pads(s);
      assert (if s[i] == '\n' && !ins then Pad(closed) else "") == Spaces(p[i]);
      ReindentFromIsWeave(s, i + 1, closed, ins);
      ReindentStep(s, i, level, inside);
      WeaveAt(s, p, i);
    }
  }

  lemma ReindentIsWeave(s: string)
    ensures ReindentFrom(s, 0, 0, false) == Weave(s, Pads(s))
  {
    ReindentFromIsWeave(s, 0, 0, false);
    assert s[0..] == s && Pads(s)[0..] == Pads(s);
  }

  lemma {:induction false} WeaveNoPads(s: string, pads: seq<nat>)
    requires |pads| == |s| && forall i :: 0 <= i < |s| ==> pads[i] == 0
    ensures Weave(s, pads) == s
  {
    if |s| > 0 {
      WeaveNoPads(s[1..], pads[1..]);
      assert s == [s[0]] + s[1..];
    }
  }

  /** Every character of the input appears in order: the `i`th at its own
      position shifted by the spaces written before it. */
  lemma {:induction false} WeaveKeepsChars(s: string, pads: seq<nat>)
    requires |pads| == |s|
    ensures |Weave(s, pads)| == |s| + Sum(pads)
    ensures forall i :: 0 <= i < |s| ==>
      i + Sum(pads[..i]) < |Weave(s, pads)| && Weave(s, pads)[i + Sum(pads[..i])] == s[i]
  {
    if |s| > 0 {
      var w := Weave(s, pads);
      var rest := Weave(s[1..], pads[1..]);
      WeaveKeepsChars(s[1..], pads[1..]);
      assert w == [s[0]] + Spaces(pads[0]) + rest;
      forall i | 0 <= i < |s|
        ensures i + Sum(pads[..i]) < |w| && w[i + Sum(pads[..i])] == s[i]
      {
        if i > 0 {
          assert pads[..i] == [pads[0]] + pads[1..][..i - 1];
          SumCons(pads[0], pads[1..][..i - 1]);
          assert w[i + Sum(pads[..i])] == rest[(i - 1) + Sum(pads[1..][..i - 1])];
        } else {
          assert pads[..0] == [];
        }
      }
    }
  }

  /** The only characters besides the input's are spaces right after a
      newline: each position of the output is either where an input
      character went, or a space with only spaces between it and a newline
      before it. */
  lemma {:induction false} WeaveAddsSpaces(s: string, pads: seq<nat>, k: nat)
    requires |pads| == |s| && forall i :: 0 <= i < |s| && pads[i] > 0 ==> s[i] == '\n'
    requires k < |Weave(s, pads)|
    ensures || (exists i :: 0 <= i < |s| && k == i + Sum(pads[..i]))
            || (exists j :: 0 <= j < k && Weave(s, pads)[j] == '\n' &&
                  forall m :: j < m <= k ==> Weave(s, pads)[m] == ' ')
    decreases |s|
  {
    var w := Weave(s, pads);
    var rest := Weave(s[1..], pads[1..]);
    assert w == [s[0]] + Spaces(pads[0]) + rest;
    if k == 0 {
      assert pads[..0] == [] && k == 0 + Sum(pads[..0]);
    } else if k <= pads[0] {
      assert w[0] == '\n';
      assert forall m :: 0 < m <= k ==> w[m] == ' ';
    } else {
      var k' := k - 1 - pads[0];
      WeaveAddsSpaces(s[1..], pads[1..], k');
      if exists i :: 0 <= i < |s| - 1 && k' == i + Sum(pads[1..][..i]) {
        var i :| 0 <= i < |s| - 1 && k' == i + Sum(pads[1..][..i]);
        assert pads[..i + 1] == [pads[0]] + pads[1..][..i];
        SumCons(pads[0], pads[1..][..i]);
        assert k == (i + 1) + Sum(pads[..i + 1]);
      } else {
        var j' :| 0 <= j' < k' && rest[j'] == '\n' && forall m :: j' < m <= k' ==> rest[m] == ' ';
        var j := j' + 1 + pads[0];
        assert w[j] == rest[j'];
        forall m | j < m <= k ensures w[m] == ' ' {
          assert w[m] == rest[m - 1 - pads[0]];
        }
      }
    }
  }

  lemma SumCons(x: nat, xs: seq<nat>)
    ensures Sum([x] + xs) == x + Sum(xs)
  {
    assert ([x] + xs)[1..] == xs;
  }

  /** Re-indentation copies the input, in order, and adds only spaces
      right after newlines, four per level. */
  lemma ReindentKeepsChars(s: string)
    ensures |Reindent(s)| == |s| + Sum(Pads(s))
    ensures forall i :: 0 <= i < |s| ==>
      i + Sum(Pads(s)[..i]) < |Reindent(s)| && Reindent(s)[i + Sum(Pads(s)[..i])] == s[i]
    ensures forall i :: 0 <= i < |s| && Pads(s)[i] > 0 ==> s[i] == '\n' && Pads(s)[i] % 4 == 0
  {
    WeaveKeepsChars(s, Pads(s));
  }

  /** An input without newlines comes back unchanged. */
  lemma ReindentWithoutNewline(s: string)
    requires forall i :: 0 <= i < |s| ==> s[i] != '\n'
    ensures Reindent(s) == s
  {
    WeaveNoPads(s, Pads(s));
  }

  /** A `{` between quotes still raises the level: the quote flag never
      holds after an unescaped `"`, so `"{"` followed by a newline indents
      the next line. */
  lemma QuotedBraceIndents()
    ensures Reindent("\"{\"\nx") == "\"{\"\n    x"
  {
    var s := "\"{\"\nx";
    QuotedBraceLine(s);
    assert Pad(1) == "    ";
  }

  /** The pass over a text spelled `"{"`, a newline and `x`. */
  lemma QuotedBraceLine(s: string)
    requires |s| == 5 && s[0] == '"' && s[1] == '{' && s[2] == '"' && s[3] == '\n' && s[4] == 'x'
    ensures ReindentFrom(s, 0, 0, false) == [s[0]] + ([s[1]] + ([s[2]] + ([s[3]] + Pad(1) + [s[4]])))
  {
    assert ReindentFrom(s, 4, 1, false) == [s[4]] + ReindentFrom(s, 5, 1, false);
    NewlineStep(s, 3, 1);
    QuoteStep(s, 2, 1, false);
    BraceStep(s, 1, 0);
    QuoteStep(s, 0, 0, false);
  }

  /** An unescaped quote not before a `}`: it is copied and clears the
      quote flag. */
  lemma QuoteStep(s: string, i: nat, level: int, inside: bool)
    requires i < |s| && s[i] == '"' && PrevChar(s, i) != '\\'
    requires i + 1 < |s| ==> s[i + 1] != '}'
    ensures ReindentFrom(s, i, level, inside) == [s[i]] + ReindentFrom(s, i + 1, level, false)
  {
  }

  /** A newline outside a string, not before a `}`: it is copied and
      followed by the padding of the level. */
  lemma NewlineStep(s: string, i: nat, level: int)
    requires i < |s| && s[i] == '\n'
    requires i + 1 < |s| ==> s[i + 1] != '}'
    ensures ReindentFrom(s, i, level, false) == [s[i]] + Pad(level) + ReindentFrom(s, i + 1, level, false)
  {
  }

  /** A `{` outside a string, not before a `}`: it is copied and raises
      the level. */
  lemma BraceStep(s: string, i: nat, level: int)
    requires i < |s| && s[i] == '{'
    requires i + 1 < |s| ==> s[i + 1] != '}'
    ensures ReindentFrom(s, i, level, false) == [s[i]] + ReindentFrom(s, i + 1, level + 1, false)
  {
  }

  // ---------------------------------------------------------------------
  // diatomToLua

  /** `diatomToLua`: a table as a re-indented Lua table constructor, any
      other value as its leaf text. */
  function DiatomToLua(d: Value, fmt: Formatter): (r: string)
    ensures !d.Table? ==> r == LeafText(d, fmt)
    ensures d.Table? ==> |r| >= 3 && r[..2] == "{\n" && r[|r| - 1] == '}'
  {
    if d.Table? then
      var body := LuaTable(d.entries, fmt);
      assert body == "{\n" + LuaEntries(d.entries, LastKey(d.entries), fmt) + "}";
      WeaveEnds(body, Pads(body));
      Reindent(body)
    else LeafText(d, fmt)
  }

  /** A constructor's text starts `{` and a newline and ends `}`; weaving
      keeps its first character, writes nothing after it, and keeps the
      last character. */
  lemma WeaveEnds(s: string, pads: seq<nat>)
    requires |pads| == |s| && |s| >= 3 && s[0] == '{' && s[1] == '\n' && s[|s| - 1] == '}'
    requires forall i :: 0 <= i < |s| && pads[i] > 0 ==> s[i] == '\n'
    ensures var w := Weave(s, pads);
      |w| >= 3 && w[..2] == "{\n" && w[|w| - 1] == '}'
  {
    WeaveKeepsChars(s, pads);
    WeaveLast(s, pads);
    var w := Weave(s, pads);
    var rest := Weave(s[1..], pads[1..]);
    assert w == [s[0]] + Spaces(pads[0]) + rest;
    assert rest == [s[1]] + Spaces(pads[1]) + Weave(s[2..], pads[2..]);
  }

  lemma {:induction false} WeaveLast(s: string, pads: seq<nat>)
    requires |pads| == |s| && |s| > 0 && pads[|s| - 1] == 0
    ensures |Weave(s, pads)| > 0 && Weave(s, pads)[|Weave(s, pads)| - 1] == s[|s| - 1]
  {
    if |s| > 1 {
      WeaveLast(s[1..], pads[1..]);
    }
  }
}

=== FILE: roundtrip.dfy ===
// Writing a tree with diatomToString and reading the text back with the
// single-pass reader diatomFromString gives the tree again, for every tree
// whose text the lexer can take back token by token.

module RoundTrip {
  import opened Chars
  import opened Values
  import opened Storage

  // ---------------------------------------------------------------------
  // Trees whose text reads back

  /** The unit the writer's two spaces per level fix. */
  const TwoSpaces := Unit(IndentSpace, 2)

  /** A name the lexer reads back as the same name token: a letter, then
      name characters, and not one of the two boolean words. */
  predicate NameOk(k: string)
  {
    && |k| > 0 && IsAlpha(k[0])
    && (forall i :: 0 <= i < |k| ==> IsNameChar(k[i]))
    && k != "true" && k != "false"
  }

  /** A string the writer's unescaped quotes keep intact: no double quote,
      no newline, and no backslash that would escape the closing quote. */
  predicate StringOk(w: string)
  {
    && (forall i :: 0 <= i < |w| ==> w[i] != '"' && w[i] != '\n')
    && (|w| == 0 || w[|w| - 1] != '\\')
  }

  /** A number whose text is one number token that reads back as it. */
  ghost predicate NumberOk(x: real, fmt: Formatter, read: NumberReader)
  {
    var t := fmt(x);
    && |t| > 0 && (IsNumeric(t[0]) || t[0] == '-')
    && (forall j :: 1 <= j < |t| ==> IsNumeric(t[j]))
    && read(t) == x
  }

  /** Every table holds unique, well-formed names in the order `before`
      keeps them, and no Nil; every leaf's text reads back. */
  ghost predicate Writable(d: Value, fmt: Formatter, read: NumberReader, before: KeyOrder)
  {
    match d
    case Table(es) =>
      && UniqueKeys(es) && OrderedBy(es, before)
      && forall i :: 0 <= i < |es| ==>
           NameOk(es[i].key) && !es[i].val.Nil? && Writable(es[i].val, fmt, read, before)
    case Number(x) => NumberOk(x, fmt, read)
    case Str(w) => StringOk(w)
    case Bool(_) => true
    case Nil => false
  }

  // ---------------------------------------------------------------------
  // The lexer on written text

  /** What the reader keeps after a run that stops at `rest`: `rest`,
      except a lone last character, which the run throws away. */
  function Kept(rest: string): string
  {
    if |rest| == 1 then "" else rest
  }

  lemma LexBlankRun(w: string, x: string, read: NumberReader)
    requires |w| > 0 && forall i :: 0 <= i < |w| ==> IsBlank(w[i])
    requires |x| >= 2 && !IsBlank(x[0])
    ensures Lex(w + x, read) == Lexed(Whitespace(w), x)
  {
    var s := w + x;
    LexDispatch(s, read);
    RunEndIs(s, 0, |w|, BlankChars);
    assert s[..|w|] == w;
    assert s[|w|..] == x;
  }

  /** A word followed by a character that ends it. */
  lemma LexWordText(w: string, rest: string, read: NumberReader)
    requires |w| > 0 && IsAlpha(w[0]) && forall i :: 0 <= i < |w| ==> IsNameChar(w[i])
    requires |rest| > 0 && !IsNameChar(rest[0])
    ensures Lex(w + rest, read) == LexWord(w + rest)
    ensures LexWord(w + rest).rest == Kept(rest)
    ensures LexWord(w + rest).token.text == w
  {
    var s := w + rest;
    LexDispatch(s, read);
    RunEndIs(s, 0, |w|, NameChars);
    assert s[..|w|] == w;
    assert s[|w|..] == rest;
  }

  lemma LexName(key: string, x: string, read: NumberReader)
    requires NameOk(key)
    requires |x| >= 2 && !IsNameChar(x[0])
    ensures Lex(key + x, read) == Lexed(Name(key), x)
  {
    LexWordText(key, x, read);
  }

  lemma LexNumberText(t: string, rest: string, read: NumberReader)
    requires |t| > 0 && (IsNumeric(t[0]) || t[0] == '-')
    requires forall j :: 1 <= j < |t| ==> IsNumeric(t[j])
    requires |rest| > 0 && rest[0] == '\n'
    ensures Lex(t + rest, read) == Lexed(NumberProperty(t, read(t)), Kept(rest))
  {
    var s := t + rest;
    LexDispatch(s, read);
    RunEndIs(s, 1, |t|, NumericChars);
    assert s[..|t|] == t;
    assert s[|t|..] == rest;
  }

  lemma LexBoolText(w: string, rest: string, read: NumberReader)
    requires w == "true" || w == "false"
    requires |rest| > 0 && rest[0] == '\n'
    ensures Lex(w + rest, read) == Lexed(BoolProperty(w), Kept(rest))
  {
    assert IsAlpha(w[0]) && forall i :: 0 <= i < |w| ==> IsNameChar(w[i]);
    LexWordText(w, rest, read);
  }

  lemma {:induction false} EscapeNothing(text: string, q: char)
    requires forall i :: 0 <= i < |text| ==> text[i] != q
    ensures Escape(text, q) == text
  {
    if |text| > 0 {
      EscapeNothing(text[1..], q);
      assert text == [text[0]] + text[1..];
    }
  }

  lemma LexStringText(w: string, rest: string, read: NumberReader)
    requires StringOk(w)
    ensures Lex("\"" + w + "\"" + rest, read) == Lexed(StringProperty(w), rest)
  {
    EscapeNothing(w, '"');
    StringLiteralRoundTrip(w, '"', rest, read);
  }

  // ---------------------------------------------------------------------
  // The main loop, one token at a time

  lemma LexerApplies(read: NumberReader, s: string)
    ensures LexerOf(read)(s) == Lex(s, read)
  {
  }

  lemma StepperApplies(before: KeyOrder, st: State, t: Token)
    requires Inv(st) && ValidToken(t)
    ensures StepperOf(before)(st, t) == Step(st, t, before)
  {
  }

  lemma DriveContinues(st: State, input: string, lex: Lexer, step: Stepper, next: State)
    requires Inv(st) && LexerShape(lex) && StepperShape(step)
    requires step(st, lex(input).token) == Continue(next)
    ensures Drive(st, input, lex, step) == Drive(next, lex(input).rest, lex, step)
  {
  }

  lemma DriveStops(st: State, input: string, lex: Lexer, step: Stepper)
    requires Inv(st) && LexerShape(lex) && StepperShape(step)
    requires step(st, lex(input).token).Stop?
    ensures Drive(st, input, lex, step) == step(st, lex(input).token).outcome
  {
  }

  lemma EndStops(st: State, before: KeyOrder)
    requires Inv(st) && st.pos != AwaitColon
    ensures Step(st, EndOfString, before) == Stop(Outcome(Close(st.stack, WriteBack(before)), None))
  {
  }

  /** One token taken and one step that keeps going. */
  lemma Advance(st: State, input: string, read: NumberReader, before: KeyOrder,
                t: Token, rest: string, next: State)
    requires Inv(st)
    requires Lex(input, read) == Lexed(t, rest)
    requires Step(st, t, before) == Continue(next)
    ensures Run(st, input, read, before) == Run(next, rest, read, before)
  {
    LexerApplies(read, input);
    StepperApplies(before, st, t);
    DriveContinues(st, input, LexerOf(read), StepperOf(before), next);
  }

  /** At the end of the input, anywhere but before a colon, the reader
      returns the tree with every open table closed. */
  lemma Finish(st: State, read: NumberReader, before: KeyOrder)
    requires Inv(st) && st.pos != AwaitColon
    ensures Run(st, "", read, before) == Outcome(Close(st.stack, WriteBack(before)), None)
  {
    LexerApplies(read, "");
    StepperApplies(before, st, EndOfString);
    EndStops(st, before);
    DriveStops(st, "", LexerOf(read), StepperOf(before));
  }

  // ---------------------------------------------------------------------
  // The stack of open tables, through its laws

  /** The reader's three changes to its stack of open tables: opening a
      table under a name, binding a name in the innermost table, and the
      merge that closes the innermost table into its parent. The proofs
      about whole texts below see them only through `Lawful`. */
  datatype StackOps = StackOps(
    push: (seq<Frame>, string) -> seq<Frame>,
    bind: (seq<Frame>, string, Value) -> seq<Frame>,
    merge: Merge)

  /** Opening a table adds one frame, empty and under its name; binding
      keeps the depth. */
  ghost predicate Sized(ops: StackOps)
  {
    && (forall c: seq<Frame>, key: string {:trigger ops.push(c, key)} :: |c| >= 1 ==>
          |ops.push(c, key)| == |c| + 1 && ops.push(c, key)[|c|] == Frame(key, []))
    && (forall c: seq<Frame>, key: string, v: Value {:trigger ops.bind(c, key, v)} :: |c| >= 1 ==>
          |ops.bind(c, key, v)| == |c|)
  }

  /** The source's Push, Bind and WriteBack. */
  function StorageOps(before: KeyOrder): (ops: StackOps)
    ensures Sized(ops)
  {
    StackOps(
      (c: seq<Frame>, key: string) => if |c| >= 1 then Push(c, key, before) else c,
      (c: seq<Frame>, key: string, v: Value) => if |c| >= 1 then Bind(c, key, v, before) else c,
      WriteBack(before))
  }

  /** `c` with `es` appended to the entries of its innermost table. */
  function Extend(c: seq<Frame>, es: seq<Entry>): (r: seq<Frame>)
    requires |c| >= 1
    ensures |r| == |c| && r[..|c| - 1] == c[..|c| - 1]
    ensures r[|c| - 1] == Frame(c[|c| - 1].key, c[|c| - 1].entries + es)
  {
    c[..|c| - 1] + [Frame(c[|c| - 1].key, c[|c| - 1].entries + es)]
  }

  /** `key` is not among the names of `pre` and sorts after all of them. */
  predicate Fresh(pre: seq<Entry>, key: string, before: KeyOrder)
  {
    forall i :: 0 <= i < |pre| ==> pre[i].key != key && !before(key, pre[i].key)
  }

  /** What the proofs need of the stack operations: their sizes; binding
      a fresh name that sorts last appends it; and a table opened under
      such a name, filled with `ch` and closed, is appended under it. */
  ghost predicate Lawful(ops: StackOps, before: KeyOrder)
  {
    && Sized(ops)
    && (forall c: seq<Frame>, key: string, v: Value {:trigger ops.bind(c, key, v)} ::
          |c| >= 1 && Fresh(c[|c| - 1].entries, key, before) ==>
          ops.bind(c, key, v) == Extend(c, [Entry(key, v)]))
    && (forall c: seq<Frame>, key: string, ch: seq<Entry>
          {:trigger Pop(Extend(ops.push(c, key), ch), ops.merge)} ::
          |c| >= 1 && Fresh(c[|c| - 1].entries, key, before) ==>
          Pop(Extend(ops.push(c, key), ch), ops.merge) == Extend(c, [Entry(key, Table(ch))]))
  }

  /** Binding a fresh name that sorts after every name already in the
      innermost table appends it there. */
  lemma BindAppends(c: seq<Frame>, key: string, v: Value, before: KeyOrder)
    requires |c| >= 1 && Fresh(c[|c| - 1].entries, key, before)
    ensures Bind(c, key, v, before) == Extend(c, [Entry(key, v)])
  {
    var pre := c[|c| - 1].entries;
    assert !HasKey(pre, key);
    AssignAppends(pre, key, v, before);
  }

  /** Assigning to the name the last entry holds replaces that entry. */
  lemma AssignReplacesLast(pre: seq<Entry>, key: string, v0: Value, v: Value, before: KeyOrder)
    requires forall i :: 0 <= i < |pre| ==> pre[i].key != key
    ensures Assign(Table(pre + [Entry(key, v0)]), key, v, before).entries == pre + [Entry(key, v)]
  {
    var es := pre + [Entry(key, v0)];
    FindIndexIs(es, key, |pre|);
    assert Index(Table(es), key, before).table == Table(es);
    assert SetAt(es, |pre|, v) == pre + [Entry(key, v)];
  }

  /** Filling the table a name opened leaves the parent as Push left it. */
  lemma PushFilled(c: seq<Frame>, key: string, ch: seq<Entry>, before: KeyOrder)
    requires |c| >= 1
    ensures Extend(Push(c, key, before), ch) == Bind(c, key, Table([]), before) + [Frame(key, ch)]
  {
    var b := Bind(c, key, Table([]), before);
    var p := Push(c, key, before);
    assert p[..|c|] == b && p[|c|] == Frame(key, []);
    assert [] + ch == ch;
  }

  /** Closing a table merges it into the entry its name was given. */
  lemma CloseFilled(b: seq<Frame>, key: string, ch: seq<Entry>, before: KeyOrder)
    requires |b| >= 1
    ensures Pop(b + [Frame(key, ch)], WriteBack(before))
         == b[..|b| - 1] + [Frame(b[|b| - 1].key, Assign(Table(b[|b| - 1].entries), key, Table(ch), before).entries)]
  {
    var s := b + [Frame(key, ch)];
    assert s[..|s| - 2] == b[..|b| - 1] && s[|s| - 2] == b[|b| - 1] && s[|s| - 1] == Frame(key, ch);
  }

  /** A table opened under a fresh name, filled with `ch` and closed, is
      appended to its parent under that name. */
  lemma OpenFillClose(c: seq<Frame>, key: string, ch: seq<Entry>, before: KeyOrder)
    requires |c| >= 1 && Fresh(c[|c| - 1].entries, key, before)
    ensures Pop(Extend(Push(c, key, before), ch), WriteBack(before)) == Extend(c, [Entry(key, Table(ch))])
  {
    var k := |c| - 1;
    var b := Bind(c, key, Table([]), before);
    PushFilled(c, key, ch, before);
    CloseFilled(b, key, ch, before);
    BindAppends(c, key, Table([]), before);
    AssignReplacesLast(c[k].entries, key, Table([]), Table(ch), before);
  }

  lemma StorageBinds(before: KeyOrder)
    ensures var ops := StorageOps(before);
      forall c: seq<Frame>, key: string, v: Value {:trigger ops.bind(c, key, v)} ::
        |c| >= 1 && Fresh(c[|c| - 1].entries, key, before) ==>
        ops.bind(c, key, v) == Extend(c, [Entry(key, v)])
  {
    var ops := StorageOps(before);
    forall c: seq<Frame>, key: string, v: Value {:trigger ops.bind(c, key, v)} |
      |c| >= 1 && Fresh(c[|c| - 1].entries, key, before)
      ensures ops.bind(c, key, v) == Extend(c, [Entry(key, v)])
    {
      BindAppends(c, key, v, before);
    }
  }

  lemma StorageOpens(before: KeyOrder)
    ensures var ops := StorageOps(before);
      forall c: seq<Frame>, key: string, ch: seq<Entry>
        {:trigger Pop(Extend(ops.push(c, key), ch), ops.merge)} ::
        |c| >= 1 && Fresh(c[|c| - 1].entries, key, before) ==>
        Pop(Extend(ops.push(c, key), ch), ops.merge) == Extend(c, [Entry(key, Table(ch))])
  {
    var ops := StorageOps(before);
    forall c: seq<Frame>, key: string, ch: seq<Entry>
      {:trigger Pop(Extend(ops.push(c, key), ch), ops.merge)} |
      |c| >= 1 && Fresh(c[|c| - 1].entries, key, before)
      ensures Pop(Extend(ops.push(c, key), ch), ops.merge) == Extend(c, [Entry(key, Table(ch))])
    {
      OpenFillClose(c, key, ch, before);
    }
  }

  /** The source's operations keep the laws. */
  lemma StorageLawful(before: KeyOrder)
    ensures Lawful(StorageOps(before), before)
  {
    StorageBinds(before);
    StorageOpens(before);
  }

  // ---------------------------------------------------------------------
  // The tree a state stands for

  /** Where a line is read from, counting the table a name alone on the
      previous line is about to open. */
  function ReadDepth(st: State): nat
  {
    st.current + (if st.pos == Property then 1 else 0)
  }

  /** The stack once the pending table (if any) is opened. */
  function Opened(st: State, ops: StackOps): (r: seq<Frame>)
    requires Inv(st) && Sized(ops)
    ensures |r| == ReadDepth(st) + 1
  {
    if st.pos == Property then ops.push(st.stack, st.pname) else st.stack
  }

  /** The stack with every table deeper than level `k` closed. */
  function ClosedTo(st: State, k: nat, ops: StackOps): (r: seq<Frame>)
    requires Inv(st) && Sized(ops) && k <= ReadDepth(st)
    ensures |r| == k + 1
  {
    PopN(Opened(st, ops), ReadDepth(st) - k, ops.merge)
  }

  lemma PopNone(s: seq<Frame>, m: Merge)
    requires |s| > 0
    ensures PopN(s, 0, m) == s
  {
  }

  /** Level 0 has no indentation. */
  lemma NoIndent(x: string)
    ensures Indent(0) + x == x
  {
    assert Indent(0) == "";
  }

  lemma PopNMore(s: seq<Frame>, j: nat, m: Merge)
    requires j + 1 < |s|
    ensures PopN(s, j + 1, m) == Pop(PopN(s, j, m), m)
  {
    PopNAdd(s, j, 1, m);
    assert PopN(PopN(s, j, m), 1, m) == Pop(PopN(s, j, m), m);
  }

  /** Closing down to level `k` is closing down to `k + 1` and then one
      more table. */
  lemma ClosedStep(st: State, k: nat, ops: StackOps)
    requires Inv(st) && Sized(ops) && k + 1 <= ReadDepth(st)
    ensures ClosedTo(st, k, ops) == Pop(ClosedTo(st, k + 1, ops), ops.merge)
  {
    var s, j := Opened(st, ops), ReadDepth(st) - k - 1;
    assert ClosedTo(st, k + 1, ops) == PopN(s, j, ops.merge);
    assert ClosedTo(st, k, ops) == PopN(s, j + 1, ops.merge);
    PopNMore(s, j, ops.merge);
  }

  /** The unit is the writer's, or not yet fixed while lines are at most
      one level deep. */
  predicate UnitOk(st: State, k: nat)
  {
    st.unit == Some(TwoSpaces) || (st.unit.None? && k <= 1)
  }

  // ---------------------------------------------------------------------
  // The states the written text leads to

  /** After a newline outside a name's colon: the line starts again, and
      the table a name alone on its line stands for is opened. */
  function AfterNewline(st: State, ops: StackOps): (r: State)
    requires Inv(st) && st.pos != AwaitColon && Sized(ops)
    ensures Inv(r) && r.pos == StartLine && r.newIndent == 0
    ensures r.current == ReadDepth(st) && r.unit == st.unit && r.stack == Opened(st, ops)
  {
    var s := st.(newlines := st.newlines + 1, newIndent := 0);
    if st.pos == Property then
      s.(stack := ops.push(st.stack, st.pname), current := st.current + 1, pos := StartLine)
    else s.(pos := StartLine)
  }

  /** After the writer's indentation of level `k`: the unit is two spaces,
      and the tables deeper than `k` are closed. */
  function AfterIndent(st: State, k: nat, ops: StackOps): (r: State)
    requires Inv(st) && 1 <= k <= st.current
    ensures Inv(r) && r.pos == st.pos && r.current == k && r.newIndent == k
    ensures r.unit == Some(TwoSpaces)
    ensures r.stack == PopN(st.stack, st.current - k, ops.merge)
  {
    st.(unit := Some(TwoSpaces), newIndent := k, current := k,
        stack := PopN(st.stack, st.current - k, ops.merge))
  }

  /** After `name:` at the start of a line: the tables deeper than the
      line are closed, and the name waits for its value. */
  function AfterLabel(st: State, key: string, ops: StackOps): (r: State)
    requires Inv(st) && st.pos == StartLine
    ensures Inv(r) && r.pos == Property && r.pname == key
    ensures r.current == st.newIndent && r.unit == st.unit
    ensures r.stack == PopN(st.stack, st.current - st.newIndent, ops.merge)
  {
    st.(pname := key, pos := Property, current := st.newIndent,
        stack := PopN(st.stack, st.current - st.newIndent, ops.merge))
  }

  /** After a leaf's literal: the leaf is bound to the waiting name. */
  function AfterLeaf(st: State, v: Value, ops: StackOps): (r: State)
    requires Inv(st) && st.pos == Property && Sized(ops)
    ensures Inv(r) && r.pos == PostProperty && r.current == st.current && r.unit == st.unit
    ensures r.stack == ops.bind(st.stack, st.pname, v)
  {
    st.(stack := ops.bind(st.stack, st.pname, v), pos := PostProperty)
  }

  /** What the reader goes on with after a leaf's literal: a string ends
      at its quote; a number or boolean is a run, which keeps `rest`
      minus a lone last character. */
  function LeafRest(v: Value, rest: string): string
  {
    if v.Str? then rest else Kept(rest)
  }

  // ---------------------------------------------------------------------
  // Single steps of the state machine on written text

  /** A one-character token and what follows it. */
  lemma FirstChar(c: string, x: string)
    requires |c| == 1
    ensures |c + x| > 0 && (c + x)[0] == c[0] && (c + x)[1..] == x
  {
    assert (c + x)[1..] == x;
  }

  lemma StoragePush(c: seq<Frame>, key: string, before: KeyOrder)
    requires |c| >= 1
    ensures StorageOps(before).push(c, key) == Push(c, key, before)
  {
  }

  lemma StorageBind(c: seq<Frame>, key: string, v: Value, before: KeyOrder)
    requires |c| >= 1
    ensures StorageOps(before).bind(c, key, v) == Bind(c, key, v, before)
  {
  }

  /** A newline after `name:` opens a table under the name. */
  lemma NewlineOpens(st: State, before: KeyOrder)
    requires Inv(st) && st.pos == Property
    ensures Step(st, EndOfLine, before)
         == Continue(AtProperty(st.(newlines := st.newlines + 1, newIndent := 0), EndOfLine, before))
  {
  }

  /** A newline anywhere else only starts the next line. */
  lemma NewlineStarts(st: State, before: KeyOrder)
    requires Inv(st) && (st.pos == StartLine || st.pos == PostProperty)
    ensures Step(st, EndOfLine, before)
         == Continue(st.(newlines := st.newlines + 1, newIndent := 0, pos := StartLine))
  {
    var s := st.(newlines := st.newlines + 1, newIndent := 0);
    if st.pos == StartLine {
      assert Step(st, EndOfLine, before) == AtLineStart(s, EndOfLine, WriteBack(before));
    }
  }

  /** The source's opening of a table is the one AfterNewline makes. */
  lemma OpensAsAfterNewline(st: State, before: KeyOrder)
    requires Inv(st) && st.pos == Property
    ensures AtProperty(st.(newlines := st.newlines + 1, newIndent := 0), EndOfLine, before)
         == AfterNewline(st, StorageOps(before))
  {
    StoragePush(st.stack, st.pname, before);
  }

  lemma NewlineTakes(st: State, before: KeyOrder)
    requires Inv(st) && st.pos != AwaitColon
    ensures Step(st, EndOfLine, before) == Continue(AfterNewline(st, StorageOps(before)))
  {
    if st.pos == Property {
      NewlineOpens(st, before);
      OpensAsAfterNewline(st, before);
    } else {
      NewlineStarts(st, before);
    }
  }

  /** A newline after a value, after a name alone, or on an empty line. */
  lemma NewlineRun(st: State, x: string, read: NumberReader, before: KeyOrder)
    requires Inv(st) && st.pos != AwaitColon
    ensures Run(st, "\n" + x, read, before) == Run(AfterNewline(st, StorageOps(before)), x, read, before)
  {
    NewlineTakes(st, before);
    FirstChar("\n", x);
    Advance(st, "\n" + x, read, before, EndOfLine, x, AfterNewline(st, StorageOps(before)));
  }

  /** The writer's indentation of level `k` measures `k` units of two
      spaces; as a first indentation (level 1) it fixes that unit. */
  lemma IndentMeasures(k: nat)
    requires k >= 1
    ensures Measure(Indent(k), TwoSpaces) == Some(k)
    ensures k == 1 ==> AllAre(Indent(k), Indent(k)[0]) && Discovered(Indent(k)) == TwoSpaces
  {
    var ws := Indent(k);
    assert AllAre(ws, ' ');
    assert |ws| % 2 == 0 && |ws| / 2 == k;
  }

  /** At the start of a line, indentation and names go to AtLineStart. */
  lemma LineStartDispatch(st: State, t: Token, before: KeyOrder)
    requires Inv(st) && st.pos == StartLine && ValidToken(t) && (t.Whitespace? || t.Name?)
    ensures Step(st, t, before) == AtLineStart(st, t, WriteBack(before))
  {
  }

  lemma IndentTaken(st: State, k: nat, ops: StackOps)
    requires Inv(st) && st.pos == StartLine
    requires 1 <= k <= st.current && UnitOk(st, k)
    ensures |Indent(k)| > 0 && IsBlank(Indent(k)[0])
    ensures AtLineStart(st, Whitespace(Indent(k)), ops.merge) == Continue(AfterIndent(st, k, ops))
  {
    IndentMeasures(k);
    assert AtLineStart(st, Whitespace(Indent(k)), ops.merge) == TakeIndent(st, Indent(k), ops.merge);
  }

  lemma IndentTakes(st: State, k: nat, before: KeyOrder)
    requires Inv(st) && st.pos == StartLine
    requires 1 <= k <= st.current && UnitOk(st, k)
    ensures Step(st, Whitespace(Indent(k)), before) == Continue(AfterIndent(st, k, StorageOps(before)))
  {
    IndentTaken(st, k, StorageOps(before));
    LineStartDispatch(st, Whitespace(Indent(k)), before);
  }

  /** The indentation the writer puts before a line of level `k`. */
  lemma IndentRun(st: State, k: nat, x: string, read: NumberReader, before: KeyOrder)
    requires Inv(st) && st.pos == StartLine
    requires 1 <= k <= st.current && UnitOk(st, k)
    requires |x| >= 2 && IsAlpha(x[0])
    ensures Run(st, Indent(k) + x, read, before)
         == Run(AfterIndent(st, k, StorageOps(before)), x, read, before)
  {
    IndentTakes(st, k, before);
    LexBlankRun(Indent(k), x, read);
    Advance(st, Indent(k) + x, read, before, Whitespace(Indent(k)), x, AfterIndent(st, k, StorageOps(before)));
  }

  /** The state between a name at the start of a line and its colon. */
  function Named(st: State, key: string, ops: StackOps): (r: State)
    requires Inv(st) && st.pos == StartLine
    ensures Inv(r) && r.pos == AwaitColon
    ensures r.(pos := Property) == AfterLabel(st, key, ops)
  {
    st.(pname := key, pos := AwaitColon, current := st.newIndent,
        stack := PopN(st.stack, st.current - st.newIndent, ops.merge))
  }

  lemma NameTaken(st: State, key: string, ops: StackOps)
    requires Inv(st) && st.pos == StartLine
    ensures AtLineStart(st, Name(key), ops.merge) == Continue(Named(st, key, ops))
  {
  }

  lemma NameTakes(st: State, key: string, before: KeyOrder)
    requires Inv(st) && st.pos == StartLine
    ensures Step(st, Name(key), before) == Continue(Named(st, key, StorageOps(before)))
  {
    NameTaken(st, key, StorageOps(before));
    LineStartDispatch(st, Name(key), before);
  }

  lemma ColonTakes(st: State, before: KeyOrder)
    requires Inv(st) && st.pos == AwaitColon
    ensures Step(st, Colon, before) == Continue(st.(pos := Property))
  {
  }

  /** A name at the start of a line: the reader waits for the colon. */
  lemma NameRun(st: State, key: string, x: string, read: NumberReader, before: KeyOrder)
    requires Inv(st) && st.pos == StartLine && NameOk(key)
    requires |x| >= 2 && x[0] == ':'
    ensures Run(st, key + x, read, before) == Run(Named(st, key, StorageOps(before)), x, read, before)
  {
    LexName(key, x, read);
    NameTakes(st, key, before);
    Advance(st, key + x, read, before, Name(key), x, Named(st, key, StorageOps(before)));
  }

  /** The colon after a name: the reader waits for the value. */
  lemma ColonRun(st: State, y: string, read: NumberReader, before: KeyOrder)
    requires Inv(st) && st.pos == AwaitColon
    ensures Run(st, ":" + y, read, before) == Run(st.(pos := Property), y, read, before)
  {
    FirstChar(":", y);
    ColonTakes(st, before);
    Advance(st, ":" + y, read, before, Colon, y, st.(pos := Property));
  }

  /** A name and its colon, at the start of a line. */
  lemma LabelRun(st: State, key: string, y: string, read: NumberReader, before: KeyOrder)
    requires Inv(st) && st.pos == StartLine && NameOk(key) && |y| >= 1
    ensures Run(st, key + (":" + y), read, before)
         == Run(AfterLabel(st, key, StorageOps(before)), y, read, before)
  {
    FirstChar(":", y);
    NameRun(st, key, ":" + y, read, before);
    ColonRun(Named(st, key, StorageOps(before)), y, read, before);
  }

  lemma BlankPasses(st: State, before: KeyOrder)
    requires Inv(st) && st.pos == Property
    ensures Step(st, Whitespace(" "), before) == Continue(st)
  {
  }

  lemma PropertyStep(st: State, t: Token, before: KeyOrder)
    requires Inv(st) && st.pos == Property
    requires t.StringProperty? || t.NumberProperty? || t.BoolProperty?
    ensures Step(st, t, before) == Continue(AtProperty(st, t, before))
  {
  }

  lemma ValueTakes(st: State, t: Token, before: KeyOrder)
    requires Inv(st) && st.pos == Property
    requires t.StringProperty? || t.NumberProperty? || t.BoolProperty?
    ensures Step(st, t, before) == Continue(AfterLeaf(st, PropertyValue(t), StorageOps(before)))
  {
    PropertyStep(st, t, before);
    StorageBind(st.stack, st.pname, PropertyValue(t), before);
  }

  /** The literal the writer puts after the space, for a leaf. */
  function Literal(v: Value, fmt: Formatter): (r: string)
    requires !v.Table? && !v.Nil?
    ensures Write(v, 0, fmt) == " " + r
  {
    match v
    case Number(x) => fmt(x)
    case Str(w) => "\"" + w + "\""
    case Bool(b) => if b then "true" else "false"
  }

  /** The literal of a writable leaf reads back as a token for the leaf. */
  lemma LiteralReads(v: Value, rest: string, fmt: Formatter, read: NumberReader, before: KeyOrder)
    returns (t: Token)
    requires Writable(v, fmt, read, before) && !v.Table? && !v.Nil?
    requires |rest| > 0 && rest[0] == '\n'
    ensures Lex(Literal(v, fmt) + rest, read) == Lexed(t, LeafRest(v, rest))
    ensures (t.StringProperty? || t.NumberProperty? || t.BoolProperty?) && PropertyValue(t) == v
  {
    var lit := Literal(v, fmt);
    match v
    case Number(x) =>
      LexNumberText(lit, rest, read);
      t := NumberProperty(lit, read(lit));
    case Str(w) =>
      LexStringText(w, rest, read);
      t := StringProperty(w);
    case Bool(b) =>
      LexBoolText(lit, rest, read);
      t := BoolProperty(lit);
  }

  /** The space the writer puts before a leaf is passed over. */
  lemma SpacePasses(st: State, lit: string, rest: string, read: NumberReader, before: KeyOrder)
    requires Inv(st) && st.pos == Property
    requires |lit + rest| >= 2 && !IsBlank((lit + rest)[0])
    ensures Run(st, " " + (lit + rest), read, before) == Run(st, lit + rest, read, before)
  {
    LexBlankRun(" ", lit + rest, read);
    BlankPasses(st, before);
    Advance(st, " " + (lit + rest), read, before, Whitespace(" "), lit + rest, st);
  }

  /** A leaf's literal after `name:` binds the leaf to the name. */
  lemma LiteralRun(st: State, v: Value, rest: string, fmt: Formatter, read: NumberReader, before: KeyOrder)
    requires Inv(st) && st.pos == Property && !v.Table? && !v.Nil?
    requires Writable(v, fmt, read, before)
    requires |rest| > 0 && rest[0] == '\n'
    ensures Run(st, Literal(v, fmt) + rest, read, before)
         == Run(AfterLeaf(st, v, StorageOps(before)), LeafRest(v, rest), read, before)
  {
    var t := LiteralReads(v, rest, fmt, read, before);
    ValueTakes(st, t, before);
    Advance(st, Literal(v, fmt) + rest, read, before, t, LeafRest(v, rest), AfterLeaf(st, v, StorageOps(before)));
  }

  lemma Assoc(a: string, b: string, c: string)
    ensures (a + b) + c == a + (b + c)
  {
  }

  /** A leaf's literal starts with a quote, a digit, a minus sign or a
      letter, never with a blank. */
  lemma LiteralStart(v: Value, fmt: Formatter, read: NumberReader, before: KeyOrder)
    requires Writable(v, fmt, read, before) && !v.Table? && !v.Nil?
    ensures |Literal(v, fmt)| > 0 && !IsBlank(Literal(v, fmt)[0])
  {
  }

  /** A leaf's text is a space and its literal, which does not start
      with a blank. */
  lemma LeafLine(v: Value, level: nat, rest: string, fmt: Formatter, read: NumberReader, before: KeyOrder)
    requires Writable(v, fmt, read, before) && !v.Table? && !v.Nil?
    requires |rest| > 0
    ensures Write(v, level, fmt) + rest == " " + (Literal(v, fmt) + rest)
    ensures |Literal(v, fmt) + rest| >= 2 && !IsBlank((Literal(v, fmt) + rest)[0])
  {
    var lit := Literal(v, fmt);
    LiteralStart(v, fmt, read, before);
    assert Write(v, level, fmt) == Write(v, 0, fmt) == " " + lit;
    Assoc(" ", lit, rest);
    assert (lit + rest)[0] == lit[0];
  }

  /** A leaf's text after `name:`. */
  lemma LeafRun(st: State, v: Value, level: nat, rest: string,
                fmt: Formatter, read: NumberReader, before: KeyOrder)
    requires Inv(st) && st.pos == Property
    requires Writable(v, fmt, read, before) && !v.Table? && !v.Nil?
    requires |rest| > 0 && rest[0] == '\n'
    ensures Run(st, Write(v, level, fmt) + rest, read, before)
         == Run(AfterLeaf(st, v, StorageOps(before)), LeafRest(v, rest), read, before)
  {
    LeafLine(v, level, rest, fmt, read, before);
    SpacePasses(st, Literal(v, fmt), rest, read, before);
    LiteralRun(st, v, rest, fmt, read, before);
  }

  // ---------------------------------------------------------------------
  // The reader as a function from a state and the rest of the text

  /** What is read from a state on, given the rest of the text. */
  type Reading = (State, string) -> Outcome

  /** The single-pass reader, from any state its loop can reach. */
  function Reader(read: NumberReader, before: KeyOrder): (m: Reading)
    ensures forall s :: m(Initial, s) == DiatomFromString(s, read, before)
  {
    (st: State, s: string) => if Inv(st) then Run(st, s, read, before) else Outcome(Nil, None)
  }

  /** A newline outside a name's colon leads to AfterNewline. */
  ghost predicate NewlineRule(m: Reading, ops: StackOps)
  {
    Sized(ops) &&
    forall st: State, x: string {:trigger m(st, "\n" + x)} :: Inv(st) && st.pos != AwaitColon ==>
      m(st, "\n" + x) == m(AfterNewline(st, ops), x)
  }

  /** The writer's indentation before a name leads to AfterIndent. */
  ghost predicate IndentRule(m: Reading, ops: StackOps)
  {
    forall st: State, k: nat, x: string {:trigger m(st, Indent(k) + x)} ::
      Inv(st) && st.pos == StartLine && 1 <= k <= st.current && UnitOk(st, k)
      && |x| >= 2 && IsAlpha(x[0]) ==>
      m(st, Indent(k) + x) == m(AfterIndent(st, k, ops), x)
  }

  /** `name:` at the start of a line leads to AfterLabel. */
  ghost predicate LabelRule(m: Reading, ops: StackOps)
  {
    forall st: State, key: string, y: string {:trigger m(st, key + (":" + y))} ::
      Inv(st) && st.pos == StartLine && NameOk(key) && |y| >= 1 ==>
      m(st, key + (":" + y)) == m(AfterLabel(st, key, ops), y)
  }

  /** A writable leaf's text after `name:`, before a newline, leads to
      AfterLeaf. */
  ghost predicate LeafRule(m: Reading, ops: StackOps, fmt: Formatter, read: NumberReader, before: KeyOrder)
  {
    Sized(ops) &&
    forall st: State, v: Value, level: nat, rest: string {:trigger m(st, Write(v, level, fmt) + rest)} ::
      Inv(st) && st.pos == Property && Writable(v, fmt, read, before) && !v.Table? && !v.Nil?
      && |rest| > 0 && rest[0] == '\n' ==>
      m(st, Write(v, level, fmt) + rest) == m(AfterLeaf(st, v, ops), LeafRest(v, rest))
  }

  /** The end of the text, anywhere but before a colon, closes every open
      table and gives the tree. */
  ghost predicate EndRule(m: Reading, ops: StackOps)
  {
    forall st: State {:trigger m(st, "")} :: Inv(st) && st.pos != AwaitColon ==>
      m(st, "") == Outcome(Close(st.stack, ops.merge), None)
  }

  /** Every step the written text asks of a reader, over stack operations
      that keep their laws. */
  ghost predicate Follows(m: Reading, ops: StackOps, fmt: Formatter, read: NumberReader, before: KeyOrder)
  {
    && Lawful(ops, before)
    && NewlineRule(m, ops) && IndentRule(m, ops) && LabelRule(m, ops)
    && LeafRule(m, ops, fmt, read, before) && EndRule(m, ops)
  }

  lemma ReaderNewline(read: NumberReader, before: KeyOrder)
    ensures NewlineRule(Reader(read, before), StorageOps(before))
  {
    var m, ops := Reader(read, before), StorageOps(before);
    forall st: State, x: string {:trigger m(st, "\n" + x)} | Inv(st) && st.pos != AwaitColon
      ensures m(st, "\n" + x) == m(AfterNewline(st, ops), x)
    {
      NewlineRun(st, x, read, before);
    }
  }

  lemma ReaderIndent(read: NumberReader, before: KeyOrder)
    ensures IndentRule(Reader(read, before), StorageOps(before))
  {
    var m, ops := Reader(read, before), StorageOps(before);
    forall st: State, k: nat, x: string {:trigger m(st, Indent(k) + x)} |
      Inv(st) && st.pos == StartLine && 1 <= k <= st.current && UnitOk(st, k)
      && |x| >= 2 && IsAlpha(x[0])
      ensures m(st, Indent(k) + x) == m(AfterIndent(st, k, ops), x)
    {
      IndentRun(st, k, x, read, before);
    }
  }

  lemma ReaderLabel(read: NumberReader, before: KeyOrder)
    ensures LabelRule(Reader(read, before), StorageOps(before))
  {
    var m, ops := Reader(read, before), StorageOps(before);
    forall st: State, key: string, y: string {:trigger m(st, key + (":" + y))} |
      Inv(st) && st.pos == StartLine && NameOk(key) && |y| >= 1
      ensures m(st, key + (":" + y)) == m(AfterLabel(st, key, ops), y)
    {
      LabelRun(st, key, y, read, before);
    }
  }

  lemma ReaderLeaf(fmt: Formatter, read: NumberReader, before: KeyOrder)
    ensures LeafRule(Reader(read, before), StorageOps(before), fmt, read, before)
  {
    var m, ops := Reader(read, before), StorageOps(before);
    forall st: State, v: Value, level: nat, rest: string {:trigger m(st, Write(v, level, fmt) + rest)} |
      Inv(st) && st.pos == Property && Writable(v, fmt, read, before) && !v.Table? && !v.Nil?
      && |rest| > 0 && rest[0] == '\n'
      ensures m(st, Write(v, level, fmt) + rest) == m(AfterLeaf(st, v, ops), LeafRest(v, rest))
    {
      LeafRun(st, v, level, rest, fmt, read, before);
    }
  }

  lemma ReaderEnd(read: NumberReader, before: KeyOrder)
    ensures EndRule(Reader(read, before), StorageOps(before))
  {
    var m, ops := Reader(read, before), StorageOps(before);
    forall st: State {:trigger m(st, "")} | Inv(st) && st.pos != AwaitColon
      ensures m(st, "") == Outcome(Close(st.stack, ops.merge), None)
    {
      Finish(st, read, before);
    }
  }

  /** The single-pass reader takes every step the written text asks, over
      the source's stack operations. */
  lemma ReaderFollows(fmt: Formatter, read: NumberReader, before: KeyOrder)
    ensures Follows(Reader(read, before), StorageOps(before), fmt, read, before)
  {
    StorageLawful(before);
    ReaderNewline(read, before);
    ReaderIndent(read, before);
    ReaderLabel(read, before);
    ReaderLeaf(fmt, read, before);
    ReaderEnd(read, before);
  }

  // ---------------------------------------------------------------------
  // Entries read back, by any reader that takes those steps

  /** A line of level `k` up to its colon, from the start of the line. */
  lemma LineStep(m: Reading, ops: StackOps, a: State, k: nat, key: string, y: string,
                 fmt: Formatter, read: NumberReader, before: KeyOrder) returns (next: State)
    requires Follows(m, ops, fmt, read, before)
    requires Inv(a) && a.pos == StartLine && a.newIndent == 0 && k <= a.current && UnitOk(a, k)
    requires NameOk(key) && |y| >= 1
    ensures Inv(next) && next.pos == Property && next.pname == key && next.current == k
    ensures next.stack == PopN(a.stack, a.current - k, ops.merge)
    ensures UnitOk(next, k + 1)
    ensures m(a, Indent(k) + (key + (":" + y))) == m(next, y)
  {
    var line := key + (":" + y);
    if k == 0 {
      NoIndent(line);
      next := AfterLabel(a, key, ops);
      assert m(a, line) == m(next, y);
    } else {
      assert line[0] == key[0];
      var b := AfterIndent(a, k, ops);
      assert m(a, Indent(k) + line) == m(b, line);
      next := AfterLabel(b, key, ops);
      assert m(b, line) == m(next, y);
      PopNone(b.stack, ops.merge);
    }
  }

  /** The start of an entry's chunk, up to its colon: the reader is then
      after the name, on the table of level `k` with every deeper one
      closed. */
  lemma HeaderStep(m: Reading, ops: StackOps, st: State, k: nat, key: string, y: string,
                   fmt: Formatter, read: NumberReader, before: KeyOrder) returns (next: State)
    requires Follows(m, ops, fmt, read, before)
    requires Inv(st) && st.pos != AwaitColon && k <= ReadDepth(st) && UnitOk(st, k)
    requires NameOk(key) && |y| >= 1
    ensures Inv(next) && next.pos == Property && next.pname == key && next.current == k
    ensures next.stack == ClosedTo(st, k, ops)
    ensures UnitOk(next, k + 1)
    ensures m(st, "\n" + (Indent(k) + (key + (":" + y)))) == m(next, y)
  {
    var a := AfterNewline(st, ops);
    assert m(st, "\n" + (Indent(k) + (key + (":" + y)))) == m(a, Indent(k) + (key + (":" + y)));
    next := LineStep(m, ops, a, k, key, y, fmt, read, before);
  }

  /** After a leaf, the run's lost last character does not matter: at the
      end of the text a newline only starts an empty line. */
  lemma LeafEnd(m: Reading, ops: StackOps, st: State, v: Value, rest: string,
                fmt: Formatter, read: NumberReader, before: KeyOrder)
    requires Follows(m, ops, fmt, read, before)
    requires Inv(st) && st.pos == PostProperty
    requires |rest| > 0 && rest[0] == '\n'
    ensures m(st, LeafRest(v, rest)) == m(st, rest)
  {
    if !v.Str? && |rest| == 1 {
      assert rest == "\n" + "";
      var a := AfterNewline(st, ops);
      assert m(st, "\n" + "") == m(a, "");
    }
  }

  /** A leaf's text after `name:` at level `k`: the leaf is appended to
      the table of level `k`. */
  lemma ReadLeaf(m: Reading, ops: StackOps, h: State, k: nat, key: string, v: Value, rest: string,
                 fmt: Formatter, read: NumberReader, before: KeyOrder) returns (next: State)
    requires Follows(m, ops, fmt, read, before)
    requires Inv(h) && h.pos == Property && h.pname == key && h.current == k
    requires !v.Table? && !v.Nil? && Writable(v, fmt, read, before)
    requires Fresh(h.stack[k].entries, key, before)
    requires |rest| > 0 && rest[0] == '\n'
    ensures Inv(next) && next.pos == PostProperty && ReadDepth(next) == k && next.unit == h.unit
    ensures ClosedTo(next, k, ops) == Extend(h.stack, [Entry(key, v)])
    ensures m(h, Write(v, k + 1, fmt) + rest) == m(next, rest)
  {
    next := AfterLeaf(h, v, ops);
    assert m(h, Write(v, k + 1, fmt) + rest) == m(next, LeafRest(v, rest));
    LeafEnd(m, ops, next, v, rest, fmt, read, before);
    assert next.stack == Extend(h.stack, [Entry(key, v)]);
    PopNone(next.stack, ops.merge);
  }

  /** After `name:`, the table of the next level is the one the name
      opens, still empty. */
  lemma OpenedEmpty(h: State, k: nat, ops: StackOps)
    requires Inv(h) && Sized(ops) && h.pos == Property && h.current == k
    ensures k + 1 <= ReadDepth(h)
    ensures ClosedTo(h, k + 1, ops) == ops.push(h.stack, h.pname)
    ensures ClosedTo(h, k + 1, ops)[k + 1].entries == []
  {
    PopNone(Opened(h, ops), ops.merge);
  }

  lemma NothingBefore(es: seq<Entry>)
    ensures [] + es == es
  {
  }

  /** A table's text is the text of its entries. */
  lemma TableText(es: seq<Entry>, level: nat, fmt: Formatter)
    ensures Write(Table(es), level, fmt) == WriteEntries(es, level, fmt)
  {
  }

  /** A table's chunks after `name:` at level `k`: the table, read one
      level deeper, is appended to the table of level `k`. */
  lemma {:induction false} ReadTable(m: Reading, ops: StackOps, h: State, k: nat, key: string,
                                     ch: seq<Entry>, rest: string,
                                     fmt: Formatter, read: NumberReader, before: KeyOrder)
    returns (next: State)
    requires Follows(m, ops, fmt, read, before)
    requires Inv(h) && h.pos == Property && h.pname == key && h.current == k && UnitOk(h, k + 1)
    requires Writable(Table(ch), fmt, read, before)
    requires Fresh(h.stack[k].entries, key, before)
    requires |rest| > 0 && rest[0] == '\n'
    ensures Inv(next) && next.pos != AwaitColon && k <= ReadDepth(next) && UnitOk(next, k)
    ensures ClosedTo(next, k, ops) == Extend(h.stack, [Entry(key, Table(ch))])
    ensures m(h, Write(Table(ch), k + 1, fmt) + rest) == m(next, rest)
    decreases ch, 2
  {
    OpenedEmpty(h, k, ops);
    NothingBefore(ch);
    TableText(ch, k + 1, fmt);
    next := ReadEntries(m, ops, ch, k + 1, h, rest, fmt, read, before);
    TableCloses(ops, h, next, k, ch, before);
  }

  /** Closing the table a name opened, once `ch` is read into it,
      appends it to its parent under the name. */
  lemma TableCloses(ops: StackOps, h: State, next: State, k: nat, ch: seq<Entry>, before: KeyOrder)
    requires Lawful(ops, before)
    requires Inv(h) && h.pos == Property && h.current == k
    requires Fresh(h.stack[k].entries, h.pname, before)
    requires Inv(next) && k + 1 <= ReadDepth(next)
    requires ClosedTo(next, k + 1, ops) == Extend(ops.push(h.stack, h.pname), ch)
    ensures ClosedTo(next, k, ops) == Extend(h.stack, [Entry(h.pname, Table(ch))])
  {
    ClosedStep(next, k, ops);
  }

  /** One entry's chunk, `\n`, indentation, `name:` and the value's text,
      read at level `k`: the entry is appended to the table of level `k`. */
  lemma {:induction false} ReadEntry(m: Reading, ops: StackOps, key: string, v: Value, k: nat,
                                     st: State, rest: string,
                                     fmt: Formatter, read: NumberReader, before: KeyOrder)
    returns (next: State)
    requires Follows(m, ops, fmt, read, before)
    requires Inv(st) && st.pos != AwaitColon && k <= ReadDepth(st) && UnitOk(st, k)
    requires NameOk(key) && !v.Nil? && Writable(v, fmt, read, before)
    requires Fresh(ClosedTo(st, k, ops)[k].entries, key, before)
    requires |rest| > 0 && rest[0] == '\n'
    ensures Inv(next) && next.pos != AwaitColon && k <= ReadDepth(next) && UnitOk(next, k)
    ensures ClosedTo(next, k, ops) == Extend(ClosedTo(st, k, ops), [Entry(key, v)])
    ensures m(st, "\n" + (Indent(k) + (key + (":" + (Write(v, k + 1, fmt) + rest))))) == m(next, rest)
    decreases v, 3
  {
    var h := HeaderStep(m, ops, st, k, key, Write(v, k + 1, fmt) + rest, fmt, read, before);
    if v.Table? {
      next := ReadTable(m, ops, h, k, key, v.entries, rest, fmt, read, before);
    } else {
      next := ReadLeaf(m, ops, h, k, key, v, rest, fmt, read, before);
    }
  }

  /** Five pieces and a rest, grouped from the right. */
  lemma Nest(a: string, b: string, c: string, d: string, e: string, f: string)
    ensures ((((a + b) + c) + d) + e) + f == a + (b + (c + (d + (e + f))))
  {
    Assoc((((a + b) + c) + d), e, f);
    Assoc(((a + b) + c), d, e + f);
    Assoc((a + b), c, d + (e + f));
    Assoc(a, b, c + (d + (e + f)));
  }

  /** The text of a non-empty run of entries is the first entry's chunk
      followed by the text of the others, which starts a new line. */
  lemma FirstChunk(es: seq<Entry>, k: nat, rest: string, fmt: Formatter)
    requires |es| > 0 && forall i :: 0 <= i < |es| ==> !es[i].val.Nil?
    requires |rest| > 0 && rest[0] == '\n'
    ensures var more := WriteEntries(es[1..], k, fmt) + rest;
      && |more| > 0 && more[0] == '\n'
      && WriteEntries(es, k, fmt) + rest
         == "\n" + (Indent(k) + (es[0].key + (":" + (Write(es[0].val, k + 1, fmt) + more))))
  {
    var tail := WriteEntries(es[1..], k, fmt);
    var more := tail + rest;
    var chunk := "\n" + Indent(k) + es[0].key + ":" + Write(es[0].val, k + 1, fmt);
    if |es| > 1 {
      assert es[1..][0] == es[1];
      assert tail[0] == '\n';
    } else {
      assert tail == "";
    }
    assert more[0] == '\n';
    assert WriteEntries(es, k, fmt) == chunk + tail;
    Assoc(chunk, tail, rest);
    Nest("\n", Indent(k), es[0].key, ":", Write(es[0].val, k + 1, fmt), more);
  }

  /** No entries: no text, and nothing added. */
  lemma NoEntries(es: seq<Entry>, k: nat, rest: string, c: seq<Frame>, fmt: Formatter)
    requires |es| == 0 && |c| >= 1
    ensures WriteEntries(es, k, fmt) + rest == rest
    ensures Extend(c, es) == c
  {
    assert c[|c| - 1].entries + es == c[|c| - 1].entries;
    assert c[..|c| - 1] + [c[|c| - 1]] == c;
  }

  /** Appending the first entry, then the others, appends them all. */
  lemma ExtendTwice(c: seq<Frame>, es: seq<Entry>)
    requires |c| >= 1 && |es| > 0
    ensures Extend(Extend(c, [es[0]]), es[1..]) == Extend(c, es)
  {
    var c2 := Extend(c, [es[0]]);
    assert c2[..|c| - 1] == c[..|c| - 1];
    assert c[|c| - 1].entries + [es[0]] + es[1..] == c[|c| - 1].entries + es;
  }

  /** The first of fresh, ordered, writable entries can be read as one
      entry; the others stay fresh, ordered and writable with it added. */
  lemma FirstFresh(pre: seq<Entry>, es: seq<Entry>, fmt: Formatter, read: NumberReader, before: KeyOrder)
    requires |es| > 0 && UniqueKeys(pre + es) && OrderedBy(pre + es, before)
    requires forall i :: 0 <= i < |es| ==>
      NameOk(es[i].key) && !es[i].val.Nil? && Writable(es[i].val, fmt, read, before)
    ensures Fresh(pre, es[0].key, before)
    ensures NameOk(es[0].key) && !es[0].val.Nil? && Writable(es[0].val, fmt, read, before)
    ensures UniqueKeys((pre + [es[0]]) + es[1..]) && OrderedBy((pre + [es[0]]) + es[1..], before)
    ensures forall i :: 0 <= i < |es[1..]| ==>
      NameOk(es[1..][i].key) && !es[1..][i].val.Nil? && Writable(es[1..][i].val, fmt, read, before)
  {
    forall i | 0 <= i < |pre| ensures pre[i].key != es[0].key && !before(es[0].key, pre[i].key) {
      assert (pre + es)[i] == pre[i] && (pre + es)[|pre|] == es[0];
    }
    assert (pre + [es[0]]) + es[1..] == pre + es;
    forall i | 0 <= i < |es[1..]|
      ensures NameOk(es[1..][i].key) && !es[1..][i].val.Nil? && Writable(es[1..][i].val, fmt, read, before)
    {
      assert es[1..][i] == es[i + 1];
    }
  }

  /** The first of a run of entries, read at level `k`: it is appended to
      the table of level `k`, and the others can follow. */
  lemma {:induction false} ReadFirst(m: Reading, ops: StackOps, es: seq<Entry>, k: nat,
                                     st: State, rest: string,
                                     fmt: Formatter, read: NumberReader, before: KeyOrder)
    returns (mid: State)
    requires Follows(m, ops, fmt, read, before)
    requires Inv(st) && st.pos != AwaitColon && k <= ReadDepth(st) && UnitOk(st, k)
    requires |es| > 0 && var pre := ClosedTo(st, k, ops)[k].entries;
      UniqueKeys(pre + es) && OrderedBy(pre + es, before)
    requires forall i :: 0 <= i < |es| ==>
      NameOk(es[i].key) && !es[i].val.Nil? && Writable(es[i].val, fmt, read, before)
    requires |rest| > 0 && rest[0] == '\n'
    ensures Inv(mid) && mid.pos != AwaitColon && k <= ReadDepth(mid) && UnitOk(mid, k)
    ensures ClosedTo(mid, k, ops) == Extend(ClosedTo(st, k, ops), [es[0]])
    ensures var pre := ClosedTo(mid, k, ops)[k].entries;
      UniqueKeys(pre + es[1..]) && OrderedBy(pre + es[1..], before)
    ensures forall i :: 0 <= i < |es[1..]| ==>
      NameOk(es[1..][i].key) && !es[1..][i].val.Nil? && Writable(es[1..][i].val, fmt, read, before)
    ensures m(st, WriteEntries(es, k, fmt) + rest) == m(mid, WriteEntries(es[1..], k, fmt) + rest)
    decreases es, 0
  {
    var c := ClosedTo(st, k, ops);
    FirstChunk(es, k, rest, fmt);
    FirstFresh(c[k].entries, es, fmt, read, before);
    mid := ReadEntry(m, ops, es[0].key, es[0].val, k, st, WriteEntries(es[1..], k, fmt) + rest,
                     fmt, read, before);
    assert ClosedTo(mid, k, ops)[k].entries == c[k].entries + [es[0]];
  }

  /** The chunks of `es` read at level `k`: the entries are appended, in
      order, to the table of level `k`. */
  lemma {:induction false} ReadEntries(m: Reading, ops: StackOps, es: seq<Entry>, k: nat,
                                       st: State, rest: string,
                                       fmt: Formatter, read: NumberReader, before: KeyOrder)
    returns (next: State)
    requires Follows(m, ops, fmt, read, before)
    requires Inv(st) && st.pos != AwaitColon && k <= ReadDepth(st) && UnitOk(st, k)
    requires var pre := ClosedTo(st, k, ops)[k].entries;
      UniqueKeys(pre + es) && OrderedBy(pre + es, before)
    requires forall i :: 0 <= i < |es| ==>
      NameOk(es[i].key) && !es[i].val.Nil? && Writable(es[i].val, fmt, read, before)
    requires |rest| > 0 && rest[0] == '\n'
    ensures Inv(next) && next.pos != AwaitColon && k <= ReadDepth(next) && UnitOk(next, k)
    ensures ClosedTo(next, k, ops) == Extend(ClosedTo(st, k, ops), es)
    ensures m(st, WriteEntries(es, k, fmt) + rest) == m(next, rest)
    decreases es, 1
  {
    var c := ClosedTo(st, k, ops);
    if |es| == 0 {
      next := st;
      NoEntries(es, k, rest, c, fmt);
    } else {
      var mid := ReadFirst(m, ops, es, k, st, rest, fmt, read, before);
      next := ReadEntries(m, ops, es[1..], k, mid, rest, fmt, read, before);
      ExtendTwice(c, es);
    }
  }

  // ---------------------------------------------------------------------
  // The round trip

  /** Any reader that takes the steps the written text asks reads the
      writer's text of a writable table back as that table. */
  lemma ReadsBack(m: Reading, ops: StackOps, es: seq<Entry>,
                  fmt: Formatter, read: NumberReader, before: KeyOrder)
    requires Follows(m, ops, fmt, read, before)
    requires Writable(Table(es), fmt, read, before)
    ensures m(Initial, DiatomToString(Table(es), fmt)) == Outcome(Table(es), None)
  {
    assert ClosedTo(Initial, 0, ops) == [Frame("", [])];
    NothingBefore(es);
    var st := ReadEntries(m, ops, es, 0, Initial, "\n", fmt, read, before);
    assert ClosedTo(st, 0, ops) == [Frame("", es)];
    var fin := AfterNewline(st, ops);
    assert "\n" == "\n" + "";
    assert m(st, "\n" + "") == m(fin, "");
    assert ClosedTo(fin, 0, ops) == PopN(fin.stack, |fin.stack| - 1, ops.merge);
    assert DiatomToString(Table(es), fmt) == WriteEntries(es, 0, fmt) + "\n";
  }

  /** `diatomFromString(diatomToString(t))` is `t`, with no diagnostic,
      for every table whose text the lexer reads back. */
  lemma WriteThenRead(es: seq<Entry>, fmt: Formatter, read: NumberReader, before: KeyOrder)
    requires Writable(Table(es), fmt, read, before)
    ensures DiatomFromString(DiatomToString(Table(es), fmt), read, before) == Outcome(Table(es), None)
  {
    ReaderFollows(fmt, read, before);
    ReadsBack(Reader(read, before), StorageOps(before), es, fmt, read, before);
  }

  /** The named overload writes the text of the one-entry table. */
  lemma NamedText(d: Value, name: string, fmt: Formatter, before: KeyOrder)
    requires !d.Nil?
    ensures DiatomToStringNamed(d, name, fmt, before) == DiatomToString(Table([Entry(CStr(name), d)]), fmt)
  {
    var cut := CStr(name);
    var es, w := [Entry(cut, d)], Write(d, 1, fmt);
    assert es[1..] == [];
    assert WriteEntries(es, 0, fmt) == "\n" + Indent(0) + cut + ":" + w + "";
    assert Indent(0) == "";
    assert "\n" + Indent(0) + cut + ":" + w + "" == "\n" + cut + ":" + w;
    TableText(es, 0, fmt);
  }

  /** A one-entry table of a writable value under a good name is writable. */
  lemma NamedWritable(d: Value, name: string, fmt: Formatter, read: NumberReader, before: KeyOrder)
    requires NameOk(name) && !d.Nil? && Writable(d, fmt, read, before)
    ensures Writable(Table([Entry(name, d)]), fmt, read, before)
  {
    var es := [Entry(name, d)];
    assert UniqueKeys(es) && OrderedBy(es, before);
  }

  /** The named overload reads back as a table holding the value under
      the name. */
  lemma WriteNamedThenRead(d: Value, name: string, fmt: Formatter, read: NumberReader, before: KeyOrder)
    requires NameOk(name) && !d.Nil? && Writable(d, fmt, read, before)
    ensures DiatomFromString(DiatomToStringNamed(d, name, fmt, before), read, before)
         == Outcome(Table([Entry(name, d)]), None)
  {
    NamedText(d, name, fmt, before);
    CStrCuts(name, "");
    NamedWritable(d, name, fmt, read, before);
    WriteThenRead([Entry(name, d)], fmt, read, before);
  }
}

=== FILE: serialization.dfy ===
/** The staged `.diatom` reader and writer (DiatomSerialization.h).

    Reading runs in stages, each over whole lines: strip surrounding
    newlines, split into lines, tokenize every line by maximal munch,
    reject lexical errors, drop interior whitespace, check each line's
    shape, check indentation, and only then build the tree bottom-up.

    The revision of the value type this file was written against keeps
    table entries in a vector in insertion order, so every assignment here
    uses `InsertionOrder`. The library float routines (`sprintf("%.17f")`
    behind `float_format`, and `std::stof`) are parameters. */
module Serialization {
  import opened Chars
  import opened Values

  /** What `std::stof` reports: the value read and how many leading
      characters it consumed. */
  datatype Scan = Scan(value: real, length: nat)

  /** `std::stof` either throws (None) or consumes at least one and at
      most all of the characters it is given. */
  ghost predicate ScannerShape(f: string -> Option<Scan>)
  {
    forall s :: f(s).Some? ==> 1 <= f(s).value.length <= |s|
  }

  function RejectAll(s: string): Option<Scan> { None }

  type Scanner = f: string -> Option<Scan> | ScannerShape(f) witness RejectAll

  // ---------------------------------------------------------------------
  // Helpers

  /** `split(s, c)`: the pieces of `s` between occurrences of `c`; an empty
      input gives no pieces and a final `c` gives no empty last piece. */
  function Split(s: string, c: char): (r: seq<string>)
    ensures |s| == 0 <==> r == []
    ensures |s| > 0 && IndexOf(s, c) == |s| ==> r == [s]
    ensures forall i :: 0 <= i < |r| ==> IndexOf(r[i], c) == |r[i]|
    decreases |s|
  {
    if |s| == 0 then []
    else
      var k := IndexOf(s, c);
      if k == |s| then [s] else [s[..k]] + Split(s[k + 1..], c)
  }

  /** Joining the pieces back with `c` gives the text again, less one
      final `c`. */
  lemma {:induction false} SplitJoin(s: string, c: char)
    ensures |s| > 0 ==> Join(Split(s, c), c) == (if s[|s| - 1] == c then s[..|s| - 1] else s)
    decreases |s|
  {
    if |s| > 0 {
      var k := IndexOf(s, c);
      if k < |s| {
        var t := s[k + 1..];
        if |t| == 0 {
          assert Split(s, c) == [s[..k]];
          assert s[..|s| - 1] == s[..k];
        } else {
          SplitJoin(t, c);
          SplitJoinStep(s, c, k);
        }
      }
    }
  }

  lemma SplitJoinStep(s: string, c: char, k: nat)
    requires k == IndexOf(s, c) && k < |s| - 1
    requires var t := s[k + 1..];
      Join(Split(t, c), c) == (if t[|t| - 1] == c then t[..|t| - 1] else t)
    ensures Join(Split(s, c), c) == (if s[|s| - 1] == c then s[..|s| - 1] else s)
  {
    var x, t := s[..k], s[k + 1..];
    var rest := Split(t, c);
    SplitStep(s, c);
    JoinCons(x, rest, c);
    assert Join(Split(s, c), c) == x + [c] + Join(rest, c);
    assert s[|s| - 1] == t[|t| - 1];
    if t[|t| - 1] == c {
      CutLast(s, k);
    } else {
      CutAt(s, k);
    }
  }

  /** `s` less its last character, cut at a position before it. */
  lemma CutLast<T>(s: seq<T>, k: nat)
    requires k < |s| - 1
    ensures s[..|s| - 1] == s[..k] + [s[k]] + s[k + 1..][..|s| - k - 2]
  {
    var u := s[..|s| - 1];
    CutAt(u, k);
    assert u[..k] == s[..k] && u[k] == s[k];
    assert u[k + 1..] == s[k + 1..][..|s| - k - 2];
  }

  /** `s` is the part before position `k`, the character at `k`, and the
      part after. */
  lemma CutAt<T>(s: seq<T>, k: nat)
    requires k < |s|
    ensures s == s[..k] + [s[k]] + s[k + 1..]
  {
  }

  lemma SplitStep(s: string, c: char)
    requires IndexOf(s, c) < |s|
    ensures Split(s, c) == [s[..IndexOf(s, c)]] + Split(s[IndexOf(s, c) + 1..], c)
  {
  }

  lemma JoinCons(x: string, rest: seq<string>, c: char)
    requires |rest| > 0
    ensures Join([x] + rest, c) == x + [c] + Join(rest, c)
  {
    assert ([x] + rest)[1..] == rest;
  }

  /** The pieces written back with `c` between them. */
  function Join(pieces: seq<string>, c: char): string
  {
    if |pieces| == 0 then ""
    else if |pieces| == 1 then pieces[0]
    else pieces[0] + [c] + Join(pieces[1..], c)
  }

  /** Position of the first `c` in `s`, or `|s|` when there is none. */
  function IndexOf(s: string, c: char): (k: nat)
    ensures k <= |s|
    ensures k < |s| ==> s[k] == c
    ensures forall i :: 0 <= i < k ==> s[i] != c
  {
    if |s| == 0 then 0
    else if s[0] == c then 0
    else 1 + IndexOf(s[1..], c)
  }

  predicate HasBothTabsAndSpaces(s: string)
  {
    ' ' in s && '\t' in s
  }

  predicate IsWordChar(c: char) { IsAlpha(c) || IsDigit(c) || c == '_' }

  /** Length of the longest run of characters satisfying `p` from `pos`. */
  function Run(line: string, pos: nat, p: char -> bool): (k: nat)
    requires pos <= |line|
    ensures pos + k <= |line|
    ensures forall i :: pos <= i < pos + k ==> p(line[i])
    ensures pos + k == |line| || !p(line[pos + k])
    decreases |line| - pos
  {
    if pos == |line| || !p(line[pos]) then 0 else 1 + Run(line, pos + 1, p)
  }

  // ---------------------------------------------------------------------
  // Tokens

  datatype Token =
    | Name(text: string)
    | StrProp(text: string)          // the literal, quotes included
    | NumProp(n: real, text: string)
    | BoolProp(text: string)
    | Whitespace(text: string)
    | Colon
    | Invalid
    | Error(message: string)

  /** The token's text (`Token::s`), whose length drives maximal munch. */
  function Text(t: Token): string
  {
    match t
    case Name(s) => s
    case StrProp(s) => s
    case NumProp(_, s) => s
    case BoolProp(s) => s
    case Whitespace(s) => s
    case Colon => ":"
    case Invalid => ""
    case Error(_) => ""
  }

  predicate IsProperty(t: Token) { t.StrProp? || t.NumProp? || t.BoolProp? }

  /** `t`'s text is what `line` holds at `pos`. */
  predicate TextAt(line: string, pos: nat, t: Token)
  {
    pos + |Text(t)| <= |line| && line[pos..pos + |Text(t)|] == Text(t)
  }

  /** `token__name`: a letter followed by the longest run of letters,
      digits and underscores; `true` and `false` are not names. */
  function TokenName(line: string, pos: nat): (r: Token)
    requires pos < |line|
    ensures Fits(line, pos, r)
    ensures r.Name? || r.Invalid?
    ensures !IsAlpha(line[pos]) ==> r.Invalid?
    ensures r.Name? ==>
      && TextAt(line, pos, r) && |r.text| >= 1 && IsAlpha(r.text[0])
      && (forall i :: 0 <= i < |r.text| ==> IsWordChar(r.text[i]))
      && (pos + |r.text| == |line| || !IsWordChar(line[pos + |r.text|]))
      && r.text != "true" && r.text != "false"
    ensures IsAlpha(line[pos]) && r.Invalid? ==>
      var w := line[pos..pos + Run(line, pos, IsWordChar)]; w == "true" || w == "false"
  {
    if !IsAlpha(line[pos]) then Invalid
    else
      var w := line[pos..pos + Run(line, pos, IsWordChar)];
      if w == "true" || w == "false" then Invalid else Name(w)
  }

  /** A `"` at `i` that is not directly preceded by a backslash. */
  predicate ClosingQuote(line: string, i: nat)
    requires 0 < i < |line|
  {
    line[i] == '"' && line[i - 1] != '\\'
  }

  predicate IsLineBreak(c: char) { c == '\n' || c == '\r' }

  /** `token__str_property`: from an opening `"` up to and including the
      first quote not preceded by a backslash, or to the end of the line
      when there is none (the literal is then left open). Backslashes are
      kept. A line break met first is an error. */
  function TokenString(line: string, pos: nat): (r: Token)
    requires pos < |line|
    ensures Fits(line, pos, r)
    ensures r.StrProp? || r.Invalid? || r.Error?
    ensures r.Invalid? <==> line[pos] != '"'
    ensures r.StrProp? ==>
      && TextAt(line, pos, r) && |r.text| >= 1
      && (forall i :: pos < i < pos + |r.text| ==> !IsLineBreak(line[i]))
      && (forall i :: pos < i < pos + |r.text| - 1 ==> !ClosingQuote(line, i))
      && (pos + |r.text| == |line| || (|r.text| >= 2 && ClosingQuote(line, pos + |r.text| - 1)))
    ensures r.Error? ==>
      exists j :: pos < j < |line| && IsLineBreak(line[j]) && (forall i :: pos < i < j ==> !ClosingQuote(line, i))
  {
    if line[pos] != '"' then Invalid else StringFrom(line, pos, pos + 1)
  }

  function StringFrom(line: string, start: nat, j: nat): (r: Token)
    requires start < j <= |line| && line[start] == '"'
    requires forall i :: start < i < j ==> !IsLineBreak(line[i]) && !ClosingQuote(line, i)
    ensures r.StrProp? || r.Error?
    ensures r.StrProp? ==>
      && TextAt(line, start, r) && |r.text| >= j - start
      && (forall i :: start < i < start + |r.text| ==> !IsLineBreak(line[i]))
      && (forall i :: start < i < start + |r.text| - 1 ==> !ClosingQuote(line, i))
      && (start + |r.text| == |line| || (|r.text| >= 2 && ClosingQuote(line, start + |r.text| - 1)))
    ensures r.Error? ==>
      exists k :: j <= k < |line| && IsLineBreak(line[k]) && (forall i :: start < i < k ==> !ClosingQuote(line, i))
    decreases |line| - j
  {
    if j == |line| then StrProp(line[start..])
    else if IsLineBreak(line[j]) then Error("Unexpected newline in string literal")
    else if ClosingQuote(line, j) then StrProp(line[start..j + 1])
    else StringFrom(line, start, j + 1)
  }

  /** `token__number_property`: a digit, `.` or `-` hands the rest of the
      line to `std::stof`; its consumed prefix is the token text. */
  function TokenNumber(line: string, pos: nat, scan: Scanner): (r: Token)
    requires pos < |line|
    ensures Fits(line, pos, r)
    ensures r.NumProp? || r.Invalid?
    ensures !(IsDigit(line[pos]) || line[pos] == '.' || line[pos] == '-') ==> r.Invalid?
    ensures r.NumProp? ==>
      TextAt(line, pos, r) && |r.text| >= 1 && scan(line[pos..]) == Some(Scan(r.n, |r.text|))
  {
    if !(IsDigit(line[pos]) || line[pos] == '.' || line[pos] == '-') then Invalid
    else match scan(line[pos..])
      case None => Invalid
      case Some(sc) => NumProp(sc.value, line[pos..pos + sc.length])
  }

  /** `s.substr(pos, n)`: at most `n` characters, fewer near the end. */
  function Substr(s: string, pos: nat, n: nat): (r: string)
    requires pos <= |s|
    ensures |r| <= n && pos + |r| <= |s| && r == s[pos..pos + |r|]
    ensures |r| == if pos + n <= |s| then n else |s| - pos
  {
    if pos + n <= |s| then s[pos..pos + n] else s[pos..]
  }

  /** `token__bool_property`: the text `true` or `false` at `pos`. */
  function TokenBool(line: string, pos: nat): (r: Token)
    requires pos < |line|
    ensures Fits(line, pos, r)
    ensures r.BoolProp? || r.Invalid?
    ensures r.BoolProp? ==> TextAt(line, pos, r) && (r.text == "true" || r.text == "false")
    ensures r.Invalid? ==> Substr(line, pos, 4) != "true" && Substr(line, pos, 5) != "false"
  {
    if Substr(line, pos, 4) == "true" then BoolProp("true")
    else if Substr(line, pos, 5) == "false" then BoolProp("false")
    else Invalid
  }

  /** `token__whitespace`: the longest run of spaces and tabs; an empty run
      is no token, and a run holding both is always an error. */
  function TokenWhitespace(line: string, pos: nat): (r: Token)
    requires pos < |line|
    ensures Fits(line, pos, r)
    ensures r.Whitespace? || r.Invalid? || r.Error?
    ensures r.Invalid? <==> !IsBlank(line[pos])
    ensures r.Error? <==> IsBlank(line[pos]) && HasBothTabsAndSpaces(line[pos..pos + Run(line, pos, IsBlank)])
    ensures r.Whitespace? ==>
      && TextAt(line, pos, r) && |r.text| >= 1
      && (forall i :: 0 <= i < |r.text| ==> IsBlank(r.text[i]))
      && (pos + |r.text| == |line| || !IsBlank(line[pos + |r.text|]))
      && !HasBothTabsAndSpaces(r.text)
  {
    var w := line[pos..pos + Run(line, pos, IsBlank)];
    if |w| == 0 then Invalid
    else if HasBothTabsAndSpaces(w) then Error("Input contains both tabs and spaces")
    else Whitespace(w)
  }

  function TokenColon(line: string, pos: nat): (r: Token)
    requires pos < |line|
    ensures Fits(line, pos, r)
    ensures r.Colon? <==> line[pos] == ':'
    ensures r.Colon? || r.Invalid?
  {
    if line[pos] == ':' then Colon else Invalid
  }

  /** The tokens of `ts` that are not Invalid, in order. */
  function DropInvalid(ts: seq<Token>): (r: seq<Token>)
    ensures |r| <= |ts|
    ensures forall i :: 0 <= i < |r| ==> !r[i].Invalid?
  {
    if |ts| == 0 then []
    else if ts[0].Invalid? then DropInvalid(ts[1..])
    else [ts[0]] + DropInvalid(ts[1..])
  }

  /** `matching_tokens`: what every token rule makes of the text at `pos`,
      in the rules' order, Invalid results dropped. */
  function Candidates(line: string, pos: nat, scan: Scanner): seq<Token>
    requires pos < |line|
  {
    DropInvalid([
      TokenName(line, pos),
      TokenString(line, pos),
      TokenNumber(line, pos, scan),
      TokenBool(line, pos),
      TokenWhitespace(line, pos),
      TokenColon(line, pos)])
  }

  /** A rule's answer at `pos`: no token, or a token spelled by the text
      there which is non-empty unless it is an error. */
  predicate Fits(line: string, pos: nat, t: Token)
  {
    t.Invalid? || (TextAt(line, pos, t) && (t.Error? || |Text(t)| >= 1))
  }

  /** Dropping Invalid tokens keeps only tokens that were in the list:
      whatever all of them share, the survivors share. */
  lemma {:induction false} DropInvalidFits(line: string, pos: nat, ts: seq<Token>)
    requires forall i :: 0 <= i < |ts| ==> Fits(line, pos, ts[i])
    ensures forall i :: 0 <= i < |DropInvalid(ts)| ==> Fits(line, pos, DropInvalid(ts)[i])
  {
    if |ts| > 0 {
      DropInvalidFits(line, pos, ts[1..]);
    }
  }

  lemma {:induction false} DropInvalidNoError(ts: seq<Token>)
    requires forall i :: 0 <= i < |ts| ==> !ts[i].Error?
    ensures forall i :: 0 <= i < |DropInvalid(ts)| ==> !DropInvalid(ts)[i].Error?
  {
    if |ts| > 0 {
      DropInvalidNoError(ts[1..]);
    }
  }

  /** Dropping Invalid tokens from a list where only `ts[k]` can be
      anything else leaves at most that one. */
  lemma {:induction false} DropInvalidSingle(ts: seq<Token>, k: nat)
    requires k < |ts|
    requires forall j :: 0 <= j < |ts| && j != k ==> ts[j].Invalid?
    ensures |DropInvalid(ts)| <= 1
  {
    if k == 0 {
      DropInvalidNone(ts[1..]);
    } else {
      DropInvalidSingle(ts[1..], k - 1);
    }
  }

  lemma {:induction false} DropInvalidNone(ts: seq<Token>)
    requires forall j :: 0 <= j < |ts| ==> ts[j].Invalid?
    ensures DropInvalid(ts) == []
  {
    if |ts| > 0 {
      DropInvalidNone(ts[1..]);
    }
  }

  /** Every candidate matches the text at `pos`; an Error candidate is
      always the only one (its rules start with `"` or a blank, which no
      other rule accepts), and every other candidate is non-empty. */
  lemma CandidateFacts(line: string, pos: nat, scan: Scanner)
    requires pos < |line|
    ensures var cs := Candidates(line, pos, scan);
      forall i :: 0 <= i < |cs| ==>
        && TextAt(line, pos, cs[i]) && !cs[i].Invalid?
        && (cs[i].Error? ==> |cs| == 1)
        && (!cs[i].Error? ==> |Text(cs[i])| >= 1)
  {
    CandidatesFit(line, pos, scan);
    CandidateErrorAlone(line, pos, scan);
  }

  lemma CandidatesFit(line: string, pos: nat, scan: Scanner)
    requires pos < |line|
    ensures var cs := Candidates(line, pos, scan);
      forall i :: 0 <= i < |cs| ==> Fits(line, pos, cs[i])
  {
    var a, b, c := TokenName(line, pos), TokenString(line, pos), TokenNumber(line, pos, scan);
    var d, e, f := TokenBool(line, pos), TokenWhitespace(line, pos), TokenColon(line, pos);
    assert Candidates(line, pos, scan) == DropInvalid([a, b, c, d, e, f]);
    SixFit(line, pos, a, b, c, d, e, f);
  }

  lemma SixFit(line: string, pos: nat, a: Token, b: Token, c: Token, d: Token, e: Token, f: Token)
    requires Fits(line, pos, a) && Fits(line, pos, b) && Fits(line, pos, c)
    requires Fits(line, pos, d) && Fits(line, pos, e) && Fits(line, pos, f)
    ensures var cs := DropInvalid([a, b, c, d, e, f]);
      forall i :: 0 <= i < |cs| ==> Fits(line, pos, cs[i])
  {
    var all := [a, b, c, d, e, f];
    forall i | 0 <= i < |all| ensures Fits(line, pos, all[i]) {
      if i == 0 {} else if i == 1 {} else if i == 2 {} else if i == 3 {} else if i == 4 {} else {}
    }
    DropInvalidFits(line, pos, all);
  }

  lemma CandidateErrorAlone(line: string, pos: nat, scan: Scanner)
    requires pos < |line|
    ensures var cs := Candidates(line, pos, scan);
      |cs| <= 1 || forall i :: 0 <= i < |cs| ==> !cs[i].Error?
  {
    var c := line[pos];
    if c == '"' || IsBlank(c) {
      NoBoolAt(line, pos);
      SingleCandidate(line, pos, scan);
    } else {
      NoErrorCandidate(line, pos, scan);
    }
  }

  lemma SingleCandidate(line: string, pos: nat, scan: Scanner)
    requires pos < |line| && (line[pos] == '"' || IsBlank(line[pos]))
    requires TokenBool(line, pos).Invalid?
    ensures |Candidates(line, pos, scan)| <= 1
  {
    var a, b, c := TokenName(line, pos), TokenString(line, pos), TokenNumber(line, pos, scan);
    var d, e, f := TokenBool(line, pos), TokenWhitespace(line, pos), TokenColon(line, pos);
    assert Candidates(line, pos, scan) == DropInvalid([a, b, c, d, e, f]);
    if line[pos] == '"' {
      OnlyOne(a, b, c, d, e, f, 1);
    } else {
      OnlyOne(a, b, c, d, e, f, 4);
    }
  }

  /** Six rule answers of which only the string rule's (`k == 1`) or the
      whitespace rule's (`k == 4`) can be a token. */
  lemma OnlyOne(a: Token, b: Token, c: Token, d: Token, e: Token, f: Token, k: nat)
    requires k == 1 || k == 4
    requires a.Invalid? && c.Invalid? && d.Invalid? && f.Invalid?
    requires k == 1 ==> e.Invalid?
    requires k == 4 ==> b.Invalid?
    ensures |DropInvalid([a, b, c, d, e, f])| <= 1
  {
    var all := [a, b, c, d, e, f];
    forall j | 0 <= j < |all| && j != k ensures all[j].Invalid? {
      if j == 0 {} else if j == 1 {} else if j == 2 {} else if j == 3 {} else if j == 4 {} else {}
    }
    DropInvalidSingle(all, k);
  }

  lemma NoErrorCandidate(line: string, pos: nat, scan: Scanner)
    requires pos < |line| && line[pos] != '"' && !IsBlank(line[pos])
    ensures var cs := Candidates(line, pos, scan);
      forall i :: 0 <= i < |cs| ==> !cs[i].Error?
  {
    var a, b, c := TokenName(line, pos), TokenString(line, pos), TokenNumber(line, pos, scan);
    var d, e, f := TokenBool(line, pos), TokenWhitespace(line, pos), TokenColon(line, pos);
    var all := [a, b, c, d, e, f];
    assert Candidates(line, pos, scan) == DropInvalid(all);
    assert b.Invalid? && e.Invalid?;
    assert !a.Error? && !c.Error? && !d.Error? && !f.Error?;
    forall i | 0 <= i < |all| ensures !all[i].Error? {
      if i == 0 {} else if i == 1 {} else if i == 2 {} else if i == 3 {} else if i == 4 {} else {}
    }
    DropInvalidNoError(all);
  }

  /** A quote or a blank cannot begin `true` or `false`. */
  lemma NoBoolAt(line: string, pos: nat)
    requires pos < |line| && (line[pos] == '"' || IsBlank(line[pos]))
    ensures TokenBool(line, pos).Invalid?
  {
    assert Substr(line, pos, 4)[0] == line[pos];
    assert Substr(line, pos, 5)[0] == line[pos];
  }

  /** The first candidate whose text is strictly longer than every earlier
      one and no shorter than any later one (the `longest_token_i` loop). */
  function Longest(ts: seq<Token>): (k: nat)
    requires |ts| > 0
    ensures k < |ts|
    ensures forall j :: 0 <= j < |ts| ==> |Text(ts[j])| <= |Text(ts[k])|
    ensures forall j :: 0 <= j < k ==> |Text(ts[j])| < |Text(ts[k])|
  {
    LongestFrom(ts, 0, 0, 0)
  }

  function LongestFrom(ts: seq<Token>, i: nat, best: nat, bestLen: nat): (k: nat)
    requires i <= |ts| && best < |ts|
    requires i == 0 ==> best == 0 && bestLen == 0
    requires i > 0 ==> best < i && bestLen == |Text(ts[best])|
    requires forall j :: 0 <= j < i ==> |Text(ts[j])| <= bestLen
    requires forall j :: 0 <= j < best ==> |Text(ts[j])| < bestLen
    ensures k < |ts|
    ensures i < |ts| || k == best
    ensures forall j :: 0 <= j < |ts| ==> |Text(ts[j])| <= |Text(ts[k])|
    ensures forall j :: 0 <= j < k ==> |Text(ts[j])| < |Text(ts[k])|
    decreases |ts| - i
  {
    if i == |ts| then best
    else if |Text(ts[i])| > bestLen then LongestFrom(ts, i + 1, i, |Text(ts[i])|)
    else LongestFrom(ts, i + 1, best, bestLen)
  }

  /** What `tokenize` returns for a line it cannot lex. */
  const InvalidInput: Token := Error("Invalid input")

  /** Whether the candidates at a position leave the tokenizer stuck:
      nothing matched, or the only match is an error. */
  predicate Stuck(cs: seq<Token>)
  {
    |cs| == 0 || (|cs| == 1 && cs[0].Error?)
  }

  /** A token the tokenizer can take: real, non-empty text. */
  predicate Solid(t: Token)
  {
    !t.Error? && !t.Invalid? && |Text(t)| >= 1
  }

  /** `t` is, among `cs`, the first one whose text is longest. */
  ghost predicate FirstLongest(cs: seq<Token>, t: Token)
  {
    exists k :: 0 <= k < |cs| && cs[k] == t
      && (forall j :: 0 <= j < |cs| ==> |Text(cs[j])| <= |Text(t)|)
      && (forall j :: 0 <= j < k ==> |Text(cs[j])| < |Text(t)|)
  }

  /** The `longest_token_i` choice among candidates, or None when they
      leave the tokenizer stuck. */
  function Pick(cs: seq<Token>): (r: Option<Token>)
    ensures r.None? <==> Stuck(cs)
    ensures r.Some? ==> FirstLongest(cs, r.value)
  {
    if Stuck(cs) then None else Some(cs[Longest(cs)])
  }

  /** The candidates at every offset of `line` (none past its end). */
  function CandidatesAt(line: string, scan: Scanner): nat -> seq<Token>
  {
    (p: nat) => if p < |line| then Candidates(line, p, scan) else []
  }

  /** The token `tokenize` takes at `pos`, or None where it is stuck. */
  function Step(line: string, pos: nat, scan: Scanner): (r: Option<Token>)
    ensures r.Some? ==> pos < |line| && TextAt(line, pos, r.value) && Solid(r.value)
    ensures r == (if pos < |line| then Pick(CandidatesAt(line, scan)(pos)) else None)
  {
    if pos >= |line| then None
    else
      var cs := Candidates(line, pos, scan);
      CandidateFacts(line, pos, scan);
      assert CandidatesAt(line, scan)(pos) == cs;
      if Stuck(cs) then None
      else
        var k := Longest(cs);
        assert |Text(cs[0])| >= 1;
        Some(cs[k])
  }

  /** A tokenizing step for one line: which token to take at each offset. */
  type Lexer = nat -> Option<Token>

  /** Every token `step` offers is spelled by `line` at that offset. */
  ghost predicate LexerFits(line: string, step: Lexer)
  {
    forall p: nat :: step(p).Some? ==> p < |line| && TextAt(line, p, step(p).value) && Solid(step(p).value)
  }

  /** Every token `step` offers is non-empty and ends within `line`: what
      the tokenizing loop needs to terminate. */
  ghost predicate Advances(line: string, step: Lexer)
  {
    forall p: nat :: step(p).Some? ==> p < |line| && 1 <= |Text(step(p).value)| <= |line| - p
  }

  lemma FitsAdvances(line: string, step: Lexer)
    requires LexerFits(line, step)
    ensures Advances(line, step)
  {
  }

  /** `step` picks, at each offset of `line`, the first longest of the
      candidates `cands`, and nothing where they leave it stuck or past
      the end of the line. */
  ghost predicate PicksFrom(line: string, step: Lexer, cands: nat -> seq<Token>)
  {
    forall p: nat ::
      && (step(p).None? <==> p >= |line| || Stuck(cands(p)))
      && (step(p).Some? ==> FirstLongest(cands(p), step(p).value))
  }

  /** The tokenizer's choice at every offset of `line`. */
  function StepOf(line: string, scan: Scanner): (step: Lexer)
    ensures LexerFits(line, step)
    ensures PicksFrom(line, step, CandidatesAt(line, scan))
  {
    (p: nat) => Step(line, p, scan)
  }

  /** Concatenated texts of a token list. */
  function Texts(ts: seq<Token>): string
  {
    if |ts| == 0 then "" else Text(ts[0]) + Texts(ts[1..])
  }

  /** The `tokenize` loop from offset `pos`: take the token offered, advance
      by its length, until the end of the line; None where nothing is
      offered. */
  function Munch(line: string, step: Lexer, pos: nat): Option<seq<Token>>
    requires Advances(line, step) && pos <= |line|
    decreases |line| - pos
  {
    if pos == |line| then Some([])
    else match step(pos)
      case None => None
      case Some(t) =>
        match Munch(line, step, pos + |Text(t)|)
        case None => None
        case Some(rest) => Some([t] + rest)
  }

  /** The tokens of a successful munch are solid and spell the rest of
      the line. */
  lemma {:induction false} MunchTexts(line: string, step: Lexer, pos: nat)
    requires LexerFits(line, step) && Advances(line, step) && pos <= |line|
    ensures var r := Munch(line, step, pos);
      r.Some? ==> Texts(r.value) == line[pos..] && forall i :: 0 <= i < |r.value| ==> Solid(r.value[i])
    decreases |line| - pos
  {
    if pos < |line| && Munch(line, step, pos).Some? {
      MunchHead(line, step, pos);
      var t := step(pos).value;
      var rest := Munch(line, step, pos + |Text(t)|).value;
      MunchTexts(line, step, pos + |Text(t)|);
      TextsCons(t, rest);
      SuffixSplit(line, pos, Text(t));
    }
  }

  lemma TextsCons(t: Token, ts: seq<Token>)
    ensures Texts([t] + ts) == Text(t) + Texts(ts)
  {
    assert ([t] + ts)[1..] == ts;
  }

  lemma SuffixSplit(s: string, pos: nat, w: string)
    requires pos + |w| <= |s| && s[pos..pos + |w|] == w
    ensures s[pos..] == w + s[pos + |w|..]
  {
  }

  /** `tokenize`: the tokens of the line, or the single `InvalidInput`
      token when the tokenizer gets stuck somewhere on it. */
  function Tokenize(line: string, scan: Scanner): (r: seq<Token>)
    ensures r == [InvalidInput] || (Texts(r) == line && forall i :: 0 <= i < |r| ==> Solid(r[i]))
  {
    var step := StepOf(line, scan);
    FitsAdvances(line, step);
    MunchTexts(line, step, 0);
    match Munch(line, step, 0)
    case None => [InvalidInput]
    case Some(ts) =>
      assert line[0..] == line;
      ts
  }

  /** `ts` lexes `line` from `pos` by maximal munch: each token is, of the
      candidates where the tokens before it end, the first longest. */
  ghost predicate MaximalMunch(line: string, cands: nat -> seq<Token>, pos: nat, ts: seq<Token>)
    decreases |ts|
  {
    if |ts| == 0 then pos == |line|
    else
      && pos < |line|
      && !Stuck(cands(pos))
      && FirstLongest(cands(pos), ts[0])
      && MaximalMunch(line, cands, pos + |Text(ts[0])|, ts[1..])
  }

  /** At most one token is the first longest of a list. */
  lemma FirstLongestUnique(cs: seq<Token>, t: Token, u: Token)
    requires FirstLongest(cs, t) && FirstLongest(cs, u)
    ensures t == u
  {
    var k :| 0 <= k < |cs| && cs[k] == t
      && (forall j :: 0 <= j < |cs| ==> |Text(cs[j])| <= |Text(t)|)
      && (forall j :: 0 <= j < k ==> |Text(cs[j])| < |Text(t)|);
    var m :| 0 <= m < |cs| && cs[m] == u
      && (forall j :: 0 <= j < |cs| ==> |Text(cs[j])| <= |Text(u)|)
      && (forall j :: 0 <= j < m ==> |Text(cs[j])| < |Text(u)|);
    assert k == m;
  }

  lemma {:induction false} MunchIsMaximal(line: string, step: Lexer, cands: nat -> seq<Token>, pos: nat)
    requires Advances(line, step) && PicksFrom(line, step, cands) && pos <= |line|
    ensures var r := Munch(line, step, pos);
      r.Some? ==> MaximalMunch(line, cands, pos, r.value)
    decreases |line| - pos
  {
    if pos < |line| && Munch(line, step, pos).Some? {
      MunchHead(line, step, pos);
      PickedAt(line, step, cands, pos);
      var t := step(pos).value;
      var next := pos + |Text(t)|;
      var rest := Munch(line, step, next).value;
      MunchIsMaximal(line, step, cands, next);
      assert MaximalMunch(line, cands, next, rest);
      MaximalCons(line, cands, pos, t, rest);
    }
  }

  /** The token offered at `pos` fits the line and is the first longest
      of the candidates there. */
  lemma PickedAt(line: string, step: Lexer, cands: nat -> seq<Token>, pos: nat)
    requires Advances(line, step) && PicksFrom(line, step, cands)
    requires pos < |line| && step(pos).Some?
    ensures pos + |Text(step(pos).value)| <= |line|
    ensures !Stuck(cands(pos)) && FirstLongest(cands(pos), step(pos).value)
  {
  }

  lemma MaximalCons(line: string, cands: nat -> seq<Token>, pos: nat, t: Token, rest: seq<Token>)
    requires pos < |line| && !Stuck(cands(pos)) && FirstLongest(cands(pos), t)
    requires MaximalMunch(line, cands, pos + |Text(t)|, rest)
    ensures MaximalMunch(line, cands, pos, [t] + rest)
  {
    assert ([t] + rest)[1..] == rest;
  }

  lemma {:induction false} MaximalIsMunch(line: string, step: Lexer, cands: nat -> seq<Token>, pos: nat, ts: seq<Token>)
    requires Advances(line, step) && PicksFrom(line, step, cands) && pos <= |line|
    requires MaximalMunch(line, cands, pos, ts)
    ensures Munch(line, step, pos) == Some(ts)
    decreases |ts|
  {
    if |ts| > 0 {
      var t := step(pos).value;
      FirstLongestUnique(cands(pos), t, ts[0]);
      MaximalIsMunch(line, step, cands, pos + |Text(t)|, ts[1..]);
      MunchStep(line, step, pos, t, ts[1..]);
      assert [t] + ts[1..] == ts;
    }
  }

  /** A successful munch from `pos` is the token offered there followed
      by the munch from where that token ends. */
  lemma MunchHead(line: string, step: Lexer, pos: nat)
    requires Advances(line, step) && pos < |line|
    requires Munch(line, step, pos).Some?
    ensures step(pos).Some?
    ensures pos + |Text(step(pos).value)| <= |line|
    ensures Munch(line, step, pos + |Text(step(pos).value)|).Some?
    ensures Munch(line, step, pos).value
      == [step(pos).value] + Munch(line, step, pos + |Text(step(pos).value)|).value
  {
  }

  lemma MunchStep(line: string, step: Lexer, pos: nat, t: Token, rest: seq<Token>)
    requires Advances(line, step) && pos < |line|
    requires step(pos) == Some(t)
    requires pos + |Text(t)| <= |line| && Munch(line, step, pos + |Text(t)|) == Some(rest)
    ensures Munch(line, step, pos) == Some([t] + rest)
  {
  }

  /** `tokenize` succeeds exactly on the lines that have a maximal-munch
      tokenization, and then returns it. */
  lemma TokenizeMaximalMunch(line: string, scan: Scanner)
    ensures var r := Tokenize(line, scan);
      r != [InvalidInput] ==> MaximalMunch(line, CandidatesAt(line, scan), 0, r)
    ensures forall ts :: MaximalMunch(line, CandidatesAt(line, scan), 0, ts) ==>
      Tokenize(line, scan) == ts && ts != [InvalidInput]
  {
    var step := StepOf(line, scan);
    var cands := CandidatesAt(line, scan);
    FitsAdvances(line, step);
    MunchIsMaximal(line, step, cands, 0);
    forall ts | MaximalMunch(line, cands, 0, ts)
      ensures Tokenize(line, scan) == ts && ts != [InvalidInput]
    {
      MaximalIsMunch(line, step, cands, 0, ts);
      if |ts| > 0 {
        assert Solid(ts[0]);
      }
    }
  }

  // ---------------------------------------------------------------------
  // Line checks

  /** The tokens of `ts` other than Whitespace, in order. */
  function DropWhitespace(ts: seq<Token>): (r: seq<Token>)
    ensures |r| <= |ts|
    ensures forall i :: 0 <= i < |r| ==> !r[i].Whitespace? && r[i] in ts
    ensures forall i :: 0 <= i < |ts| && !ts[i].Whitespace? ==> ts[i] in r
  {
    if |ts| == 0 then []
    else if ts[0].Whitespace? then DropWhitespace(ts[1..])
    else [ts[0]] + DropWhitespace(ts[1..])
  }

  /** `strip_nonleading_whitespace`: keep the first token, drop every other
      Whitespace token. */
  function StripNonleadingWhitespace(ts: seq<Token>): (r: seq<Token>)
    ensures |ts| == 0 <==> |r| == 0
    ensures |ts| > 0 ==> r[0] == ts[0]
    ensures forall i :: 1 <= i < |r| ==> !r[i].Whitespace?
    ensures |r| <= |ts|
    ensures forall i :: 1 <= i < |ts| && !ts[i].Whitespace? ==> ts[i] in r
  {
    if |ts| == 0 then ts else [ts[0]] + DropWhitespace(ts[1..])
  }

  /** Dropping Whitespace works piece by piece, so the kept tokens stay in
      their original order. */
  lemma {:induction false} DropWhitespaceAppend(a: seq<Token>, b: seq<Token>)
    ensures DropWhitespace(a + b) == DropWhitespace(a) + DropWhitespace(b)
  {
    if |a| > 0 {
      assert (a + b)[0] == a[0];
      assert (a + b)[1..] == a[1..] + b;
      DropWhitespaceAppend(a[1..], b);
    } else {
      assert a + b == b;
    }
  }

  /** A token list without Whitespace passes through unchanged. */
  lemma {:induction false} DropWhitespaceClean(ts: seq<Token>)
    requires forall i :: 0 <= i < |ts| ==> !ts[i].Whitespace?
    ensures DropWhitespace(ts) == ts
  {
    if |ts| > 0 {
      DropWhitespaceClean(ts[1..]);
    }
  }

  /** Stripping removes a Whitespace token after the first one, and leaves
      the tokens around it in order. */
  lemma StripDropsWhitespace(a: seq<Token>, w: string, b: seq<Token>)
    requires |a| >= 1
    ensures StripNonleadingWhitespace(a + [Whitespace(w)] + b)
         == StripNonleadingWhitespace(a + b)
  {
    var x := a + [Whitespace(w)] + b;
    assert x[0] == a[0] && (a + b)[0] == a[0];
    assert x[1..] == a[1..] + ([Whitespace(w)] + b);
    assert (a + b)[1..] == a[1..] + b;
    DropWhitespaceAppend(a[1..], [Whitespace(w)] + b);
    DropWhitespaceAppend(a[1..], b);
    assert ([Whitespace(w)] + b)[1..] == b;
  }

  /** A line with no Whitespace after its first token is left as it is. */
  lemma StripKeepsClean(ts: seq<Token>)
    requires forall i :: 1 <= i < |ts| ==> !ts[i].Whitespace?
    ensures StripNonleadingWhitespace(ts) == ts
  {
    if |ts| > 0 {
      DropWhitespaceClean(ts[1..]);
    }
  }

  /** A line's tokens after its optional leading Whitespace. */
  function Body(ts: seq<Token>): seq<Token>
  {
    if |ts| > 0 && ts[0].Whitespace? then ts[1..] else ts
  }

  /** `line_is_valid` (interior whitespace already stripped): after one
      optional leading Whitespace, exactly `Name Colon` or
      `Name Colon Property`. */
  predicate LineIsValid(ts: seq<Token>)
  {
    if |ts| == 0 then false
    else
      var types := Body(ts);
      (|types| == 2 && types[0].Name? && types[1].Colon?)
      || (|types| == 3 && types[0].Name? && types[1].Colon? && IsProperty(types[2]))
  }

  /** The two line shapes, written out as token lists. */
  function ShapeTokens(lead: Option<Token>, name: string, prop: Option<Token>): seq<Token>
  {
    (if lead.Some? then [lead.value] else [])
    + [Name(name), Colon]
    + (if prop.Some? then [prop.value] else [])
  }

  /** A token list passes `line_is_valid` exactly when it is one of the two
      shapes, with a Whitespace lead if any and a property if any. */
  lemma LineIsValidShapes(ts: seq<Token>)
    ensures LineIsValid(ts) <==>
      exists lead: Option<Token>, name: string, prop: Option<Token> ::
        && (lead.Some? ==> lead.value.Whitespace?)
        && (prop.Some? ==> IsProperty(prop.value))
        && ts == ShapeTokens(lead, name, prop)
  {
    if LineIsValid(ts) {
      var lead, name, prop := ValidIsShape(ts);
    }
    if exists lead: Option<Token>, name: string, prop: Option<Token> ::
        && (lead.Some? ==> lead.value.Whitespace?)
        && (prop.Some? ==> IsProperty(prop.value))
        && ts == ShapeTokens(lead, name, prop) {
      var lead: Option<Token>, name: string, prop: Option<Token> :|
        && (lead.Some? ==> lead.value.Whitespace?)
        && (prop.Some? ==> IsProperty(prop.value))
        && ts == ShapeTokens(lead, name, prop);
      ShapeIsValid(lead, name, prop);
    }
  }

  /** A valid line is one of the shapes. */
  lemma ValidIsShape(ts: seq<Token>) returns (lead: Option<Token>, name: string, prop: Option<Token>)
    requires LineIsValid(ts)
    ensures lead.Some? ==> lead.value.Whitespace?
    ensures prop.Some? ==> IsProperty(prop.value)
    ensures ts == ShapeTokens(lead, name, prop)
  {
    lead := if ts[0].Whitespace? then Some(ts[0]) else None;
    var b := Body(ts);
    name := b[0].text;
    prop := if |b| == 3 then Some(b[2]) else None;
    assert b[0] == Name(name) && b[1] == Colon;
    assert ts == ShapeTokens(lead, name, prop);
  }

  /** Each shape is a valid line. */
  lemma ShapeIsValid(lead: Option<Token>, name: string, prop: Option<Token>)
    requires lead.Some? ==> lead.value.Whitespace?
    requires prop.Some? ==> IsProperty(prop.value)
    ensures LineIsValid(ShapeTokens(lead, name, prop))
  {
    var ts := ShapeTokens(lead, name, prop);
    if lead.Some? {
      assert Body(ts) == ShapeTokens(None, name, prop);
    }
  }

  function FirstChar(s: string): char
  {
    if |s| > 0 then s[0] else '\0'
  }

  /** `calculate_indent`: two leading spaces per level, or one tab per
      level; no leading Whitespace is level 0. */
  function CalculateIndent(ts: seq<Token>): (n: nat)
    requires |ts| > 0
    ensures !ts[0].Whitespace? ==> n == 0
    ensures ts[0].Whitespace? && FirstChar(ts[0].text) == ' ' ==>
      2 * n <= |ts[0].text| < 2 * n + 2
    ensures ts[0].Whitespace? && FirstChar(ts[0].text) != ' ' ==> n == |ts[0].text|
  {
    if ts[0].Whitespace? then
      if FirstChar(ts[0].text) == ' ' then |ts[0].text| / 2 else |ts[0].text|
    else 0
  }

  datatype WsType = Undecided | Tabs | SpaceIndent

  predicate HasProperty(ts: seq<Token>)
  {
    exists i :: 0 <= i < |ts| && IsProperty(ts[i])
  }

  predicate StartsWithWs(ts: seq<Token>) { |ts| > 0 && ts[0].Whitespace? }

  /** `find_inconsistent_whitespace`: index of the first line whose leading
      whitespace breaks the rules, or None (`-1`). */
  function FindInconsistentWhitespace(lines: seq<seq<Token>>): (r: Option<nat>)
    requires forall i :: 0 <= i < |lines| ==> |lines[i]| > 0
    ensures r.Some? ==> r.value < |lines|
  {
    if |lines| == 0 then None
    else if lines[0][0].Whitespace? then Some(0)
    else ScanWhitespace(lines, 0, Undecided)
  }

  function ScanWhitespace(lines: seq<seq<Token>>, i: nat, ws: WsType): (r: Option<nat>)
    requires i <= |lines|
    requires forall k :: 0 <= k < |lines| ==> |lines[k]| > 0
    ensures r.Some? ==> i <= r.value < |lines|
    decreases |lines| - i
  {
    if i == |lines| then None
    else if !lines[i][0].Whitespace? then ScanWhitespace(lines, i + 1, ws)
    else
      var s := lines[i][0].text;
      if HasBothTabsAndSpaces(s) then Some(i)
      else if ws != Undecided && ((FirstChar(s) == '\t' && ws == SpaceIndent) || (FirstChar(s) == ' ' && ws == Tabs)) then Some(i)
      else
        var ws' := if ws == Undecided then (if FirstChar(s) == '\t' then Tabs else SpaceIndent) else ws;
        if ws' == SpaceIndent && |s| % 2 != 0 then Some(i)
        else if i > 0 && HasProperty(lines[i - 1])
             && CalculateIndent(lines[i]) as int - CalculateIndent(lines[i - 1]) as int > 0 then Some(i)
        else if i > 0 && CalculateIndent(lines[i]) as int - CalculateIndent(lines[i - 1]) as int > 1 then Some(i)
        else ScanWhitespace(lines, i + 1, ws')
  }

  // ---------------------------------------------------------------------
  // A declarative reading of the whitespace rules

  /** The indentation character settled by the first indented line. */
  function SettledType(lines: seq<seq<Token>>, from: nat): WsType
    requires from <= |lines|
    requires forall k :: 0 <= k < |lines| ==> |lines[k]| > 0
    decreases |lines| - from
  {
    if from == |lines| then Undecided
    else if lines[from][0].Whitespace? then
      (if FirstChar(lines[from][0].text) == '\t' then Tabs else SpaceIndent)
    else SettledType(lines, from + 1)
  }

  /** Line `i`, which starts with Whitespace, obeys every rule given the
      settled indentation character `ws`. */
  ghost predicate IndentLineOk(lines: seq<seq<Token>>, i: nat, ws: WsType)
    requires i < |lines|
    requires forall k :: 0 <= k < |lines| ==> |lines[k]| > 0
  {
    var s := Text(lines[i][0]);
    var change := CalculateIndent(lines[i]) as int - (if i > 0 then CalculateIndent(lines[i - 1]) as int else 0);
    && !HasBothTabsAndSpaces(s)
    && !(FirstChar(s) == '\t' && ws == SpaceIndent)
    && !(FirstChar(s) == ' ' && ws == Tabs)
    && !(ws == SpaceIndent && |s| % 2 != 0)
    && (i > 0 ==> !(HasProperty(lines[i - 1]) && change > 0) && change <= 1)
  }

  /** The whitespace rules: the first line is not indented, and every
      indented line uses the settled character (an even number of spaces,
      or tabs), deepens only after a table line, and by one level at most. */
  ghost predicate WhitespaceConsistent(lines: seq<seq<Token>>)
    requires forall k :: 0 <= k < |lines| ==> |lines[k]| > 0
  {
    && (|lines| > 0 ==> !lines[0][0].Whitespace?)
    && forall i :: 0 <= i < |lines| && lines[i][0].Whitespace? ==>
         IndentLineOk(lines, i, SettledType(lines, 0))
  }

  lemma SettledTypeSkip(lines: seq<seq<Token>>, from: nat, to: nat)
    requires from <= to <= |lines|
    requires forall k :: 0 <= k < |lines| ==> |lines[k]| > 0
    requires forall k :: from <= k < to ==> !lines[k][0].Whitespace?
    ensures SettledType(lines, from) == SettledType(lines, to)
    decreases |lines| - from
  {
    if from < to {
      SettledTypeSkip(lines, from + 1, to);
    }
  }

  /** The scan from line `i` with the character settled so far agrees with
      the declarative rules over lines `i..`. */
  lemma {:induction false} ScanWhitespaceSound(lines: seq<seq<Token>>, i: nat, ws: WsType)
    requires i <= |lines|
    requires forall k :: 0 <= k < |lines| ==> |lines[k]| > 0
    requires ws == Undecided ==> forall k :: 0 <= k < i ==> !lines[k][0].Whitespace?
    requires ws != Undecided ==> ws == SettledType(lines, 0)
    ensures var r := ScanWhitespace(lines, i, ws);
      && (r.None? <==> forall k :: i <= k < |lines| && lines[k][0].Whitespace? ==>
                          IndentLineOk(lines, k, SettledType(lines, 0)))
      && (r.Some? ==> lines[r.value][0].Whitespace?
                      && !IndentLineOk(lines, r.value, SettledType(lines, 0))
                      && forall k :: i <= k < r.value && lines[k][0].Whitespace? ==>
                           IndentLineOk(lines, k, SettledType(lines, 0)))
    decreases |lines| - i
  {
    if i < |lines| {
      if !lines[i][0].Whitespace? {
        ScanWhitespaceSound(lines, i + 1, ws);
      } else {
        if ws == Undecided {
          SettledTypeSkip(lines, 0, i);
        }
        ScanWhitespaceStep(lines, i, ws);
        ScanWhitespaceSound(lines, i + 1, SettledType(lines, 0));
      }
    }
  }

  /** At an indented line, the scan stops exactly when the line breaks a
      rule, and otherwise carries on with the settled character. */
  lemma ScanWhitespaceStep(lines: seq<seq<Token>>, i: nat, ws: WsType)
    requires forall k :: 0 <= k < |lines| ==> |lines[k]| > 0
    requires i < |lines| && lines[i][0].Whitespace?
    requires ws == Undecided ==>
      SettledType(lines, 0) == (if FirstChar(lines[i][0].text) == '\t' then Tabs else SpaceIndent)
    requires ws != Undecided ==> ws == SettledType(lines, 0)
    ensures ScanWhitespace(lines, i, ws) ==
      if IndentLineOk(lines, i, SettledType(lines, 0)) then ScanWhitespace(lines, i + 1, SettledType(lines, 0))
      else Some(i)
  {
  }


  /** `find_inconsistent_whitespace` finds nothing exactly when the rules
      hold, and otherwise names the first line that breaks them. */
  lemma FindInconsistentWhitespaceSound(lines: seq<seq<Token>>)
    requires forall k :: 0 <= k < |lines| ==> |lines[k]| > 0
    ensures FindInconsistentWhitespace(lines).None? <==> WhitespaceConsistent(lines)
    ensures var r := FindInconsistentWhitespace(lines);
      r.Some? ==>
        || r.value == 0
        || (&& lines[r.value][0].Whitespace?
            && !IndentLineOk(lines, r.value, SettledType(lines, 0))
            && forall k :: 0 <= k < r.value && lines[k][0].Whitespace? ==>
                 IndentLineOk(lines, k, SettledType(lines, 0)))
  {
    if |lines| > 0 && !lines[0][0].Whitespace? {
      ScanWhitespaceSound(lines, 0, Undecided);
    }
  }

  // ---------------------------------------------------------------------
  // Lines and the tree

  /** A checked line: its indentation level, its name, and its property
      token (Invalid for a table line). */
  datatype Line = Line(indent: nat, name: string, prop: Token)

  /** `tokens_to_line`. */
  function TokensToLine(ts: seq<Token>): (l: Line)
    requires LineIsValid(ts)
    ensures l.indent == CalculateIndent(ts)
    ensures l.name == Text(Body(ts)[0])
    ensures |Body(ts)| == 2 ==> l.prop.Invalid?
    ensures |Body(ts)| > 2 && IsProperty(Body(ts)[2]) ==> l.prop == Body(ts)[2]
    ensures IsProperty(l.prop) || l.prop.Invalid?
  {
    var b := Body(ts);
    Line(CalculateIndent(ts), Text(b[0]),
         if |b| == 2 then Invalid else if IsProperty(b[2]) then b[2] else Invalid)
  }

  /** `line_to_single_diatom`: a string literal loses its first and last
      character (the quotes), a number keeps its scanned value, a boolean
      is `true` exactly for the text `true`; a table line is an empty
      table. */
  function LineToSingleValue(l: Line): (v: Value)
    ensures l.prop.StrProp? && |l.prop.text| >= 2 ==>
      v == Str(l.prop.text[1..|l.prop.text| - 1])
    ensures l.prop.NumProp? ==> v == Number(l.prop.n)
    ensures l.prop.BoolProp? ==> v == Bool(l.prop.text == "true")
    ensures !IsProperty(l.prop) ==> v == Table([])
  {
    match l.prop
    case StrProp(s) => Str(if |s| >= 2 then s[1..|s| - 1] else "")
    case NumProp(n, _) => Number(n)
    case BoolProp(s) => Bool(s == "true")
    case _ => Table([])
  }

  /** The nearest earlier line exactly one level shallower, searching
      backwards from `i - 1`; a line at level 0 has none. */
  function NearestParent(lines: seq<Line>, i: nat): (r: Option<nat>)
    requires i < |lines|
    ensures r.Some? ==>
      && r.value < i && lines[i].indent > 0
      && lines[r.value].indent + 1 == lines[i].indent
      && forall j :: r.value < j < i ==> lines[j].indent + 1 != lines[i].indent
    ensures r.None? ==>
      || lines[i].indent == 0
      || forall j :: 0 <= j < i ==> lines[j].indent + 1 != lines[i].indent
  {
    SearchParent(lines, i, i)
  }

  function SearchParent(lines: seq<Line>, i: nat, j: nat): (r: Option<nat>)
    requires i < |lines| && j <= i
    requires forall k :: j <= k < i ==> lines[i].indent == 0 || lines[k].indent + 1 != lines[i].indent
    ensures r.Some? ==>
      && r.value < j && lines[i].indent > 0
      && lines[r.value].indent + 1 == lines[i].indent
      && forall k :: r.value < k < i ==> lines[k].indent + 1 != lines[i].indent
    ensures r.None? ==>
      || lines[i].indent == 0
      || forall k :: 0 <= k < i ==> lines[k].indent + 1 != lines[i].indent
    decreases j
  {
    if j == 0 then None
    else if lines[i].indent > 0 && lines[i].indent == lines[j - 1].indent + 1 then Some(j - 1)
    else SearchParent(lines, i, j - 1)
  }

  /** The "compose diatoms" loop: lines from last to first; each line's
      value (the single value of a property line or childless table line,
      or the table its children were already copied into) is copied into
      its parent line's table, or into the root when it has no parent. */
  function BuildFrom(lines: seq<Line>, ds: seq<Value>, top: Value, i: int): (r: Value)
    requires |ds| == |lines| && -1 <= i < |lines|
    requires top.Table?
    requires forall j :: 0 <= j <= i ==> ds[j].Table?
    ensures r.Table?
    decreases i + 1
  {
    if i < 0 then top
    else
      var d := if |ds[i].entries| == 0 then LineToSingleValue(lines[i]) else ds[i];
      match NearestParent(lines, i)
      case Some(j) =>
        BuildFrom(lines, ds[j := Assign(ds[j], lines[i].name, d, InsertionOrder)], top, i - 1)
      case None =>
        BuildFrom(lines, ds, Assign(top, lines[i].name, d, InsertionOrder), i - 1)
  }

  function EmptyTables(n: nat): (r: seq<Value>)
    ensures |r| == n && forall i :: 0 <= i < n ==> r[i] == Table([])
  {
    if n == 0 then [] else EmptyTables(n - 1) + [Table([])]
  }

  function Reverse<T>(s: seq<T>): (r: seq<T>)
    ensures |r| == |s| && forall i :: 0 <= i < |s| ==> r[i] == s[|s| - 1 - i]
  {
    if |s| == 0 then [] else Reverse(s[1..]) + [s[0]]
  }

  /** `top.recurse(... std::reverse ...)`: every table's entries reversed,
      all the way down. */
  function ReverseTables(v: Value): Value
  {
    match v
    case Table(es) => Table(ReverseEntries(es))
    case _ => v
  }

  function ReverseEntries(es: seq<Entry>): (r: seq<Entry>)
    ensures |r| == |es|
  {
    if |es| == 0 then []
    else ReverseEntries(es[1..]) + [Entry(es[0].key, ReverseTables(es[0].val))]
  }

  /** Reversing every table twice gives back the tree. */
  lemma {:induction false} ReverseTablesInvolution(v: Value)
    ensures ReverseTables(ReverseTables(v)) == v
  {
    match v
    case Table(es) => ReverseEntriesInvolution(es);
    case _ =>
  }

  lemma {:induction false} ReverseEntriesInvolution(es: seq<Entry>)
    ensures ReverseEntries(ReverseEntries(es)) == es
    decreases es, 0
  {
    if |es| > 0 {
      ReverseEntriesAppend(ReverseEntries(es[1..]), Entry(es[0].key, ReverseTables(es[0].val)));
      ReverseTablesInvolution(es[0].val);
      ReverseEntriesInvolution(es[1..]);
      assert es == [es[0]] + es[1..];
    }
  }

  lemma {:induction false} ReverseEntriesAppend(es: seq<Entry>, e: Entry)
    ensures ReverseEntries(es + [e]) == [Entry(e.key, ReverseTables(e.val))] + ReverseEntries(es)
  {
    if |es| > 0 {
      assert (es + [e])[1..] == es[1..] + [e];
      ReverseEntriesAppend(es[1..], e);
    } else {
      assert es + [e] == [e];
    }
  }

  // ---------------------------------------------------------------------
  // unserialize

  datatype ParseError =
    | UnexpectedInput(line: nat)
    | InvalidLineStructure(line: nat)
    | InconsistentWhitespace(line: nat)

  /** The `error_string` of a failed parse. */
  function Message(e: ParseError): string
  {
    match e
    case UnexpectedInput(n) => "Unexpected input at line " + NatToString(n)
    case InvalidLineStructure(n) => "Invalid line structure at line " + NatToString(n)
    case InconsistentWhitespace(n) => "Inconsistent whitespace found at line " + NatToString(n)
  }

  datatype ParseResult = Parsed(value: Value) | Failed(error: ParseError)

  function DropTrailingNewlines(s: string): (r: string)
    ensures |r| <= |s| && r == s[..|r|]
    ensures |r| == 0 || r[|r| - 1] != '\n'
    ensures forall i :: |r| <= i < |s| ==> s[i] == '\n'
  {
    if |s| > 0 && s[|s| - 1] == '\n' then DropTrailingNewlines(s[..|s| - 1]) else s
  }

  function DropLeadingNewlines(s: string): (r: string)
    ensures |r| <= |s| && r == s[|s| - |r|..]
    ensures |r| == 0 || r[0] != '\n'
    ensures forall i :: 0 <= i < |s| - |r| ==> s[i] == '\n'
  {
    if |s| > 0 && s[0] == '\n' then DropLeadingNewlines(s[1..]) else s
  }

  /** The text between the leading and the trailing newlines. */
  function Trimmed(s: string): string
  {
    DropLeadingNewlines(DropTrailingNewlines(s))
  }

  function TokenizeLines(lines: seq<string>, scan: Scanner): (r: seq<seq<Token>>)
    ensures |r| == |lines| && forall i :: 0 <= i < |lines| ==> r[i] == Tokenize(lines[i], scan)
  {
    if |lines| == 0 then [] else [Tokenize(lines[0], scan)] + TokenizeLines(lines[1..], scan)
  }

  function StripLines(ls: seq<seq<Token>>): (r: seq<seq<Token>>)
    ensures |r| == |ls| && forall i :: 0 <= i < |ls| ==> r[i] == StripNonleadingWhitespace(ls[i])
  {
    if |ls| == 0 then [] else [StripNonleadingWhitespace(ls[0])] + StripLines(ls[1..])
  }

  /** A line's tokens are the single error token `tokenize` gives up with. */
  predicate IsLexError(ts: seq<Token>) { |ts| == 1 && ts[0].Error? }

  ghost predicate NoLexError(toks: seq<seq<Token>>)
  {
    forall i :: 0 <= i < |toks| ==> !IsLexError(toks[i])
  }

  ghost predicate AllValid(ls: seq<seq<Token>>)
  {
    forall i :: 0 <= i < |ls| ==> LineIsValid(ls[i])
  }

  /** Index of the first line `tokenize` gave up on. */
  function FirstLexError(toks: seq<seq<Token>>): (r: Option<nat>)
    ensures r.Some? ==>
      && r.value < |toks| && IsLexError(toks[r.value])
      && forall i :: 0 <= i < r.value ==> !IsLexError(toks[i])
    ensures r.None? ==> NoLexError(toks)
  {
    if |toks| == 0 then None
    else if IsLexError(toks[0]) then Some(0)
    else match FirstLexError(toks[1..])
      case None => None
      case Some(i) => Some(i + 1)
  }

  /** Index of the first line that fails `line_is_valid`. */
  function FirstBadLine(ls: seq<seq<Token>>): (r: Option<nat>)
    ensures r.Some? ==>
      && r.value < |ls| && !LineIsValid(ls[r.value])
      && forall i :: 0 <= i < r.value ==> LineIsValid(ls[i])
    ensures r.None? ==> AllValid(ls)
  {
    if |ls| == 0 then None
    else if !LineIsValid(ls[0]) then Some(0)
    else match FirstBadLine(ls[1..])
      case None => None
      case Some(i) => Some(i + 1)
  }

  lemma ValidLinesNonEmpty(ls: seq<seq<Token>>)
    requires AllValid(ls)
    ensures forall i :: 0 <= i < |ls| ==> |ls[i]| > 0
  {
  }

  function LinesToRecords(ls: seq<seq<Token>>): (r: seq<Line>)
    requires forall i :: 0 <= i < |ls| ==> LineIsValid(ls[i])
    ensures |r| == |ls| && forall i :: 0 <= i < |ls| ==> r[i] == TokensToLine(ls[i])
  {
    if |ls| == 0 then [] else [TokensToLine(ls[0])] + LinesToRecords(ls[1..])
  }

  /** The lines of the text `unserialize` works on. */
  function SourceLines(s: string): seq<string>
  {
    Split(Trimmed(s), '\n')
  }

  /** The checks and the tree building of `unserialize`, over the tokens of
      each line: lexical errors are reported first, then line structure,
      then whitespace, each with the 1-based number of the first offending
      line; only when all three pass is the tree built. */
  function ParseTokens(toks: seq<seq<Token>>): (r: ParseResult)
    ensures r.Failed? && r.error.UnexpectedInput? ==>
      var n := r.error.line;
      1 <= n <= |toks| && IsLexError(toks[n - 1]) && forall i :: 0 <= i < n - 1 ==> !IsLexError(toks[i])
    ensures r.Failed? && r.error.InvalidLineStructure? ==>
      var n := r.error.line;
      var ls := StripLines(toks);
      && NoLexError(toks)
      && 1 <= n <= |ls| && !LineIsValid(ls[n - 1])
      && forall i :: 0 <= i < n - 1 ==> LineIsValid(ls[i])
    ensures r.Failed? && r.error.InconsistentWhitespace? ==>
      && NoLexError(toks) && AllValid(StripLines(toks))
      && FindInconsistentWhitespace(StripLines(toks)) == Some(r.error.line - 1)
    ensures r.Parsed? <==>
      && NoLexError(toks) && AllValid(StripLines(toks))
      && WhitespaceConsistent(StripLines(toks))
    ensures r.Parsed? ==> r.value.Table?
  {
    match FirstLexError(toks)
    case Some(k) => Failed(UnexpectedInput(k + 1))
    case None =>
      var stripped := StripLines(toks);
      match FirstBadLine(stripped)
      case Some(k) => Failed(InvalidLineStructure(k + 1))
      case None =>
        ValidLinesNonEmpty(stripped);
        FindInconsistentWhitespaceSound(stripped);
        match FindInconsistentWhitespace(stripped)
        case Some(k) => Failed(InconsistentWhitespace(k + 1))
        case None => Parsed(BuildTree(stripped))
  }

  /** The "compose diatoms" stage on checked lines, then every table
      reversed back into file order. */
  function BuildTree(stripped: seq<seq<Token>>): (v: Value)
    requires AllValid(stripped)
    ensures v.Table?
  {
    var lines := LinesToRecords(stripped);
    ReverseTables(BuildFrom(lines, EmptyTables(|lines|), Table([]), |lines| - 1))
  }

  /** `unserialize`: newlines around the text are dropped, the rest is
      split into lines and each line tokenized before the checks run. */
  function Unserialize(s: string, scan: Scanner): ParseResult
  {
    ParseTokens(TokenizeLines(SourceLines(s), scan))
  }

  // ---------------------------------------------------------------------
  // serialize

  /** `serialize`: a table writes, for each entry that is not Nil,
      `indent(level) + name + ":"` followed by the entry's own text; a
      nested table starts with a newline, a leaf is a space and its literal
      (no space at the top level), and every leaf ends with a newline. */
  function Serialize(d: Value, indentation: nat, prefixSpace: bool, fmt: Formatter): string
    decreases d, 1
  {
    var kv := if prefixSpace then " " else "";
    match d
    case Table(es) => (if indentation > 0 then "\n" else "") + SerializeEntries(es, indentation, fmt)
    case Number(x) => kv + fmt(x) + "\n"
    case Str(s) => kv + "\"" + s + "\"" + "\n"
    case Bool(b) => kv + (if b then "true" else "false") + "\n"
    case Nil => "\n"
  }

  function SerializeEntries(es: seq<Entry>, indentation: nat, fmt: Formatter): string
    decreases es, 0
  {
    if |es| == 0 then ""
    else
      (if es[0].val.Nil? then ""
       else Indent(indentation) + es[0].key + ":" + Serialize(es[0].val, indentation + 1, true, fmt))
      + SerializeEntries(es[1..], indentation, fmt)
  }

  /** Nil entries leave no trace: a table serializes exactly as the same
      table with its Nil entries removed. */
  lemma {:induction false} SerializeSkipsNil(es: seq<Entry>, indentation: nat, fmt: Formatter)
    ensures SerializeEntries(es, indentation, fmt) == SerializeEntries(DropNil(es), indentation, fmt)
  {
    if |es| > 0 {
      SerializeSkipsNil(es[1..], indentation, fmt);
      var tail := SerializeEntries(es[1..], indentation, fmt);
      var d := DropNil(es);
      if es[0].val.Nil? {
        assert d == DropNil(es[1..]);
        assert SerializeEntries(es, indentation, fmt) == tail;
      } else {
        assert d == [es[0]] + DropNil(es[1..]);
        assert d[0] == es[0] && d[1..] == DropNil(es[1..]);
        EntriesHead(es, indentation, fmt);
        EntriesHead(d, indentation, fmt);
      }
    }
  }

  /** A table's text is its first entry's, then the rest's. */
  lemma EntriesHead(es: seq<Entry>, indentation: nat, fmt: Formatter)
    requires |es| > 0 && !es[0].val.Nil?
    ensures SerializeEntries(es, indentation, fmt)
      == Indent(indentation) + es[0].key + ":" + Serialize(es[0].val, indentation + 1, true, fmt)
         + SerializeEntries(es[1..], indentation, fmt)
  {
  }

  /** Every leaf's text ends with a newline, and so does every non-empty
      table's. */
  lemma {:induction false} SerializeEndsWithNewline(d: Value, indentation: nat, prefixSpace: bool, fmt: Formatter)
    ensures var s := Serialize(d, indentation, prefixSpace, fmt);
      !d.Table? ==> |s| > 0 && s[|s| - 1] == '\n'
    ensures var s := Serialize(d, indentation, prefixSpace, fmt);
      d.Table? && |s| > 0 ==> s[|s| - 1] == '\n'
    decreases d, 1
  {
    if d.Table? {
      SerializeEntriesEndsWithNewline(d.entries, indentation, fmt);
    }
  }

  lemma {:induction false} SerializeEntriesEndsWithNewline(es: seq<Entry>, indentation: nat, fmt: Formatter)
    ensures var s := SerializeEntries(es, indentation, fmt); |s| > 0 ==> s[|s| - 1] == '\n'
    decreases es, 0
  {
    if |es| > 0 {
      SerializeEntriesEndsWithNewline(es[1..], indentation, fmt);
      if !es[0].val.Nil? {
        SerializeEndsWithNewline(es[0].val, indentation + 1, true, fmt);
        if !es[0].val.Table? {
          assert |Serialize(es[0].val, indentation + 1, true, fmt)| > 0;
        }
      }
    }
  }

  /** The module's entry points. */
  function DiatomSerialize(d: Value, fmt: Formatter): string
  {
    Serialize(d, 0, false, fmt)
  }

  function DiatomUnserialize(s: string, scan: Scanner): ParseResult
  {
    Unserialize(s, scan)
  }
}

=== FILE: storage.dfy ===
/** The single-pass `.diatom` reader and the writer of Diatom-Storage.cpp.

    The reader takes one token at a time off the front of the remaining
    input and feeds it to a small state machine: where it is within the
    current line, the name waiting for its value, the indentation unit
    fixed by the first indented line, and a stack of open tables. The
    source keeps pointers into the live tree; here each open table is a
    frame held apart from its parent and written back under its name when
    it is closed, so the tree the source holds at any moment is
    `Close(stack)`. The printed diagnostics become a failure value.
    `sscanf("%lf")` and `__floatFmt` are parameters. */
module Storage {
  import opened Chars
  import opened Values

  // ---------------------------------------------------------------------
  // Character classes (the CH_* macros)

  /** CH_NUMERIC: a digit or a decimal point. */
  predicate IsNumeric(c: char) { IsDigit(c) || c == '.' }

  /** CH_ALPHANUM_: a letter, a CH_NUMERIC character or an underscore. */
  predicate IsNameChar(c: char) { IsAlpha(c) || IsNumeric(c) || c == '_' }

  datatype CharClass = NumericChars | BlankChars | NameChars

  predicate InClass(c: char, k: CharClass)
  {
    match k
    case NumericChars => IsNumeric(c)
    case BlankChars => IsBlank(c)
    case NameChars => IsNameChar(c)
  }

  /** End of the longest run of class `k` that starts at `from`. */
  function RunEnd(s: string, from: nat, k: CharClass): (i: nat)
    requires from <= |s|
    ensures from <= i <= |s|
    ensures forall j :: from <= j < i ==> InClass(s[j], k)
    ensures i < |s| ==> !InClass(s[i], k)
    decreases |s| - from
  {
    if from == |s| || !InClass(s[from], k) then from else RunEnd(s, from + 1, k)
  }

  /** The input the reader keeps after a run that ends at `i`: the suffix
      from `i`, except that a run stopping just before the last character
      throws that character away too (the `i == n-1` test of the number,
      whitespace and name branches). */
  function AfterRun(s: string, i: nat): string
    requires i <= |s|
  {
    if i == |s| - 1 then "" else s[i..]
  }

  // ---------------------------------------------------------------------
  // Tokens (the getToken lambda)

  datatype Token =
    | EndOfString
    | EndOfLine
    | Name(text: string)
    | StringProperty(text: string)
    | NumberProperty(text: string, n: real)
    | BoolProperty(text: string)
    | Whitespace(text: string)
    | Colon
    | Comma
    | Error(message: string)

  /** A token and the input left after it. */
  datatype Lexed = Lexed(token: Token, rest: string)

  /** `sscanf("%lf")` on the text of a number. */
  type NumberReader = string -> real

  /** What the state machine relies on: a whitespace token is a non-empty
      run of blanks. */
  predicate ValidToken(t: Token)
  {
    t.Whitespace? ==> |t.text| > 0 && forall i :: 0 <= i < |t.text| ==> IsBlank(t.text[i])
  }

  predicate IsSuffix(rest: string, s: string)
  {
    |rest| <= |s| && rest == s[|s| - |rest|..]
  }

  /** First newline at or after `from`, or `|s|`. */
  function NewlineFrom(s: string, from: nat): (i: nat)
    requires from <= |s|
    ensures from <= i <= |s|
    ensures forall j :: from <= j < i ==> s[j] != '\n'
    ensures i < |s| ==> s[i] == '\n'
    decreases |s| - from
  {
    if from == |s| || s[from] == '\n' then from else NewlineFrom(s, from + 1)
  }

  /** Where a literal opened by `q` stops: the first newline, or the first
      `q` not preceded by a backslash, at or after `from`; `|s|` if none. */
  function QuoteEnd(s: string, q: char, from: nat): (j: nat)
    requires 1 <= from <= |s|
    ensures from <= j <= |s|
    ensures forall k :: from <= k < j ==> s[k] != '\n' && (s[k] == q ==> s[k - 1] == '\\')
    ensures j < |s| ==> s[j] == '\n' || (s[j] == q && s[j - 1] != '\\')
    decreases |s| - from
  {
    if from == |s| || s[from] == '\n' || (s[from] == q && s[from - 1] != '\\') then from
    else QuoteEnd(s, q, from + 1)
  }

  /** `body` with every backslash that stands directly before a `q` removed. */
  function Unescape(body: string, q: char): (r: string)
    ensures |r| <= |body|
  {
    if |body| == 0 then ""
    else if |body| >= 2 && body[0] == '\\' && body[1] == q then Unescape(body[1..], q)
    else [body[0]] + Unescape(body[1..], q)
  }

  /** A string literal: from the opening quote `s[0]` to the first matching
      quote not preceded by a backslash; the backslashes in front of quotes
      are dropped from the text. A newline or the end of the input before
      that is an error. */
  function LexString(s: string): (r: Lexed)
    requires |s| > 0 && (s[0] == '"' || s[0] == '\'')
    ensures r.token.StringProperty? || r.token.Error?
    ensures r.token.Error? ==> r.rest == s
    ensures r.token.Error? ==>
      (r.token.message == "unexpected newline" <==> QuoteEnd(s, s[0], 1) < |s|)
    ensures r.token.StringProperty? ==>
      var j := |s| - |r.rest| - 1;
      && 1 <= j < |s|
      && s[j] == s[0] && s[j - 1] != '\\'
      && QuoteEnd(s, s[0], 1) == j
      && r.rest == s[j + 1..]
      && r.token.text == Unescape(s[1..j], s[0])
  {
    var j := QuoteEnd(s, s[0], 1);
    if j == |s| then Lexed(Error("unexpected end of string"), s)
    else if s[j] == '\n' then Lexed(Error("unexpected newline"), s)
    else Lexed(StringProperty(Unescape(s[1..j], s[0])), s[j + 1..])
  }

  /** A number: the first character (a digit, `.` or `-`) and the run of
      digits and points after it, read by `sscanf`. */
  function LexNumber(s: string, read: NumberReader): (r: Lexed)
    requires |s| > 0
    ensures r.token.NumberProperty? && IsSuffix(r.rest, s) && |r.rest| < |s|
    ensures var w := r.token.text;
      && 0 < |w| <= |s| && w == s[..|w|]
      && (forall j :: 1 <= j < |w| ==> IsNumeric(w[j]))
      && (|w| < |s| ==> !IsNumeric(s[|w|]))
      && r.token.n == read(w)
  {
    var i := RunEnd(s, 1, NumericChars);
    Lexed(NumberProperty(s[..i], read(s[..i])), AfterRun(s, i))
  }

  /** A run of spaces and tabs. */
  function LexBlank(s: string): (r: Lexed)
    requires |s| > 0 && IsBlank(s[0])
    ensures r.token.Whitespace? && ValidToken(r.token)
    ensures IsSuffix(r.rest, s) && |r.rest| < |s|
    ensures var w := r.token.text;
      && 0 < |w| <= |s| && w == s[..|w|]
      && (|w| < |s| ==> !IsBlank(s[|w|]))
  {
    var i := RunEnd(s, 0, BlankChars);
    Lexed(Whitespace(s[..i]), AfterRun(s, i))
  }

  /** A word: `true` and `false` are boolean values, anything else a name. */
  function LexWord(s: string): (r: Lexed)
    requires |s| > 0 && IsAlpha(s[0])
    ensures r.token.Name? || r.token.BoolProperty?
    ensures IsSuffix(r.rest, s) && |r.rest| < |s|
    ensures var w := r.token.text;
      && 0 < |w| <= |s| && w == s[..|w|]
      && (forall j :: 0 <= j < |w| ==> IsNameChar(w[j]))
      && (|w| < |s| ==> !IsNameChar(s[|w|]))
      && (r.token.BoolProperty? <==> w == "true" || w == "false")
  {
    var i := RunEnd(s, 0, NameChars);
    var w := s[..i];
    Lexed(if w == "true" || w == "false" then BoolProperty(w) else Name(w), AfterRun(s, i))
  }

  /** A comment: everything up to and including the next newline goes,
      and the line has ended; with no newline left the input has ended
      (and is kept as it is). */
  function LexComment(s: string): (r: Lexed)
    ensures r.token.EndOfString? <==> forall j :: 0 <= j < |s| ==> s[j] != '\n'
    ensures r.token.EndOfString? ==> r.rest == s
    ensures !r.token.EndOfString? ==>
      && r.token == EndOfLine
      && IsSuffix(r.rest, s) && |r.rest| < |s|
      && var nl := |s| - |r.rest| - 1;
      && s[nl] == '\n'
      && forall j :: 0 <= j < nl ==> s[j] != '\n'
  {
    var i := NewlineFrom(s, 0);
    if i == |s| then Lexed(EndOfString, s) else Lexed(EndOfLine, s[i + 1..])
  }

  /** `getToken(input)`: the next token, and what is left of the input. */
  function Lex(s: string, read: NumberReader): (r: Lexed)
    ensures ValidToken(r.token)
    ensures IsSuffix(r.rest, s)
    ensures !r.token.EndOfString? && !r.token.Error? ==> |r.rest| < |s|
    ensures r.token.EndOfString? || r.token.Error? ==> r.rest == s
    ensures |s| == 0 ==> r.token == EndOfString
    ensures |s| > 0 && s[0] == '\n' ==> r == Lexed(EndOfLine, s[1..])
    ensures |s| > 0 && s[0] == ':' ==> r == Lexed(Colon, s[1..])
    ensures |s| > 0 && s[0] == ',' ==> r == Lexed(Comma, s[1..])
  {
    if |s| == 0 then Lexed(EndOfString, s)
    else
      var c := s[0];
      if c == '\n' then Lexed(EndOfLine, s[1..])
      else if c == '#' then LexComment(s)
      else if c == '"' || c == '\'' then LexString(s)
      else if IsNumeric(c) || c == '-' then LexNumber(s, read)
      else if IsBlank(c) then LexBlank(s)
      else if IsAlpha(c) then LexWord(s)
      else if c == ':' then Lexed(Colon, s[1..])
      else if c == ',' then Lexed(Comma, s[1..])
      else Lexed(Error("parse error"), s)
  }

  /** Which branch of the lexer a first character selects. */
  lemma LexDispatch(s: string, read: NumberReader)
    requires |s| > 0
    ensures s[0] == '#' ==> Lex(s, read) == LexComment(s)
    ensures s[0] == '"' || s[0] == '\'' ==> Lex(s, read) == LexString(s)
    ensures IsNumeric(s[0]) || s[0] == '-' ==> Lex(s, read) == LexNumber(s, read)
    ensures IsBlank(s[0]) ==> Lex(s, read) == LexBlank(s)
    ensures IsAlpha(s[0]) ==> Lex(s, read) == LexWord(s)
  {
  }

  /** A run of blanks, of digits and points, or of name characters that
      stops just before the last character of the input loses that
      character: the input left is empty rather than that character. */
  lemma RunLosesLastChar(s: string, k: CharClass, read: NumberReader)
    requires |s| >= 2
    requires forall j :: 0 <= j < |s| - 1 ==> InClass(s[j], k)
    requires !InClass(s[|s| - 1], k)
    requires k == NameChars ==> IsAlpha(s[0])
    ensures Lex(s, read).rest == ""
    ensures Text(Lex(s, read).token) == s[..|s| - 1]
  {
    LexDispatch(s, read);
    match k
    case BlankChars => BlankRunLosesLastChar(s);
    case NumericChars => NumberRunLosesLastChar(s, read);
    case NameChars => WordRunLosesLastChar(s);
  }

  lemma BlankRunLosesLastChar(s: string)
    requires |s| >= 2
    requires forall j :: 0 <= j < |s| - 1 ==> IsBlank(s[j])
    requires !IsBlank(s[|s| - 1])
    ensures LexBlank(s) == Lexed(Whitespace(s[..|s| - 1]), "")
  {
    RunEndIs(s, 0, |s| - 1, BlankChars);
  }

  lemma NumberRunLosesLastChar(s: string, read: NumberReader)
    requires |s| >= 2
    requires forall j :: 0 <= j < |s| - 1 ==> IsNumeric(s[j])
    requires !IsNumeric(s[|s| - 1])
    ensures LexNumber(s, read) == Lexed(NumberProperty(s[..|s| - 1], read(s[..|s| - 1])), "")
  {
    RunEndIs(s, 1, |s| - 1, NumericChars);
  }

  lemma WordRunLosesLastChar(s: string)
    requires |s| >= 2 && IsAlpha(s[0])
    requires forall j :: 0 <= j < |s| - 1 ==> IsNameChar(s[j])
    requires !IsNameChar(s[|s| - 1])
    ensures LexWord(s).rest == "" && Text(LexWord(s).token) == s[..|s| - 1]
  {
    RunEndIs(s, 0, |s| - 1, NameChars);
  }

  /** The text a token carries, empty for the ones that carry none. */
  function Text(t: Token): string
  {
    match t
    case Name(w) => w
    case StringProperty(w) => w
    case NumberProperty(w, _) => w
    case BoolProperty(w) => w
    case Whitespace(w) => w
    case _ => ""
  }

  lemma RunEndIs(s: string, from: nat, i: nat, k: CharClass)
    requires from <= i <= |s|
    requires forall j :: from <= j < i ==> InClass(s[j], k)
    requires i < |s| ==> !InClass(s[i], k)
    ensures RunEnd(s, from, k) == i
    decreases i - from
  {
    if from < i {
      RunEndIs(s, from + 1, i, k);
    }
  }

  // ---------------------------------------------------------------------
  // String literals written back: the escaping the reader undoes

  /** `text` with a backslash put in front of every `q`. */
  function Escape(text: string, q: char): (r: string)
    ensures |r| >= |text|
  {
    if |text| == 0 then ""
    else (if text[0] == q then ['\\', q] else [text[0]]) + Escape(text[1..], q)
  }

  /** In escaped text every `q` has a backslash in front of it, no newline
      appears unless the text had one, and the last character is a
      backslash only if the text's was. */
  lemma {:induction false} EscapeShape(text: string, q: char)
    requires q != '\\' && q != '\n'
    requires forall i :: 0 <= i < |text| ==> text[i] != '\n'
    ensures var e := Escape(text, q);
      && (forall m :: 0 <= m < |e| ==> e[m] != '\n')
      && (forall m :: 0 <= m < |e| && e[m] == q ==> m >= 1 && e[m - 1] == '\\')
      && (|text| > 0 && text[|text| - 1] != '\\' ==> e[|e| - 1] != '\\')
      && (|text| == 0 <==> |e| == 0)
  {
    if |text| > 0 {
      var e := Escape(text, q);
      var head := if text[0] == q then ['\\', q] else [text[0]];
      var tail := Escape(text[1..], q);
      EscapeShape(text[1..], q);
      assert e == head + tail;
      forall m | 0 <= m < |e| && e[m] == q ensures m >= 1 && e[m - 1] == '\\' {
        if m >= |head| {
          assert e[m] == tail[m - |head|];
          if m - |head| >= 1 {
            assert e[m - 1] == tail[m - |head| - 1];
          }
        }
      }
      if text[|text| - 1] != '\\' && |tail| > 0 {
        assert text[1..][|text[1..]| - 1] == text[|text| - 1];
        assert e[|e| - 1] == tail[|tail| - 1];
      }
    }
  }

  /** Unescaping undoes escaping. */
  lemma {:induction false} UnescapeEscape(text: string, q: char)
    requires q != '\\'
    ensures Unescape(Escape(text, q), q) == text
  {
    if |text| > 0 {
      var tail := Escape(text[1..], q);
      UnescapeEscape(text[1..], q);
      if text[0] == q {
        assert Escape(text, q) == ['\\', q] + tail;
        UnescapeDrop(tail, q);
        UnescapeKeep(q, tail, q);
      } else {
        assert Escape(text, q) == [text[0]] + tail;
        if |tail| > 0 {
          EscapeHead(text[1..], q);
        }
        UnescapeKeep(text[0], tail, q);
      }
      assert text == [text[0]] + text[1..];
    }
  }

  lemma UnescapeDrop(tail: string, q: char)
    ensures Unescape(['\\', q] + tail, q) == Unescape([q] + tail, q)
  {
    assert (['\\', q] + tail)[1..] == [q] + tail;
  }

  lemma UnescapeKeep(c: char, tail: string, q: char)
    requires c != '\\' || |tail| == 0 || tail[0] != q
    ensures Unescape([c] + tail, q) == [c] + Unescape(tail, q)
  {
    assert ([c] + tail)[1..] == tail;
  }

  /** Escaped text starts with `q` only if it is empty. */
  lemma EscapeHead(text: string, q: char)
    requires q != '\\' && |Escape(text, q)| > 0
    ensures Escape(text, q)[0] != q
  {
    assert Escape(text, q)[0] == if text[0] == q then '\\' else text[0];
  }

  lemma QuoteEndIs(s: string, q: char, from: nat, j: nat)
    requires 1 <= from <= j <= |s|
    requires forall k :: from <= k < j ==> s[k] != '\n' && (s[k] == q ==> s[k - 1] == '\\')
    requires j < |s| ==> s[j] == '\n' || (s[j] == q && s[j - 1] != '\\')
    ensures QuoteEnd(s, q, from) == j
    decreases j - from
  {
    if from < j {
      QuoteEndIs(s, q, from + 1, j);
    }
  }

  /** A text without newlines and without a trailing backslash, escaped
      and put between quotes, reads back as itself, leaving exactly the
      input that followed the closing quote. */
  lemma StringLiteralRoundTrip(text: string, q: char, rest: string, read: NumberReader)
    requires q == '"' || q == '\''
    requires forall i :: 0 <= i < |text| ==> text[i] != '\n'
    requires |text| == 0 || text[|text| - 1] != '\\'
    ensures Lex([q] + Escape(text, q) + [q] + rest, read) == Lexed(StringProperty(text), rest)
  {
    var s := [q] + Escape(text, q) + [q] + rest;
    QuotedLiteral(text, q, rest);
    LexDispatch(s, read);
  }

  lemma QuotedLiteral(text: string, q: char, rest: string)
    requires q == '"' || q == '\''
    requires forall i :: 0 <= i < |text| ==> text[i] != '\n'
    requires |text| == 0 || text[|text| - 1] != '\\'
    ensures LexString([q] + Escape(text, q) + [q] + rest) == Lexed(StringProperty(text), rest)
  {
    var e := Escape(text, q);
    var s := [q] + e + [q] + rest;
    EscapeShape(text, q);
    UnescapeEscape(text, q);
    var j := |e| + 1;
    assert s[j] == q;
    assert s[j - 1] != '\\' by {
      if |e| > 0 {
        assert s[j - 1] == e[|e| - 1];
      }
    }
    forall k | 1 <= k < j ensures s[k] != '\n' && (s[k] == q ==> s[k - 1] == '\\') {
      assert s[k] == e[k - 1];
      if s[k] == q {
        assert s[k - 1] == e[k - 2];
      }
    }
    QuoteEndIs(s, q, 1, j);
    assert s[1..j] == e;
    assert s[j + 1..] == rest;
  }

  // ---------------------------------------------------------------------
  // Reader state

  datatype IndentKind = IndentSpace | IndentTab

  /** The indentation unit: its character and how many make one level. */
  datatype Unit = Unit(kind: IndentKind, width: nat)

  /** Where the reader is within a line. */
  datatype Position = StartLine | AwaitColon | Property | PostProperty

  /** An open table: the name it is bound to in its parent, and its entries
      so far. The root's name is never used. */
  datatype Frame = Frame(key: string, entries: seq<Entry>)

  datatype State = State(
    stack: seq<Frame>,
    pos: Position,
    pname: string,
    unit: Option<Unit>,
    current: nat,
    newIndent: nat,
    newlines: nat)

  /** The stack holds the root and one table per level of indentation, the
      indentation of the line being read is no deeper than that, and a unit
      is at least one character wide. */
  predicate Inv(st: State)
  {
    && |st.stack| == st.current + 1
    && st.newIndent <= st.current
    && (st.unit.Some? ==> st.unit.value.width > 0)
  }

  const Initial := State([Frame("", [])], StartLine, "", None, 0, 0, 0)

  /** Why reading stopped early: an error token from the lexer (the partial
      tree is kept), a token the current position does not allow, a first
      indentation mixing tabs and spaces, or indentation that does not fit
      the unit (these three give Nil). Lines count from 1. */
  datatype Failure =
    | LexError(line: nat)
    | UnexpectedToken(line: nat, token: Token)
    | MixedFirstIndent(line: nat)
    | InvalidWhitespace(line: nat, unit: Unit)

  datatype Outcome = Outcome(value: Value, failure: Option<Failure>)

  datatype Next = Continue(state: State) | Stop(outcome: Outcome)

  // ---------------------------------------------------------------------
  // The stack of open tables

  /** How a closed table goes back into its parent: given the parent and
      the closed table, the parent's new frame. */
  type Merge = (Frame, Frame) -> Frame

  /** The source's merge: the closed table is bound under its name in the
      parent (where the name was bound when the table was opened). */
  function WriteBack(before: KeyOrder): Merge
  {
    (parent: Frame, top: Frame) =>
      Frame(parent.key, Assign(Table(parent.entries), top.key, Table(top.entries), before).entries)
  }

  /** Closes the innermost table. */
  function Pop(stack: seq<Frame>, m: Merge): (r: seq<Frame>)
    requires |stack| >= 2
    ensures |r| == |stack| - 1
  {
    stack[..|stack| - 2] + [m(stack[|stack| - 2], stack[|stack| - 1])]
  }

  /** Closes the `n` innermost tables. */
  function PopN(stack: seq<Frame>, n: nat, m: Merge): (r: seq<Frame>)
    requires n < |stack|
    ensures |r| == |stack| - n
    decreases n
  {
    if n == 0 then stack else PopN(Pop(stack, m), n - 1, m)
  }

  /** The whole tree: every open table closed into the root. */
  function Close(stack: seq<Frame>, m: Merge): (r: Value)
    requires |stack| >= 1
    ensures r.Table?
  {
    Table(PopN(stack, |stack| - 1, m)[0].entries)
  }

  /** The stack with the innermost table's entries replaced. */
  function SetTop(stack: seq<Frame>, es: seq<Entry>): (r: seq<Frame>)
    requires |stack| >= 1
    ensures |r| == |stack| && r[..|r| - 1] == stack[..|stack| - 1]
    ensures r[|r| - 1] == Frame(stack[|stack| - 1].key, es)
  {
    stack[..|stack| - 1] + [Frame(stack[|stack| - 1].key, es)]
  }

  /** `top[name] = value`. */
  function Bind(stack: seq<Frame>, name: string, v: Value, before: KeyOrder): (r: seq<Frame>)
    requires |stack| >= 1
    ensures |r| == |stack| && r[..|r| - 1] == stack[..|stack| - 1]
    ensures r[|r| - 1].key == stack[|stack| - 1].key
    ensures Lookup(r[|r| - 1].entries, name) == Some(v)
    ensures var now, was := r[|r| - 1].entries, stack[|stack| - 1].entries;
      forall k :: k != name ==> Lookup(now, k) == Lookup(was, k)
  {
    SetTop(stack, Assign(Table(stack[|stack| - 1].entries), name, v, before).entries)
  }

  /** A name with no value on its line opens a table: the parent binds the
      name to an empty table, and that table becomes the innermost. */
  function Push(stack: seq<Frame>, name: string, before: KeyOrder): (r: seq<Frame>)
    requires |stack| >= 1
    ensures |r| == |stack| + 1
    ensures r[|r| - 1] == Frame(name, [])
    ensures r[..|stack| - 1] == stack[..|stack| - 1]
  {
    Bind(stack, name, Table([]), before) + [Frame(name, [])]
  }

  lemma {:induction false} PopNAdd(stack: seq<Frame>, a: nat, b: nat, m: Merge)
    requires a + b < |stack|
    ensures PopN(PopN(stack, a, m), b, m) == PopN(stack, a + b, m)
    decreases a
  {
    if a > 0 {
      PopNAdd(Pop(stack, m), a - 1, b, m);
    }
  }

  /** Closing tables early does not change the tree: the source's pointer
      stack only forgets where the inner tables are, it never moves them. */
  lemma ClosingKeepsTree(stack: seq<Frame>, n: nat, m: Merge)
    requires n < |stack|
    ensures Close(PopN(stack, n, m), m) == Close(stack, m)
  {
    PopNAdd(stack, n, |stack| - 1 - n, m);
  }

  /** Opening a table is the same, for the tree, as binding the name to an
      empty table in the innermost one. */
  lemma PushKeepsTree(stack: seq<Frame>, name: string, before: KeyOrder)
    requires |stack| >= 1
    ensures Close(Push(stack, name, before), WriteBack(before))
         == Close(Bind(stack, name, Table([]), before), WriteBack(before))
  {
    var m := WriteBack(before);
    var b := Bind(stack, name, Table([]), before);
    var p := Push(stack, name, before);
    AssignAgain(Table(stack[|stack| - 1].entries), name, Table([]), before);
    assert Pop(p, m) == b;
    PopNAdd(p, 1, |b| - 1, m);
  }

  // ---------------------------------------------------------------------
  // Steps of the state machine

  function Fail(st: State, t: Token): (r: Next)
    ensures r.Stop? && r.outcome.value == Nil && r.outcome.failure.Some?
    ensures !r.outcome.failure.value.LexError?
  {
    Stop(Outcome(Nil, Some(UnexpectedToken(st.newlines + 1, t))))
  }

  function UnitChar(u: Unit): char
  {
    if u.kind == IndentSpace then ' ' else '\t'
  }

  predicate AllAre(w: string, c: char)
  {
    forall i :: 0 <= i < |w| ==> w[i] == c
  }

  /** The unit a first indentation run fixes, whose characters agree. */
  function Discovered(ws: string): (u: Unit)
    requires |ws| > 0 && IsBlank(ws[0])
    ensures UnitChar(u) == ws[0] && u.width == |ws|
  {
    Unit(if ws[0] == ' ' then IndentSpace else IndentTab, |ws|)
  }

  /** The number of units a run of indentation makes, if it is made of the
      unit's character and is a whole number of units. */
  function Measure(ws: string, u: Unit): (r: Option<nat>)
    requires u.width > 0
    ensures r.Some? <==> AllAre(ws, UnitChar(u)) && |ws| % u.width == 0
    ensures r.Some? ==> |ws| == r.value * u.width
  {
    if AllAre(ws, UnitChar(u)) && |ws| % u.width == 0 then
      ExactDivision(|ws|, u.width);
      Some(|ws| / u.width)
    else None
  }

  /** Indentation measured against a known unit: it must be a whole number
      of units and no deeper than the tables open; the tables deeper than
      it are closed. */
  function Dedent(st: State, ws: string, u: Unit, m: Merge): (r: Next)
    requires Inv(st) && st.pos == StartLine && st.unit == Some(u)
    ensures r.Stop? ==> r.outcome.value == Nil && r.outcome.failure.Some?
    ensures r.Stop? ==> !r.outcome.failure.value.LexError?
    ensures r.Continue? <==> Measure(ws, u).Some? && Measure(ws, u).value <= st.current
    ensures r.Continue? ==>
      && Inv(r.state)
      && r.state.unit == st.unit
      && r.state.current == Measure(ws, u).value
      && r.state.pos == StartLine
      && r.state.newIndent == r.state.current
      && r.state.stack == PopN(st.stack, st.current - r.state.current, m)
      && r.state.newlines == st.newlines
  {
    match Measure(ws, u)
    case None => Stop(Outcome(Nil, Some(InvalidWhitespace(st.newlines + 1, u))))
    case Some(level) =>
      if level > st.current then Stop(Outcome(Nil, Some(InvalidWhitespace(st.newlines + 1, u))))
      else
        Continue(st.(newIndent := level, current := level,
                     stack := PopN(st.stack, st.current - level, m)))
  }

  lemma ExactDivision(a: nat, w: nat)
    requires w > 0
    ensures a % w == 0 ==> a == (a / w) * w
    ensures a == w ==> a % w == 0 && a / w == 1
  {
  }

  /** The run that fixes the unit is exactly one level deep. */
  lemma FirstRunIsOneLevel(ws: string)
    requires |ws| > 0 && IsBlank(ws[0]) && AllAre(ws, ws[0])
    ensures Measure(ws, Discovered(ws)) == Some(1)
  {
    ExactDivision(|ws|, |ws|);
  }

  /** Whitespace at the start of a line. The first such run fixes the unit
      and must not mix tabs and spaces; every run is then measured against
      the unit (see FirstIndentFixesUnit and Dedent). */
  function TakeIndent(st: State, ws: string, m: Merge): (r: Next)
    requires Inv(st) && st.pos == StartLine
    requires |ws| > 0 && IsBlank(ws[0])
    ensures r.Stop? ==> r.outcome.value == Nil && r.outcome.failure.Some?
    ensures r.Stop? ==> !r.outcome.failure.value.LexError?
    ensures st.unit.Some? ==> r == Dedent(st, ws, st.unit.value, m)
    ensures r.Continue? ==>
      && Inv(r.state)
      && r.state.pos == StartLine
      && r.state.current <= st.current
      && r.state.newlines == st.newlines
  {
    if st.unit.Some? then Dedent(st, ws, st.unit.value, m)
    else if !AllAre(ws, ws[0]) then Stop(Outcome(Nil, Some(MixedFirstIndent(st.newlines + 1))))
    else
      var u := Discovered(ws);
      Dedent(st.(unit := Some(u)), ws, u, m)
  }

  /** The first indentation fixes the unit: its character and its width.
      It is accepted exactly when it does not mix tabs and spaces and a
      table is open, and it is then one level deep. */
  lemma FirstIndentFixesUnit(st: State, ws: string, m: Merge)
    requires Inv(st) && st.pos == StartLine && st.unit.None?
    requires |ws| > 0 && IsBlank(ws[0])
    ensures var r := TakeIndent(st, ws, m);
      && (r.Continue? <==> AllAre(ws, ws[0]) && st.current >= 1)
      && (r.Continue? ==> r.state.unit == Some(Discovered(ws)) && r.state.current == 1)
  {
    if AllAre(ws, ws[0]) {
      FirstRunIsOneLevel(ws);
    }
  }

  /** At the start of a line: indentation, a name (which closes the tables
      deeper than the line's indentation), or an empty line. */
  function AtLineStart(st: State, t: Token, m: Merge): (r: Next)
    requires Inv(st) && st.pos == StartLine && ValidToken(t)
    ensures r.Stop? ==> r.outcome.value == Nil && r.outcome.failure.Some?
    ensures r.Stop? ==> !r.outcome.failure.value.LexError?
    ensures r.Continue? ==> Inv(r.state) && r.state.newlines == st.newlines
    ensures t.EndOfLine? ==> r == Continue(st)
    ensures t.Name? ==>
      && r.Continue?
      && r.state.pos == AwaitColon && r.state.pname == t.text
      && r.state.current == st.newIndent
      && r.state.stack == PopN(st.stack, st.current - st.newIndent, m)
    ensures
      || t.Colon? || t.Comma? || t.EndOfString? || t.Error?
      || t.StringProperty? || t.NumberProperty? || t.BoolProperty?
      ==> r.Stop?
  {
    match t
    case Whitespace(ws) => TakeIndent(st, ws, m)
    case Name(w) =>
      Continue(st.(pname := w, pos := AwaitColon, current := st.newIndent,
                   stack := PopN(st.stack, st.current - st.newIndent, m)))
    case EndOfLine => Continue(st)
    case _ => Fail(st, t)
  }

  /** The value a property token stands for. */
  function PropertyValue(t: Token): (v: Value)
    requires t.StringProperty? || t.NumberProperty? || t.BoolProperty?
    ensures t.StringProperty? ==> v == Str(t.text)
    ensures t.NumberProperty? ==> v == Number(t.n)
    ensures t.BoolProperty? ==> v == Bool(t.text == "true")
  {
    match t
    case StringProperty(w) => Str(w)
    case NumberProperty(_, x) => Number(x)
    case BoolProperty(w) => Bool(w == "true")
  }

  /** After `name:`. The end of the line opens a table under the name, one
      level deeper; a value is bound to the name; anything else is passed
      over. */
  function AtProperty(st: State, t: Token, before: KeyOrder): (r: State)
    requires Inv(st) && st.pos == Property
    ensures Inv(r) && r.newlines == st.newlines
    ensures t.EndOfLine? ==>
      && r.pos == StartLine
      && r.current == st.current + 1
      && r.stack == Push(st.stack, st.pname, before)
    ensures t.StringProperty? || t.NumberProperty? || t.BoolProperty? ==>
      && r.pos == PostProperty
      && r.current == st.current
      && r.stack == Bind(st.stack, st.pname, PropertyValue(t), before)
    ensures !(t.EndOfLine? || t.StringProperty? || t.NumberProperty? || t.BoolProperty?) ==> r == st
  {
    if t.EndOfLine? then
      st.(stack := Push(st.stack, st.pname, before), current := st.current + 1, pos := StartLine)
    else if t.StringProperty? || t.NumberProperty? || t.BoolProperty? then
      st.(stack := Bind(st.stack, st.pname, PropertyValue(t), before), pos := PostProperty)
    else st
  }

  /** One token through the main loop of `diatomFromString`. */
  function Step(st: State, t: Token, before: KeyOrder): (r: Next)
    requires Inv(st) && ValidToken(t)
    ensures r.Continue? ==> Inv(r.state)
    ensures r.Stop? ==> r.outcome.value.Table? || r.outcome.value.Nil?
    ensures r.Stop? ==>
      (r.outcome.value.Nil? <==> r.outcome.failure.Some? && !r.outcome.failure.value.LexError?)
    // a lexical error keeps the tree read so far
    ensures t.Error? ==> r == Stop(Outcome(Close(st.stack, WriteBack(before)), Some(LexError(st.newlines + 1))))
    // the end of the input is fine anywhere but between a name and its colon
    ensures t.EndOfString? ==> r.Stop?
    ensures t.EndOfString? ==> (r.outcome.failure.None? <==> st.pos != AwaitColon)
    ensures t.EndOfString? && st.pos != AwaitColon ==> r.outcome.value == Close(st.stack, WriteBack(before))
    // whitespace only matters at the start of a line
    ensures t.Whitespace? && st.pos != StartLine ==> r == Continue(st)
    // a comma only after a value; after a value only a comma or a newline
    ensures t.Comma? && st.pos != PostProperty ==> r.Stop? && r.outcome.value == Nil
    ensures st.pos == PostProperty ==>
      (r.Continue? <==> t.Comma? || t.EndOfLine? || t.Whitespace?)
    ensures st.pos == AwaitColon ==> (r.Continue? <==> t.Colon? || t.Whitespace?)
    ensures st.pos == Property ==> (r.Continue? <==> !t.Comma? && !t.EndOfString? && !t.Error?)
    // lines are counted as they end
    ensures r.Continue? ==> r.state.newlines == st.newlines + (if t.EndOfLine? then 1 else 0)
    ensures r.Continue? && t.EndOfLine? ==> r.state.pos == StartLine
  {
    if t.Error? then Stop(Outcome(Close(st.stack, WriteBack(before)), Some(LexError(st.newlines + 1))))
    else
      var s := if t.EndOfLine? then st.(newlines := st.newlines + 1, newIndent := 0) else st;
      if t.EndOfString? then
        if s.pos == AwaitColon then Fail(s, t) else Stop(Outcome(Close(s.stack, WriteBack(before)), None))
      else if t.Whitespace? && s.pos != StartLine then Continue(s)
      else if t.Comma? && s.pos != PostProperty then Fail(s, t)
      else
        match s.pos
        case StartLine => AtLineStart(s, t, WriteBack(before))
        case AwaitColon => if t.Colon? then Continue(s.(pos := Property)) else Fail(s, t)
        case Property => Continue(AtProperty(s, t, before))
        case PostProperty =>
          if t.Comma? then Continue(s)
          else if t.EndOfLine? then Continue(s.(pos := StartLine))
          else Fail(s, t)
  }

  /** An outcome as the reader can end: a table, or Nil exactly when a
      structural error stopped it. */
  predicate Settled(o: Outcome)
  {
    && (o.value.Table? || o.value.Nil?)
    && (o.value.Nil? <==> o.failure.Some? && !o.failure.value.LexError?)
  }

  type Lexer = string -> Lexed

  type Stepper = (State, Token) --> Next

  /** What the loop needs of the lexer: well-formed tokens, and progress
      on every token but the two that end the loop. */
  ghost predicate LexerShape(lex: Lexer)
  {
    forall s: string :: ValidToken(lex(s).token) &&
      (!lex(s).token.EndOfString? && !lex(s).token.Error? ==> |lex(s).rest| < |s|)
  }

  /** What the loop needs of the state machine: it keeps the invariant,
      ends the loop as the reader can end, and does end it on the end of
      the input and on an error token. */
  ghost predicate StepperShape(step: Stepper)
  {
    forall st: State, t: Token :: Inv(st) && ValidToken(t) ==>
      && step.requires(st, t)
      && (step(st, t).Continue? ==> Inv(step(st, t).state) && !t.EndOfString? && !t.Error?)
      && (step(st, t).Stop? ==> Settled(step(st, t).outcome))
  }

  function LexerOf(read: NumberReader): (lex: Lexer)
    ensures LexerShape(lex)
  {
    (s: string) => Lex(s, read)
  }

  function StepperOf(before: KeyOrder): (step: Stepper)
    ensures StepperShape(step)
  {
    (st: State, t: Token) requires Inv(st) && ValidToken(t) => Step(st, t, before)
  }

  /** The loop: a token, a step, until a step ends it. */
  function Drive(st: State, input: string, lex: Lexer, step: Stepper): (r: Outcome)
    requires Inv(st) && LexerShape(lex) && StepperShape(step)
    ensures Settled(r)
    decreases |input|
  {
    var lx := lex(input);
    match step(st, lx.token)
    case Stop(o) => o
    case Continue(next) => Drive(next, lx.rest, lex, step)
  }

  /** The main loop from state `st` on the remaining input. */
  function Run(st: State, input: string, read: NumberReader, before: KeyOrder): (r: Outcome)
    requires Inv(st)
    ensures Settled(r)
  {
    Drive(st, input, LexerOf(read), StepperOf(before))
  }

  /** `diatomFromString(str)`: the tree read, Nil after a structural error,
      and the diagnostic the source prints. */
  function DiatomFromString(s: string, read: NumberReader, before: KeyOrder): (r: Outcome)
    ensures r.value.Table? || r.value.Nil?
    ensures r.failure.None? ==> r.value.Table?
    ensures |s| == 0 ==> r == Outcome(Table([]), None)
  {
    Run(Initial, s, read, before)
  }

  // ---------------------------------------------------------------------
  // Writing (__diatomToString and diatomToString)

  /** `__diatomToString(d, level)`: a table writes each entry that is not
      Nil as a newline, the indentation, the name, a colon and the entry's
      own text one level deeper; a leaf writes a space and its value; Nil
      writes nothing. */
  function Write(d: Value, level: nat, fmt: Formatter): string
    decreases d, 1
  {
    match d
    case Table(es) => WriteEntries(es, level, fmt)
    case Number(x) => " " + fmt(x)
    case Str(w) => " \"" + w + "\""
    case Bool(b) => " " + (if b then "true" else "false")
    case Nil => ""
  }

  function WriteEntries(es: seq<Entry>, level: nat, fmt: Formatter): string
    decreases es, 0
  {
    if |es| == 0 then ""
    else
      (if es[0].val.Nil? then ""
       else "\n" + Indent(level) + es[0].key + ":" + Write(es[0].val, level + 1, fmt))
      + WriteEntries(es[1..], level, fmt)
  }

  /** `diatomToString(d)`: nothing for Nil, otherwise the text of `d` and a
      final newline. */
  function DiatomToString(d: Value, fmt: Formatter): (r: string)
    ensures d.Nil? <==> r == ""
    ensures r != "" ==> r[|r| - 1] == '\n'
  {
    if d.Nil? then "" else Write(d, 0, fmt) + "\n"
  }

  /** `diatomToString(d, name)`: nothing for Nil, otherwise `d` written as
      the only entry of a fresh table. The wrapper is indexed through the
      `std::string` overload, so the label is the name cut at its first
      NUL. */
  function DiatomToStringNamed(d: Value, name: string, fmt: Formatter, before: KeyOrder): (r: string)
    ensures d.Nil? ==> r == ""
    ensures !d.Nil? ==> r == "\n" + CStr(name) + ":" + Write(d, 1, fmt) + "\n"
  {
    if d.Nil? then ""
    else
      var cut := CStr(name);
      var wrapper := Assign(NewTable(), cut, d, before);
      AssignAppends([], cut, d, before);
      assert wrapper.entries == [Entry(cut, d)];
      assert Write(wrapper, 0, fmt) == "\n" + cut + ":" + Write(d, 1, fmt) by {
        var es := wrapper.entries;
        assert Indent(0) == "";
        assert es[1..] == [];
        assert Write(wrapper, 0, fmt) == WriteEntries(es, 0, fmt);
        assert WriteEntries(es, 0, fmt)
            == "\n" + Indent(0) + cut + ":" + Write(d, 1, fmt) + WriteEntries(es[1..], 0, fmt);
      }
      DiatomToString(wrapper, fmt)
  }

  // ---------------------------------------------------------------------
  // Nil entries are never written

  /** The tree with every Nil entry removed, at every depth. */
  function Pruned(d: Value): (r: Value)
    ensures d.Table? <==> r.Table?
    ensures !d.Table? ==> r == d
    decreases d, 1
  {
    match d
    case Table(es) => Table(PrunedEntries(es))
    case _ => d
  }

  function PrunedEntries(es: seq<Entry>): (r: seq<Entry>)
    ensures |r| <= |es|
    ensures forall i :: 0 <= i < |r| ==> !r[i].val.Nil?
    decreases es, 0
  {
    if |es| == 0 then []
    else if es[0].val.Nil? then PrunedEntries(es[1..])
    else [Entry(es[0].key, Pruned(es[0].val))] + PrunedEntries(es[1..])
  }

  /** Writing ignores Nil entries at every depth. */
  lemma {:induction false} WriteIgnoresNil(d: Value, level: nat, fmt: Formatter)
    ensures Write(Pruned(d), level, fmt) == Write(d, level, fmt)
    decreases d, 1
  {
    if d.Table? {
      WriteEntriesIgnoresNil(d.entries, level, fmt);
    }
  }

  lemma {:induction false} WriteEntriesIgnoresNil(es: seq<Entry>, level: nat, fmt: Formatter)
    ensures WriteEntries(PrunedEntries(es), level, fmt) == WriteEntries(es, level, fmt)
    decreases es, 0
  {
    if |es| > 0 {
      WriteEntriesIgnoresNil(es[1..], level, fmt);
      if !es[0].val.Nil? {
        WriteIgnoresNil(es[0].val, level + 1, fmt);
        var p := PrunedEntries(es);
        assert p[0] == Entry(es[0].key, Pruned(es[0].val));
        assert p[1..] == PrunedEntries(es[1..]);
      }
    }
  }
}

=== FILE: values.dfy ===
/** The Diatom value: a tagged union of number, boolean, string, table and
    nil (Diatom.h, Diatom.cpp).

    A table is an association list of (name, value) entries held in
    iteration order. Where a new name lands in that order is a policy the
    source changed over time (a `std::map` with a numeric-aware comparator
    in Diatom.h, a plain vector in the revision the staged serializer
    targets), so every inserting operation takes the policy as a
    parameter `before`: a new name is placed in front of the first entry it
    sorts before, and appended when there is none. */
module Values {
  import opened Chars

  datatype Value =
    | Number(n: real)
    | Bool(b: bool)
    | Str(s: string)
    | Table(entries: seq<Entry>)
    | Nil

  datatype Entry = Entry(key: string, val: Value)

  /** `before(a, b)`: a new name `a` is placed in front of an existing `b`. */
  type KeyOrder = (string, string) -> bool

  /** Insertion order: a new name never goes in front of an existing one. */
  function InsertionOrder(a: string, b: string): bool { false }

  /** The library routine both writers render numbers with
      (`sprintf("%.17f")` with trailing zeros cut: `float_format` and
      `__floatFmt`); it stays a parameter. */
  type Formatter = real -> string

  // ---------------------------------------------------------------------
  // Tags and constructors (Diatom.h)

  datatype Kind = NumberKind | BoolKind | StringKind | TableKind | NilKind

  function KindOf(v: Value): Kind
  {
    match v
    case Number(_) => NumberKind
    case Bool(_) => BoolKind
    case Str(_) => StringKind
    case Table(_) => TableKind
    case Nil => NilKind
  }

  predicate IsTable(v: Value) { KindOf(v) == TableKind }
  predicate IsNumber(v: Value) { KindOf(v) == NumberKind }
  predicate IsString(v: Value) { KindOf(v) == StringKind }
  predicate IsBool(v: Value) { KindOf(v) == BoolKind }
  predicate IsNil(v: Value) { KindOf(v) == NilKind }

  function Count(b: bool): nat { if b then 1 else 0 }

  /** Every value answers yes to exactly one of the five type tests. */
  lemma ExactlyOneKind(v: Value)
    ensures Count(IsTable(v)) + Count(IsNumber(v)) + Count(IsString(v))
          + Count(IsBool(v)) + Count(IsNil(v)) == 1
  {
  }

  function FromNumber(x: real): (v: Value)
    ensures IsNumber(v) && v.n == x
  {
    Number(x)
  }

  function FromBool(x: bool): (v: Value)
    ensures IsBool(v) && v.b == x
  {
    Bool(x)
  }

  function FromString(s: string): (v: Value)
    ensures IsString(v) && v.s == s
  {
    Str(s)
  }

  /** The default constructor: an empty table. */
  function NewTable(): (v: Value)
    ensures IsTable(v) && |v.entries| == 0
  {
    Table([])
  }

  /** `NilObject()` hands out a copy of the nil value; with value semantics
      there is no shared instance a caller could write through. */
  function NilObject(): (v: Value)
    ensures IsNil(v)
  {
    Nil
  }

  // ---------------------------------------------------------------------
  // Entry lists

  ghost predicate UniqueKeys(es: seq<Entry>)
  {
    forall i, j :: 0 <= i < j < |es| ==> es[i].key != es[j].key
  }

  /** Position of the first entry named `key`, if any. */
  function FindIndex(es: seq<Entry>, key: string): (r: Option<nat>)
    ensures r.Some? ==> r.value < |es| && es[r.value].key == key
    ensures r.Some? ==> forall i :: 0 <= i < r.value ==> es[i].key != key
    ensures r.None? ==> forall i :: 0 <= i < |es| ==> es[i].key != key
  {
    if |es| == 0 then None
    else if es[0].key == key then Some(0)
    else match FindIndex(es[1..], key)
      case None => None
      case Some(i) => Some(i + 1)
  }

  /** Some entry is named `key`. */
  predicate HasKey(es: seq<Entry>, key: string)
  {
    FindIndex(es, key).Some?
  }

  /** Read-only access: the value bound to `key`, or None when absent. */
  function Lookup(es: seq<Entry>, key: string): (r: Option<Value>)
    ensures r.None? <==> !HasKey(es, key)
    ensures UniqueKeys(es) ==>
      forall i :: 0 <= i < |es| && es[i].key == key ==> r == Some(es[i].val)
  {
    match FindIndex(es, key)
    case None => None
    case Some(i) => Some(es[i].val)
  }

  /** Where a name that is not yet present is inserted under `before`. */
  function InsertPos(es: seq<Entry>, key: string, before: KeyOrder): (p: nat)
    ensures p <= |es|
    ensures forall i :: 0 <= i < p ==> !before(key, es[i].key)
    ensures p < |es| ==> before(key, es[p].key)
  {
    if |es| == 0 then 0
    else if before(key, es[0].key) then 0
    else 1 + InsertPos(es[1..], key, before)
  }

  function InsertAt(es: seq<Entry>, p: nat, e: Entry): (r: seq<Entry>)
    requires p <= |es|
    ensures |r| == |es| + 1 && r[p] == e
    ensures forall i :: 0 <= i < p ==> r[i] == es[i]
    ensures forall i :: p < i < |r| ==> r[i] == es[i - 1]
  {
    es[..p] + [e] + es[p..]
  }

  function SetAt(es: seq<Entry>, p: nat, v: Value): (r: seq<Entry>)
    requires p < |es|
    ensures |r| == |es| && r[p] == Entry(es[p].key, v)
    ensures forall i :: 0 <= i < |es| && i != p ==> r[i] == es[i]
  {
    es[p := Entry(es[p].key, v)]
  }

  /** FindIndex is pinned down by its contract: the first matching entry. */
  lemma FindIndexIs(es: seq<Entry>, key: string, k: nat)
    requires k < |es| && es[k].key == key
    requires forall i :: 0 <= i < k ==> es[i].key != key
    ensures FindIndex(es, key) == Some(k)
  {
  }

  lemma LookupAfterInsert(es: seq<Entry>, p: nat, key: string, v: Value, other: string)
    requires p <= |es| && !HasKey(es, key) && other != key
    ensures Lookup(InsertAt(es, p, Entry(key, v)), key) == Some(v)
    ensures Lookup(InsertAt(es, p, Entry(key, v)), other) == Lookup(es, other)
  {
    var r := InsertAt(es, p, Entry(key, v));
    assert forall i :: 0 <= i < p ==> r[i].key != key;
    FindIndexIs(r, key, p);
    match FindIndex(es, other)
    case None => {
      assert forall i :: 0 <= i < |r| ==> r[i].key != other by {
        forall i | 0 <= i < |r| ensures r[i].key != other {
          if i > p { assert r[i] == es[i - 1]; }
        }
      }
      assert !HasKey(r, other);
    }
    case Some(j) => {
      var k := if j < p then j else j + 1;
      assert r[k] == es[j];
      assert forall i :: 0 <= i < k ==> r[i].key != other by {
        forall i | 0 <= i < k ensures r[i].key != other {
          if i > p { assert r[i] == es[i - 1]; }
        }
      }
      FindIndexIs(r, other, k);
    }
  }

  lemma LookupAfterSet(es: seq<Entry>, p: nat, v: Value, other: string)
    requires p < |es| && FindIndex(es, es[p].key) == Some(p)
    ensures Lookup(SetAt(es, p, v), es[p].key) == Some(v)
    ensures other != es[p].key ==> Lookup(SetAt(es, p, v), other) == Lookup(es, other)
  {
    var r := SetAt(es, p, v);
    assert forall i :: 0 <= i < p ==> r[i].key != es[p].key;
    FindIndexIs(r, es[p].key, p);
    if other != es[p].key {
      SetKeepsOther(es, p, v, other);
    }
  }

  /** Overwriting one entry's value does not move any other name. */
  lemma SetKeepsOther(es: seq<Entry>, p: nat, v: Value, other: string)
    requires p < |es| && other != es[p].key
    ensures FindIndex(SetAt(es, p, v), other) == FindIndex(es, other)
  {
    var r := SetAt(es, p, v);
    assert forall i :: 0 <= i < |r| ==> r[i].key == es[i].key;
    match FindIndex(es, other)
    case None =>
    case Some(j) => FindIndexIs(r, other, j);
  }

  lemma UniqueAfterInsert(es: seq<Entry>, p: nat, e: Entry)
    requires p <= |es| && UniqueKeys(es) && !HasKey(es, e.key)
    ensures UniqueKeys(InsertAt(es, p, e))
  {
    var r := InsertAt(es, p, e);
    forall i, j | 0 <= i < j < |r| ensures r[i].key != r[j].key {
      var ki := if i < p then i else i - 1;
      var kj := if j < p then j else j - 1;
      if i != p && j != p {
        assert r[i] == es[ki] && r[j] == es[kj];
      } else if i == p {
        assert r[j] == es[kj];
      } else {
        assert r[i] == es[ki];
      }
    }
  }

  // ---------------------------------------------------------------------
  // operator[] and assignment (Diatom.cpp)

  /** The table after an access, and the entry the access returned. */
  datatype Access = Access(table: Value, item: Value)

  /** `d[key]` (the `const char *` overload): returns the entry bound to `key`; a missing
      key is first bound to a fresh Nil entry, placed according to `before`. */
  function Index(t: Value, key: string, before: KeyOrder): (r: Access)
    requires t.Table?
    ensures r.table.Table?
    ensures HasKey(t.entries, key) ==> r.table == t && Some(r.item) == Lookup(t.entries, key)
    ensures !HasKey(t.entries, key) ==>
      && r.item == Nil
      && |r.table.entries| == |t.entries| + 1
      && r.table.entries == InsertAt(t.entries, InsertPos(t.entries, key, before), Entry(key, Nil))
      && Lookup(r.table.entries, key) == Some(Nil)
      && forall k :: k != key ==> Lookup(r.table.entries, k) == Lookup(t.entries, k)
    ensures UniqueKeys(t.entries) ==> UniqueKeys(r.table.entries)
    ensures HasKey(r.table.entries, key)
  {
    match FindIndex(t.entries, key)
    case Some(i) => Access(t, t.entries[i].val)
    case None =>
      var p := InsertPos(t.entries, key, before);
      InsertFacts(t.entries, p, Entry(key, Nil));
      Access(Table(InsertAt(t.entries, p, Entry(key, Nil))), Nil)
  }

  /** `d[s]` (the `std::string` overload): forwards `s.c_str()`, so the
      name is cut at its first NUL. */
  function IndexText(t: Value, s: string, before: KeyOrder): (r: Access)
    requires t.Table?
    ensures r.table.Table? && HasKey(r.table.entries, CStr(s))
    ensures forall i :: 0 <= i < |r.table.entries| && !HasKey(t.entries, r.table.entries[i].key) ==>
      r.table.entries[i] == Entry(CStr(s), Nil)
  {
    Index(t, CStr(s), before)
  }

  /** A name and the same name followed by a NUL and anything at all reach
      the same entry. */
  lemma NulCutsKey(t: Value, p: string, q: string, before: KeyOrder)
    requires t.Table?
    requires forall i :: 0 <= i < |p| ==> p[i] != '\0'
    ensures IndexText(t, p + "\0" + q, before) == Index(t, p, before)
    ensures IndexText(t, p, before) == Index(t, p, before)
  {
    CStrCuts(p, q);
  }

  /** What inserting an entry under a new name does to lookups. */
  lemma InsertFacts(es: seq<Entry>, p: nat, e: Entry)
    requires p <= |es| && !HasKey(es, e.key)
    ensures Lookup(InsertAt(es, p, e), e.key) == Some(e.val)
    ensures forall k :: k != e.key ==> Lookup(InsertAt(es, p, e), k) == Lookup(es, k)
    ensures UniqueKeys(es) ==> UniqueKeys(InsertAt(es, p, e))
    ensures HasKey(InsertAt(es, p, e), e.key)
  {
    var r := InsertAt(es, p, e);
    assert r[p].key == e.key;
    forall k | k != e.key ensures Lookup(r, k) == Lookup(es, k) {
      LookupAfterInsert(es, p, e.key, e.val, k);
    }
    LookupAfterInsert(es, p, e.key, e.val, e.key + "?");
    if UniqueKeys(es) { UniqueAfterInsert(es, p, e); }
  }

  /** What overwriting the entry found for its own name does to lookups. */
  lemma SetFacts(es: seq<Entry>, p: nat, v: Value)
    requires p < |es| && FindIndex(es, es[p].key) == Some(p)
    ensures Lookup(SetAt(es, p, v), es[p].key) == Some(v)
    ensures forall k :: k != es[p].key ==> Lookup(SetAt(es, p, v), k) == Lookup(es, k)
    ensures FindIndex(SetAt(es, p, v), es[p].key) == Some(p)
    ensures UniqueKeys(es) ==> UniqueKeys(SetAt(es, p, v))
  {
    var r := SetAt(es, p, v);
    forall k | k != es[p].key ensures Lookup(r, k) == Lookup(es, k) {
      LookupAfterSet(es, p, v, k);
    }
    LookupAfterSet(es, p, v, es[p].key);
    assert FindIndex(r, es[p].key) == Some(p);
    if UniqueKeys(es) {
      forall x, y | 0 <= x < y < |r| ensures r[x].key != r[y].key {
        assert r[x].key == es[x].key && r[y].key == es[y].key;
      }
    }
  }

  /** `d[key] = v`: access (creating a Nil entry if need be), then overwrite
      that entry in place. */
  function Assign(t: Value, key: string, v: Value, before: KeyOrder): (r: Value)
    requires t.Table?
    ensures r.Table?
    ensures Lookup(r.entries, key) == Some(v)
    ensures forall k :: k != key ==> Lookup(r.entries, k) == Lookup(t.entries, k)
    ensures HasKey(t.entries, key) ==> |r.entries| == |t.entries|
    ensures HasKey(t.entries, key) ==> FindIndex(r.entries, key) == FindIndex(t.entries, key)
    ensures HasKey(t.entries, key) ==>
      var i := FindIndex(t.entries, key).value;
      && r.entries[i] == Entry(key, v)
      && forall j :: 0 <= j < |t.entries| && j != i ==> r.entries[j] == t.entries[j]
    ensures !HasKey(t.entries, key) ==>
      r.entries == InsertAt(t.entries, InsertPos(t.entries, key, before), Entry(key, v))
    ensures UniqueKeys(t.entries) ==> UniqueKeys(r.entries)
  {
    var a := Index(t, key, before);
    var es := a.table.entries;
    match FindIndex(es, key)
    case Some(i) =>
      SetFacts(es, i, v);
      AssignShape(t, key, v, before);
      Table(SetAt(es, i, v))
    case None => assert false; t
  }

  /** Repeating an assignment changes nothing: once `key` holds `v`,
      assigning `v` to it again leaves the table as it is. */
  lemma AssignAgain(t: Value, key: string, v: Value, before: KeyOrder)
    requires t.Table?
    ensures Assign(Assign(t, key, v, before), key, v, before) == Assign(t, key, v, before)
  {
    var t1 := Assign(t, key, v, before);
    assert HasKey(t1.entries, key);
    var i := FindIndex(t1.entries, key).value;
    assert t1.entries[i] == Entry(key, v);
    assert SetAt(t1.entries, i, v) == t1.entries;
  }

  /** A new name that sorts before no existing one is appended. */
  lemma AssignAppends(es: seq<Entry>, key: string, v: Value, before: KeyOrder)
    requires !HasKey(es, key)
    requires forall i :: 0 <= i < |es| ==> !before(key, es[i].key)
    ensures Assign(Table(es), key, v, before).entries == es + [Entry(key, v)]
  {
    assert InsertPos(es, key, before) == |es|;
  }

  lemma AssignShape(t: Value, key: string, v: Value, before: KeyOrder)
    requires t.Table?
    ensures var es := Index(t, key, before).table.entries;
      FindIndex(es, key).Some? &&
      (!HasKey(t.entries, key) ==>
        SetAt(es, FindIndex(es, key).value, v)
          == InsertAt(t.entries, InsertPos(t.entries, key, before), Entry(key, v)))
  {
    var es := Index(t, key, before).table.entries;
    assert HasKey(es, key);
    if !HasKey(t.entries, key) {
      var p := InsertPos(t.entries, key, before);
      var i := FindIndex(es, key).value;
      assert es[p].key == key;
      assert forall j :: 0 <= j < p ==> es[j].key != key by {
        forall j | 0 <= j < p ensures es[j].key != key {
          assert es[j] == t.entries[j];
        }
      }
      FindIndexIs(es, key, p);
    }
  }

  // ---------------------------------------------------------------------
  // Copying (Diatom.cpp: clone)

  /** `clone(from, to)`: `to` takes `from`'s tag and a copy of its payload;
      a table's entries are copied one by one, each through the value's
      own copy constructor, so nested tables are copied all the way down. */
  function Clone(v: Value): (r: Value)
    ensures r == v
  {
    match v
    case Number(x) => Number(x)
    case Bool(x) => Bool(x)
    case Str(s) => Str(s)
    case Table(es) => Table(CloneEntries(es))
    case Nil => Nil
  }

  function CloneEntries(es: seq<Entry>): (r: seq<Entry>)
    ensures r == es
  {
    if |es| == 0 then []
    else [Entry(es[0].key, Clone(es[0].val))] + CloneEntries(es[1..])
  }

  // ---------------------------------------------------------------------
  // Ordering policies

  /** No entry sorts before an entry that precedes it. */
  ghost predicate OrderedBy(es: seq<Entry>, before: KeyOrder)
  {
    forall i, j :: 0 <= i < j < |es| ==> !before(es[j].key, es[i].key)
  }

  /** `before` is a strict order: irreflexive and transitive. A strict
      weak order, such as a comparator that treats `1` and `1.0` as the
      same name, is one. */
  ghost predicate StrictOrder(before: KeyOrder)
  {
    && (forall a :: !before(a, a))
    && (forall a, b, c :: before(a, b) && before(b, c) ==> before(a, c))
  }

  /** No two of the table's names, and neither of them and `key`, are
      equivalent under `before`: one sorts before the other. This is what
      a map keyed by `before` keeps of its names, and `key` is new to it. */
  ghost predicate Comparable(es: seq<Entry>, key: string, before: KeyOrder)
  {
    && (forall i, j :: 0 <= i < j < |es| ==> before(es[i].key, es[j].key) || before(es[j].key, es[i].key))
    && (forall i :: 0 <= i < |es| ==> before(es[i].key, key) || before(key, es[i].key))
  }

  /** Under a strict order, inserting a name that is equivalent to none of
      the table's names keeps the table sorted (the `std::map` behaviour
      of Diatom.h). */
  lemma InsertKeepsOrder(es: seq<Entry>, e: Entry, before: KeyOrder)
    requires StrictOrder(before) && OrderedBy(es, before) && Comparable(es, e.key, before)
    ensures OrderedBy(InsertAt(es, InsertPos(es, e.key, before), e), before)
  {
    var p := InsertPos(es, e.key, before);
    var r := InsertAt(es, p, e);
    forall i | 0 <= i < p ensures before(es[i].key, e.key) {
    }
    forall i | p <= i < |es| ensures before(e.key, es[i].key) {
      if i > p {
        assert !before(es[i].key, es[p].key);
        assert before(es[p].key, es[i].key);
      }
    }
    forall i, j | 0 <= i < j < |r| ensures !before(r[j].key, r[i].key) {
      if j < p {
      } else if j == p {
        assert before(r[i].key, e.key);
      } else if i == p {
        assert r[j] == es[j - 1];
        assert before(e.key, r[j].key);
      } else if i < p {
        assert r[j] == es[j - 1];
      } else {
        assert r[i] == es[i - 1] && r[j] == es[j - 1];
      }
    }
  }

  /** Under insertion order a new name is appended at the end. */
  lemma InsertionOrderAppends(t: Value, key: string)
    requires t.Table? && !HasKey(t.entries, key)
    ensures Index(t, key, InsertionOrder).table.entries == t.entries + [Entry(key, Nil)]
  {
    assert InsertPos(t.entries, key, InsertionOrder) == |t.entries|;
  }

  function KeysOf(es: seq<Entry>): (r: seq<string>)
    ensures |r| == |es|
    ensures forall i :: 0 <= i < |es| ==> r[i] == es[i].key
  {
    if |es| == 0 then [] else [es[0].key] + KeysOf(es[1..])
  }

  /** Touching each of `keys` in turn, starting from table `t`. */
  function TouchAll(t: Value, keys: seq<string>, before: KeyOrder): (r: Value)
    requires t.Table?
    ensures r.Table?
    decreases |keys|
  {
    if |keys| == 0 then t
    else TouchAll(Index(t, keys[0], before).table, keys[1..], before)
  }

  lemma AppendFacts(es: seq<Entry>, e: Entry)
    ensures KeysOf(es + [e]) == KeysOf(es) + [e.key]
    ensures forall k :: HasKey(es + [e], k) <==> HasKey(es, k) || k == e.key
  {
    var r := es + [e];
    forall k ensures HasKey(r, k) <==> HasKey(es, k) || k == e.key {
      if HasKey(es, k) {
        var i :| 0 <= i < |es| && es[i].key == k;
        assert r[i] == es[i];
      }
      if HasKey(r, k) && k != e.key {
        var i :| 0 <= i < |r| && r[i].key == k;
        assert i < |es|;
      }
      if k == e.key {
        assert r[|es|].key == k;
      }
    }
  }

  lemma ConcatAssoc<T>(a: seq<T>, b: seq<T>, c: seq<T>)
    ensures (a + b) + c == a + (b + c)
  {
  }

  lemma TouchAllStep(t: Value, keys: seq<string>)
    requires t.Table? && |keys| > 0 && !HasKey(t.entries, keys[0])
    ensures TouchAll(t, keys, InsertionOrder)
         == TouchAll(Table(t.entries + [Entry(keys[0], Nil)]), keys[1..], InsertionOrder)
  {
    InsertionOrderAppends(t, keys[0]);
  }

  /** Under insertion order, touching distinct new names leaves them in the
      order they were touched. */
  lemma {:induction false} InsertionOrderPreserved(t: Value, keys: seq<string>)
    requires t.Table?
    requires forall i, j :: 0 <= i < j < |keys| ==> keys[i] != keys[j]
    requires forall i :: 0 <= i < |keys| ==> !HasKey(t.entries, keys[i])
    ensures KeysOf(TouchAll(t, keys, InsertionOrder).entries) == KeysOf(t.entries) + keys
    decreases |keys|
  {
    if |keys| > 0 {
      var es1 := t.entries + [Entry(keys[0], Nil)];
      TouchAllStep(t, keys);
      RestStillNew(t.entries, keys);
      InsertionOrderPreserved(Table(es1), keys[1..]);
      KeysAfterAppend(t.entries, keys);
    } else {
      assert KeysOf(t.entries) + keys == KeysOf(t.entries);
    }
  }

  lemma RestStillNew(es: seq<Entry>, keys: seq<string>)
    requires |keys| > 0
    requires forall i, j :: 0 <= i < j < |keys| ==> keys[i] != keys[j]
    requires forall i :: 0 <= i < |keys| ==> !HasKey(es, keys[i])
    ensures var es1 := es + [Entry(keys[0], Nil)];
      var rest := keys[1..];
      && (forall i, j :: 0 <= i < j < |rest| ==> rest[i] != rest[j])
      && (forall i :: 0 <= i < |rest| ==> !HasKey(es1, rest[i]))
  {
    var es1 := es + [Entry(keys[0], Nil)];
    var rest := keys[1..];
    AppendFacts(es, Entry(keys[0], Nil));
    forall i | 0 <= i < |rest| ensures !HasKey(es1, rest[i]) {
      assert rest[i] == keys[i + 1];
    }
    forall i, j | 0 <= i < j < |rest| ensures rest[i] != rest[j] {
      assert rest[i] == keys[i + 1] && rest[j] == keys[j + 1];
    }
  }

  lemma KeysAfterAppend(es: seq<Entry>, keys: seq<string>)
    requires |keys| > 0
    ensures KeysOf(es + [Entry(keys[0], Nil)]) + keys[1..] == KeysOf(es) + keys
  {
    AppendFacts(es, Entry(keys[0], Nil));
    assert keys == [keys[0]] + keys[1..];
    ConcatAssoc(KeysOf(es), [keys[0]], keys[1..]);
  }

  // ---------------------------------------------------------------------
  // Well-formedness and nil entries

  /** Names are unique in every table of the tree. */
  ghost predicate WellFormed(v: Value)
  {
    match v
    case Table(es) =>
      && UniqueKeys(es)
      && forall i :: 0 <= i < |es| ==> WellFormed(es[i].val)
    case _ => true
  }

  /** The entries of `es` that do not hold Nil, in order. */
  function DropNil(es: seq<Entry>): (r: seq<Entry>)
    ensures |r| <= |es|
    ensures forall i :: 0 <= i < |r| ==> !r[i].val.Nil?
  {
    if |es| == 0 then []
    else if es[0].val.Nil? then DropNil(es[1..])
    else [es[0]] + DropNil(es[1..])
  }

  /** DropNil keeps exactly the entries that do not hold Nil. */
  lemma {:induction false} DropNilKeeps(es: seq<Entry>)
    ensures forall i :: 0 <= i < |DropNil(es)| ==> DropNil(es)[i] in es
    ensures forall i :: 0 <= i < |es| && !es[i].val.Nil? ==> es[i] in DropNil(es)
  {
    if |es| > 0 {
      DropNilKeeps(es[1..]);
      var d := DropNil(es[1..]);
      assert es == [es[0]] + es[1..];
      forall i | 0 <= i < |es| && !es[i].val.Nil? ensures es[i] in DropNil(es) {
        if i > 0 {
          assert es[i] == es[1..][i - 1];
        }
      }
    }
  }

  lemma DropNilCons(e: Entry, es: seq<Entry>)
    ensures DropNil([e] + es) == (if e.val.Nil? then DropNil(es) else [e] + DropNil(es))
  {
    assert ([e] + es)[1..] == es;
  }

  /** Dropping Nil entries is idempotent. */
  lemma {:induction false} DropNilTwice(es: seq<Entry>)
    ensures DropNil(DropNil(es)) == DropNil(es)
  {
    if |es| > 0 {
      DropNilTwice(es[1..]);
      DropNilCons(es[0], es[1..]);
      assert es == [es[0]] + es[1..];
      if !es[0].val.Nil? {
        DropNilCons(es[0], DropNil(es[1..]));
      }
    }
  }

  /** When the last entry is not Nil, it is also the last one kept. */
  lemma LastWritten(es: seq<Entry>)
    requires |es| > 0 && !es[|es| - 1].val.Nil?
    ensures |DropNil(es)| > 0 && DropNil(es)[|DropNil(es)| - 1] == es[|es| - 1]
    decreases |es|
  {
    var rest := es[1..];
    var d := DropNil(rest);
    if |rest| == 0 {
      assert d == [];
    } else {
      assert rest[|rest| - 1] == es[|es| - 1];
      LastWritten(rest);
      if !es[0].val.Nil? {
        assert ([es[0]] + d)[|d|] == d[|d| - 1];
      }
    }
  }

  lemma {:induction false} DropNilUnique(es: seq<Entry>)
    requires UniqueKeys(es)
    ensures UniqueKeys(DropNil(es))
  {
    if |es| > 0 {
      var e, rest := es[0], es[1..];
      assert es == [e] + rest;
      DropNilCons(e, rest);
      assert UniqueKeys(rest);
      DropNilUnique(rest);
      if !e.val.Nil? {
        assert forall i :: 0 <= i < |rest| ==> rest[i].key != e.key by {
          forall i | 0 <= i < |rest| ensures rest[i].key != e.key {
            assert rest[i] == es[i + 1];
          }
        }
        DropNilAvoids(rest, e.key);
        ConsUnique(e, DropNil(rest));
      }
    }
  }

  lemma DropNilAvoids(es: seq<Entry>, key: string)
    requires forall i :: 0 <= i < |es| ==> es[i].key != key
    ensures forall i :: 0 <= i < |DropNil(es)| ==> DropNil(es)[i].key != key
  {
    var d := DropNil(es);
    DropNilKeeps(es);
    forall i | 0 <= i < |d| ensures d[i].key != key {
      assert d[i] in es;
    }
  }

  lemma ConsUnique(e: Entry, es: seq<Entry>)
    requires UniqueKeys(es)
    requires forall i :: 0 <= i < |es| ==> es[i].key != e.key
    ensures UniqueKeys([e] + es)
  {
    var c := [e] + es;
    forall i, j | 0 <= i < j < |c| ensures c[i].key != c[j].key {
      assert c[j] == es[j - 1];
      if i > 0 {
        assert c[i] == es[i - 1];
      }
    }
  }
}
